=== FILE: README.md ===
# QHub document chat, modelled in Dafny

QHub is a Django application. A signed-in user uploads a PDF, DOCX or TXT
file. The server then:

- extracts the file's text;
- stores a `Document`, a `Chat` named after the file, and a
  `DocumentChatMapping` linking the two;
- cuts the text into overlapping 1000-character chunks;
- embeds each chunk with Gemini and upserts it, in batches of 50, into a
  Chroma collection `document_<id>`.

The chat endpoint `gemini_chat` takes a message and a `chat_id`. It finds the
first document mapped to that chat and retrieves the four nearest chunks.
Given those chunks, it asks Gemini for an answer grounded in the document;
without them, it sends the plain question. The browser script `chat.js`
sends the CSRF token, keeps the chat history in `sessionStorage`, remembers
the chat id returned by the last upload, and replays the history when an item
is clicked. The document list, delete and test-query endpoints, the
registration serializer and the field set of `UserSerializer` complete the
core.

The project models each of these as pure Dafny functions over immutable
state, with one module per concern:

| module | file | models |
|---|---|---|
| `Strings` | strings.dfy | Python `str.strip`, JavaScript `String.trim`, `split`/`join`, decimal rendering and parsing |
| `Json` | json.dfy | decoded request bodies, Python truthiness and `int(v)` |
| `DocModels` | docmodels.dfy | `Document`, `Chat`, `DocumentChatMapping`, upload paths, `.first()` lookups, cascading deletes |
| `Chunking` | chunking.dfy | `chunk_text`, both as written and with the intended loop exit |
| `Ingestion` | ingestion.dfy | `embed_texts` and `upsert_document_embeddings` with its batching loop |
| `Retrieval` | retrieval.dfy | `query_document` and the reshaping of Chroma's answer |
| `Extraction` | extraction.dfy | `os.path.splitext` and `extract_text_from_file` |
| `DocViews` | docviews.dfy | the upload, list, delete and test-query views |
| `ChatView` | chatview.dfy | `gemini_chat` |
| `Registration` | registration.dfy | `RegisterSerializer` and `UserSerializer` |
| `Frontend` | frontend.dfy | `chat.js`: CSRF cookie, upload and submit handlers, history list and replay |

The following are inputs to the model rather than parts of it:

- the database clock;
- the storage backend's choice of file name;
- the PDF and DOCX libraries and the file system;
- the Gemini embedding and generation calls;
- Chroma's nearest-neighbour search;
- JSON decoding of the request body;
- the password validators and the password hasher;
- the server's answers to the browser's `fetch` calls.

Each is either a function-valued parameter or a datatype that records its
outcome, such as a value or an exception.

Two loops are written with a `fuel` bound and report when the bound is
spent: the chunking loop and the upload's ingestion loop. With the loop as
written, the bound is always spent for long texts (see "## Findings").

## Model

| member | source | states |
|---|---|---|
| Strings.Strip | chat/views.py:27 | `strip()`/`trim()` gives the empty string exactly for all-whitespace input, never lengthens its input, and otherwise neither starts nor ends with whitespace |
| Strings.StripRemovesOuterSpaces | chat/views.py:27 | the stripped text is a contiguous slice of the input whose cut-off prefix and suffix are all whitespace; with the previous row, it is exactly the input without its outer whitespace runs |
| Strings.StripIdempotent | chat/views.py:66 | stripping an already stripped text changes nothing, so the context line `r.get('text').strip()` of a stored chunk is stable |
| Strings.StripSurrounded | users/serializers.py:20-25 | whitespace added on both sides of a value is removed by the field's trimming, so the value reaches validation unchanged |
| Strings.ParseNatToString | frontend/static/frontend/js/chat.js:178-185 | a non-negative index rendered as decimal text reads back as the same number, as `data-index` and `parseInt` need |
| Json.PyIntReadsRendered | chat/views.py:49-53 | Python `int()` of an integer's decimal rendering gives the integer back, so a chat id sent as a string finds the same rows as the number |
| Json.PyInt | documents/views.py:199 | `int(v)` keeps integers, maps booleans to 0/1, and fails for null, lists, objects and blank strings |
| Json.Truncate | documents/views.py:199 | `int()` of a float truncates toward zero on both sides of zero |
| DocModels.UploadPathInjective | documents/models.py:5-6 | `documents/user_<id>/<name>` never gives two different users, or two different names, the same path |
| DocModels.DisplayName | documents/models.py:16-17 | `__str__` is the title when there is one and the file name otherwise; it is empty only when both are |
| DocModels.CollectionNameInjective | documents/embeddings.py:98 | `document_<id>` gives every document its own Chroma collection |
| DocModels.FirstMappingForChat | chat/views.py:49-54 | `.first()` returns the earliest mapping of the chat, and returns nothing exactly when no mapping names the chat |
| DocModels.FirstMappingForDocument | documents/views.py:138 | the same lookup by document: the earliest mapping of the document, or nothing exactly when it has none |
| DocModels.SeveralMappingsPerChat | documents/models.py:20-25 | a well-formed database may link one chat to two documents, so "the first mapping" is a real choice |
| DocModels.DeleteDocumentCascade | documents/models.py:24 | deleting a document removes exactly that document and the mappings that point to it; chats stay, and the database stays well formed |
| DocModels.DeleteUserCascade | documents/models.py:10 | deleting a user removes exactly that user's documents and chats and the mappings of removed documents, keeps every mapping of a surviving document, and stays well formed |
| Chunking.RunShape | documents/embeddings.py:53-58 | consecutive chunk windows are linked by the loop's start update; a run that stops has a last window whose next start is past the text |
| Chunking.ChunksAreWindows | documents/embeddings.py:45-60 | the chunks are the slices `text[start:min(start+size, len)]` of the loop's windows, in order |
| Chunking.ChunkText | documents/embeddings.py:45-47 | empty text gives no chunks; every chunk is non-empty and at most `chunk_size` long |
| Chunking.AsWrittenNeverExits | documents/embeddings.py:53-58 | with `0 < overlap <= len(text)`, `start = end - overlap` never reaches the end of the text, so `chunk_text` does not return |
| Chunking.AsWrittenFixedPoint | documents/embeddings.py:53-58 | once the window reaches the end, the loop appends the same last `overlap` characters forever |
| Chunking.AsWrittenExample | documents/embeddings.py:53-58 | `chunk_text("abcdefghij", 4, 2)` produces `abcd`, `cdef`, `efgh`, `ghij`, `ij`, `ij`, … and is still running after six chunks |
| Chunking.AsWrittenPartition | documents/embeddings.py:56-58 | with no overlap, or an overlap longer than the text, the loop stops after `ceil(len/size)` windows that tile the text without gaps or overlap |
| Chunking.AsWrittenChunksRebuildText | documents/embeddings.py:45-60 | in that terminating case, the chunks concatenate back to the text |
| Chunking.CorrectedExits | documents/embeddings.py:53-58 | with the loop stopping once a window reaches the end, every text is chunked in at most `len(text)` steps |
| Chunking.CorrectedChunkTextCovers | documents/embeddings.py:45-60 | the corrected `chunk_text` terminates, and every character of the text lies in some chunk |
| Chunking.CorrectedOverlapExact | documents/embeddings.py:54-56 | in the corrected loop with `0 <= overlap < chunk_size`, every chunk but the last is exactly `chunk_size` long and shares exactly `overlap` characters with the next |
| Chunking.CorrectedAgreesWhenTerminating | documents/embeddings.py:53-58 | where the loop as written does terminate, the corrected loop produces the same windows |
| Chunking.CorrectedExample | documents/embeddings.py:53-58 | the corrected `chunk_text("abcdefghij", 4, 2)` gives `abcd`, `cdef`, `efgh`, `ghij` and stops |
| Ingestion.EmbedTexts | documents/embeddings.py:66-76 | `embed_texts` succeeds exactly when every text embeds, and then returns one vector per text, in order |
| Ingestion.ChunkIdInjective | documents/embeddings.py:121 | the id `<document>_<chunk index>` determines both the document and the index |
| Ingestion.IdsFromDistinct | documents/embeddings.py:121-128 | the ids one upsert run gives its chunks are pairwise distinct |
| Ingestion.UpsertDocumentEmbeddings | documents/embeddings.py:82-145 | the run is skipped exactly when Chroma is missing or the text is blank, and then changes nothing; otherwise only collection `document_<id>` changes, by the batches appended to it, and no batch exceeds `batch_size`; every stored vector is the embedding of the chunk stored with it |
| Ingestion.LoopKeepsEmbedded | documents/embeddings.py:133-140 | each `collection.upsert` of the loop pairs the i-th chunk with `embed_texts`' i-th vector, the embedding of that chunk |
| Ingestion.InlineLoopMatchesChunkText | documents/embeddings.py:116-143 | the inline loop upserts exactly the chunks `chunk_text` would make, with ids `<doc>_0 … <doc>_(n-1)` and metadata `(document_id, chunk_index, file_name)` for each, and it finishes exactly when `chunk_text` does |
| Ingestion.AsWrittenIngestionNeverCompletes | documents/embeddings.py:116-131 | for a text of at least 200 characters, `upsert_document_embeddings` never completes its loop: it is skipped (no Chroma, blank text), runs on, or stops on an embedding failure |
| Ingestion.CorrectedIngestionCompletes | documents/embeddings.py:116-143 | with the intended exit and a working embedder, every chunk is stored, in order and under consecutive ids |
| Ingestion.CorrectedIngestionReturns | documents/embeddings.py:116-143 | with the intended exit, the upsert returns within `len(text)` iterations, whatever the embedder does |
| Retrieval.QueryDocument | documents/embeddings.py:151-192 | no Chroma, no collection, or a failed `collection.query` gives `[]`; a failing query embedding is the only error not caught inside; a non-empty answer has one match per returned document |
| Retrieval.ShapeFrom | documents/embeddings.py:183-189 | the result list is built only when every row has its metadata and distance; otherwise the first bad row raises, as `KeyError`/`AttributeError` or `IndexError` |
| Retrieval.AtMostTopK | documents/embeddings.py:168-173 | when the store honours `n_results`, `query_document` returns at most `top_k` matches |
| Retrieval.AlignedAnswerShapes | documents/embeddings.py:178-189 | a well-shaped Chroma answer becomes one `{text, metadata, distance, file_name}` entry per returned document, in rank order |
| Extraction.SplitExt | documents/views.py:39 | `os.path.splitext` splits the path into root and extension that concatenate back to the path; the extension is the last dot-suffix of the final path component |
| Extraction.SplitExtOfStemAndExt | documents/views.py:84 | a file name `stem.ext` whose stem is not all dots has extension `.ext` and root `stem` |
| Extraction.DotFileHasNoExt | documents/views.py:84 | a dot-file such as `.pdf` has no extension |
| Extraction.ExtIgnoresDirectory | documents/views.py:39 | dots in directory names do not affect the extension of the full path |
| Extraction.ReaderChosenByLowerExt | documents/views.py:39-60 | the reader is chosen by the lower-cased extension alone: paths whose extensions agree up to ASCII case are read alike, whatever their directory or stem |
| Extraction.StructuredReadEndsWithNewline | documents/views.py:44-55 | a PDF or DOCX read in which every page or paragraph loads gives text that is empty or ends in `"\n"`, and a DOCX with paragraphs gives non-empty text |
| Extraction.KeepsTextBeforeRaise | documents/views.py:42-65 | when a library raises part-way through, the text gathered so far is returned |
| Extraction.GatherEndsWithNewline | documents/views.py:44-55 | PDF and DOCX text ends with a newline unless it is empty; a DOCX with paragraphs is never empty |
| Extraction.MissingLibrariesReadPlain | documents/views.py:20-28 | without `pdfplumber` and `python-docx`, every file is read as plain text |
| DocViews.PathJoin | documents/views.py:93 | `os.path.join` ends with the joined part, and an absolute part replaces the root |
| DocViews.CreateRecordsWellFormed | documents/views.py:98-109 | the records an upload creates keep the database well formed, and the document id was not used before |
| DocViews.CreateRecordsLinksChat | documents/views.py:106-109 | after the upload, the document's first mapping points to the new chat |
| DocViews.Upload | documents/views.py:74-124 | a missing file, a file over 100 MB or an extension other than `.pdf`/`.txt`/`.docx` is rejected with its message and changes nothing; otherwise the file is stored under `documents/user_<id>/<name>`, the records are created, only the document's collection can change, and the view answers 201 with the new chat id unless ingestion is still running |
| DocViews.UploadSurvivesIngestion | documents/views.py:113-118 | with the intended loop exit, the upload always answers, and the response and database do not depend on whether embedding works or Chroma is present |
| DocViews.AsWrittenUploadNeverAnswers | documents/views.py:113-118 | with the loop as written, an upload of at least 200 characters of text, with Chroma present and embedding working, never answers |
| DocViews.AsWrittenUploadAnswersOnlyAfterFailure | documents/views.py:113-118 | with the loop as written, such an upload answers 201 only after embedding failed, with only full batches of 50 chunks indexed |
| DocViews.UploadIndexesChunks | documents/views.py:74-124 | with the intended loop exit, an upload answers 201, and the document's collection holds exactly the chunks of its text |
| DocViews.UploadedPdfIsReadAsPdf | documents/views.py:90-96 | the path the view reads is the stored path, and a `.pdf` upload is read by the PDF reader |
| DocViews.FullPathKeepsExtension | documents/views.py:90-96 | joining the media root and the upload path keeps the uploaded name's extension |
| DocViews.ExtensionCheckIgnoresCase | documents/views.py:82-87 | a file `stem.EXT` is accepted exactly when `.ext` in lower case is one of the three allowed extensions |
| DocViews.DotFileRejected | documents/views.py:82-87 | a name such as `.pdf` or `.docx` is rejected, since `splitext` sees no extension in it |
| DocViews.FileUrl | documents/views.py:142 | a document without a file has no URL; otherwise the URL is `/media/` followed by the storage's URI form of the name |
| DocViews.EntryLinkedChat | documents/views.py:137-145 | `linked_chat_id` is the chat of the document's first mapping, or `None` exactly when it has no mapping |
| DocViews.SortNewestFirst | documents/views.py:134 | `order_by("-uploaded_at")` is a permutation of its input with no later upload after an earlier one |
| DocViews.ListDocuments | documents/views.py:133-147 | the list has one entry per document of the user, newest first |
| DocViews.ListHasOnlyOwned | documents/views.py:134 | every listed entry describes a document of the requesting user |
| DocViews.ListHasAllOwned | documents/views.py:134-145 | every document of the requesting user is listed |
| DocViews.ListShowsOnlyOwnDocuments | documents/views.py:134 | every listed id belongs to a stored document of the requesting user |
| DocViews.DeleteDocument | documents/views.py:156-180 | 404 and no change exactly when the user does not own the document; otherwise the document and its mappings go, chats stay, the file goes when the storage deletes it, and collection `document_<pk>` goes when Chroma is present |
| DocViews.DeleteUndoesCreate | documents/views.py:156-180 | deleting a just-uploaded document restores the documents and mappings from before the upload; only the upload's chat remains |
| DocViews.DeleteUndoesCreateMappings | documents/views.py:162 | in that case the mappings are exactly those from before the upload |
| DocViews.TestDocumentQuery | documents/views.py:188-208 | a body that is not a JSON object gives 500; a falsy `document_id` or `question` gives 400; otherwise the answer echoes both and carries exactly what `query_document(int(document_id), question, top_k=5)` found |
| DocViews.RenderedIdQueriesDocument | documents/views.py:189-201 | a document id sent as a decimal string queries that document |
| DocViews.TestQueryAtMostFive | documents/views.py:198-202 | the test query returns at most five matches |
| ChatView.ValidationOrder | chat/views.py:22-39 | any method but POST gives 405; then, in order: a blank message gives 400 "Empty message", a falsy chat id gives 400 "chat_id missing", and a missing API key gives 500; a rejected request makes no retrieval or generation call, and an accepted one always calls the model |
| ChatView.ZeroChatIdIsMissing | chat/views.py:33-34 | a chat id of `0` is rejected as missing |
| ChatView.RetrieveContext | chat/views.py:47-77 | the view only ever queries the document of the chat's first mapping, with the stripped question and `top_k=4`; the context is the joined lines of what that query found, and empty when it raised or when no query was made |
| ChatView.WithTextAppend | chat/views.py:64-67 | the comprehension's filter keeps the matches that have text, in retrieval order and with their multiplicity: it distributes over concatenation and keeps a single match exactly when it has text |
| ChatView.RagContextEmpty | chat/views.py:64-67 | the joined context is empty exactly when no retrieved match has text |
| ChatView.RetrievalFailureFallsBack | chat/views.py:71-73 | a failing retrieval leaves the same empty context as a chat with no document |
| ChatView.StoredChatIdFindsMapping | chat/views.py:49-54 | a chat id sent as a decimal string finds the same document context as the number |
| ChatView.GroundedPromptEmbeds | chat/views.py:80-95 | the grounded prompt contains the document context and then the question, each intact at a fixed position |
| ChatView.PromptChoice | chat/views.py:46-99 | an accepted request sends the model the prompt chosen for its retrieved context |
| ChatView.ReplyTrimmed | chat/views.py:108 | a non-empty reply neither starts nor ends with whitespace, and the reply is empty exactly when the model's text was whitespace only |
| ChatView.ReplyOrError | chat/views.py:101-116 | an accepted request answers 200 with the trimmed reply, or 500 with the model's error message |
| Registration.Cleaned | users/serializers.py:20-25 | the trimmed value is empty exactly when the input is blank, and never longer than the input |
| Registration.CharFieldErrors | users/serializers.py:20-25 | a `CharField` value fails exactly when it is blank, when its validators object to the stripped value, or when it holds a null character; a blank value gets only the blank message |
| Registration.Password2Errors | users/serializers.py:25 | `password2` fails exactly when it is blank or holds a null character, with the blank message or the null-character message |
| Registration.FieldErrors | users/serializers.py:20-43 | each field error is reported under its own key: the `password` field's messages, the `password2` field's messages, an email already taken, and nothing else |
| Registration.Register | users/serializers.py:19-57 | a field error or a mismatch of the trimmed passwords is answered with the errors and changes nothing; otherwise exactly one user is added, with the next id, the trimmed username and email, and the hash of the trimmed password |
| Registration.BlankPasswordNotValidated | users/serializers.py:20-24 | a blank password gets only the "may not be blank" error |
| Registration.NullCharacterRefused | users/serializers.py:20-25 | a null character in either password is refused under its own field and registers nobody, even when the passwords match and the validators accept |
| Registration.PasswordsComparedStripped | users/serializers.py:32-37 | passwords that differ only in surrounding whitespace match, and the stored hash is of the trimmed password |
| Registration.RegisterPreservesConsistent | users/serializers.py:40-57 | registration keeps emails unique and ids below the next id |
| Registration.SecondRegistrationWithEmailFails | users/serializers.py:40-43 | registering a second time with the same trimmed email is rejected as "Email is already taken." and changes nothing |
| Registration.RegisteredUserIsStored | users/serializers.py:46-57 | the new user serializes to the submitted trimmed fields, with its hash of the trimmed password, and its email now counts as taken |
| Registration.SerializeHidesPassword | users/serializers.py:9-12 | two users serialize alike exactly when they differ at most in the password hash |
| Frontend.TokenFromFirstMatch | frontend/static/frontend/js/chat.js:32-37 | the token comes from the first pair that starts with `csrftoken=`, with the name removed |
| Frontend.CsrfTokenAfterOtherCookie | frontend/static/frontend/js/chat.js:27-39 | in `a=b; csrftoken=T`, the token read is exactly `T` |
| Frontend.CsrfTokenMissing | frontend/static/frontend/js/chat.js:38 | without a CSRF pair, the header value is the empty string |
| Frontend.UploadChange | frontend/static/frontend/js/chat.js:57-88 | an upload adds two notices and leaves the history alone; a success with a non-zero `chat_id` makes it the current chat and stores it, and the failure notice appears exactly when the upload did not succeed |
| Frontend.Submit | frontend/static/frontend/js/chat.js:91-142 | blank input sends nothing and changes nothing; otherwise the trimmed message and chat id are sent and the user entry is recorded, and a bot entry follows exactly when the answer arrived |
| Frontend.SubmitRecordsReply | frontend/static/frontend/js/chat.js:126-131 | a successful answer adds the reply, or "No response from AI" when it is missing or empty |
| Frontend.NotOkIsConnectionError | frontend/static/frontend/js/chat.js:121-140 | an error status is shown as "Error connecting to AI", never as the quota notice |
| Frontend.UploadedChatIdReachesView | frontend/static/frontend/js/chat.js:77-80 | after an upload returns chat `n`, the next message carries `"n"`, and the view finds the same context as for the number `n` |
| Frontend.StoredIdSurvivesReload | frontend/static/frontend/js/chat.js:55 | after a reload, which resets the in-memory id to 1, the stored id still wins |
| Frontend.ItemIsUserEntry | frontend/static/frontend/js/chat.js:173-181 | each history item shows a user entry's text and carries that entry's index |
| Frontend.ItemsInOrder | frontend/static/frontend/js/chat.js:173 | items are listed in history order |
| Frontend.UserEntryIsListed | frontend/static/frontend/js/chat.js:173-181 | every user entry is listed |
| Frontend.Replay | frontend/static/frontend/js/chat.js:188-191 | clicking replays exactly the history up to and including the clicked index |
| Frontend.ClickReplaysUpToItem | frontend/static/frontend/js/chat.js:183-191 | a clicked item's `data-index` parses back to its index, and the replay ends with the clicked user message |

## Left out

- Json.PyInt: accepts only an optional sign and ASCII digits after stripping. Python's `int()` also accepts underscores between digits (`"1_0"`) and non-ASCII decimal digits. A `chat_id` or `document_id` written that way is treated as unparsable here.
- Json.PyInt: `int(float("inf"))` and `int(float("nan"))` raise in Python; decoded JSON floats are finite reals here.
- Registration.Register: users/models.py is not part of this model. The checks `CustomUser` derives for username, email and phone number are not modelled:
  - blank and `max_length` checks;
  - `EmailField` format validation;
  - the username's uniqueness and validators.
- Registration.Register: missing fields and non-string values, which DRF reports as "This field is required." or "Not a valid string.", are not modelled.
- Registration.Register: the phone number is passed through untrimmed.
- Registration.FieldErrors: the null-character check is modelled for the two passwords only. For username, email and phone number it belongs with the `CustomUser`-derived checks above.
- Registration.CharFieldErrors: `ProhibitSurrogateCharactersValidator` never fires. Strings here are sequences of Unicode scalar values, so a lone surrogate cannot occur.
- Ingestion.UpsertDocumentEmbeddings: only embedding failures abort the loop. A raising `collection.upsert`, `get_collection` or `get_or_create_collection` is not modelled. The upload view would catch those the same way.
- Ingestion.UpsertDocumentEmbeddings: `extracted_text` is always a string here, so the `or ""` fallback for `None` is not modelled.
- Ingestion.UpsertDocumentEmbeddings: the fuel bound means a run is reported as still running once the bound is spent. The upload view maps that to "no response yet".
- `get_chroma_client`: the module-level client cache and the `chromadb` import are a single "Chroma available" flag.
- `genai.configure`: not modelled. The API key is an input checked only for presence.
- The `print` and `traceback.print_exc()` logging is not modelled.
- ChatView.GeminiChat: the outer `except` is modelled for four causes: undecodable JSON, a body that is not an object, a message that is not a string, and a failing model call. Database errors inside the mapping lookup are treated like "no mapping".
- ChatView.RetrieveContext: a chat id that `int()` cannot read finds no mapping. In Django, filtering an integer column by such a value raises; the view catches that and falls back to an empty context, which gives the same result.
- DocViews.Upload: `serializer.data` is the created `Document` record, because documents/serializers.py is not part of this model.
- DocViews.Upload: the storage's renaming of a taken name is an input function, `storedName`.
- DocViews.Upload: `Chat`'s `title` `max_length` is not checked.
- DocViews.FileUrl: the storage's `url()` percent-encoding is the input function `toUri`. Only the `/media/` prefix is fixed.
- DocViews.SortNewestFirst: the order of documents with equal `uploaded_at` is a choice of the model. The database does not fix it, so only the newest-first ordering and the permutation are promised.
- DocViews.TestDocumentQuery: the body is taken as decoded JSON. DRF's 400 for a malformed body and form-encoded bodies are not modelled.
- DocViews.DeleteDocument: the view builds its own `PersistentClient` for the delete. Here it shares the upload's "Chroma available" flag.
- DocModels.FirstMappingForChat: `.first()` orders by primary key. Rows are only ever appended here, so that is sequence order.
- Extraction.LowerExt: lower-casing covers ASCII letters only; Python's `str.lower()` also maps other scripts.
- Frontend.Page: `chatHistory` is kept decoded. The `JSON.stringify`/`JSON.parse` round trip through `sessionStorage` is not modelled.
- Frontend.CsrfToken: `decodeURIComponent` of the cookie string is not modelled.
- Frontend.UploadChange: a non-numeric `chat_id` in the upload answer, and JavaScript's rendering of non-integral numbers, are not modelled.
- Frontend.Submit: a `reply` that is not a string is not modelled.
- Frontend.Submit: each handler runs to completion before the next event. A second submit during the `await fetch` of chat.js:111-131 would push its user entry before the first reply arrives. The history would then be `[u1, u2, b1, b2]`, and that interleaving is not modelled.
- The typing indicator, the New Chat button, DOM scrolling and the `fileUpload.value` reset are not modelled.
- Chunking.RunFrom: the loop runs under a `fuel` bound. A run that spends it is reported as `Running`. That is how non-termination is stated.
- Ingestion.Loop: the same `fuel` bound as `Chunking.RunFrom`.

## Findings

| source | as written | input that shows it | evidently intended | confidence | as-written member | corrected member |
|---|---|---|---|---|---|---|
| documents/embeddings.py:53-58 | `start = end - overlap` falls back to `end` only when the result is negative. Once a window reaches the end of the text, the next start is `len - overlap` again, so the loop never stops whenever `0 < overlap <= len(text)` | `chunk_text("abcdefghij", 4, 2)`: the windows reach `[6,10)`, then repeat `[8,10)` forever | stop once a window reaches the end of the text, giving `abcd`, `cdef`, `efgh`, `ghij` | high, not executed | Chunking.AsWrittenExample | Chunking.CorrectedChunkTextCovers |
| documents/embeddings.py:116-131 | `upsert_document_embeddings` repeats the same start update in its inline loop, so for a text of at least 200 characters it returns only when embedding raises. The upload view calls it before answering, so such an upload gets no response while embedding works | a document whose extracted text has 200 or more non-blank characters, with Chroma present and a working embedder | the loop stores every chunk of the text once and returns, and the upload answers 201 | high, not executed | Ingestion.AsWrittenIngestionNeverCompletes | Ingestion.CorrectedIngestionCompletes |

=== FILE: chatview.dfy ===
/** The chat endpoint `gemini_chat` (chat/views.py): request validation in a
    fixed order, the document context built from retrieval results, the choice
    between the document-grounded prompt and a plain chat prompt, and the
    reply sent back.

    The request body's JSON decoding, the environment's API key, the
    retrieval service and the generative model are inputs.  The result
    records the HTTP response together with the retrieval and generation
    calls the view made, so that "before any lookup" can be stated. */
module ChatView {
  import opened Common
  import opened Strings
  import opened Json
  import opened DocModels
  import opened Retrieval

  /** What `json.loads` makes of the body. */
  datatype Decoded = Malformed | Decoded(value: JsonValue)

  datatype Request = Request(verb: string, body: string)

  /** What the view's `str(e)` would report for an exception it catches
      around the whole request. */
  datatype Cause =
    | BadJson             // `json.loads` raised
    | BodyNotObject       // `data.get` on a list, string or number
    | MessageNotText      // `.strip()` on a message that is not a string
    | GenerationFailed(message: string)

  datatype Payload =
    | ErrorText(error: string)
    | Exception(cause: Cause)
    | Reply(reply: string)

  datatype Response = Response(status: nat, payload: Payload)

  /** `response.text` of the generative model, or the exception it raised. */
  datatype Generation = Generated(text: string) | GenerateRaised(message: string)

  /** The generative model, called with a system instruction and a prompt. */
  type Generator = (string, string) -> Generation

  /** A retrieval request the view made: document id, query text, `top_k`. */
  datatype RetrievalCall = RetrievalCall(documentId: nat, query: string, topK: int)

  /** A generation request the view made. */
  datatype GenerationCall = GenerationCall(instruction: string, prompt: string)

  datatype Handled = Handled(response: Response, retrieval: Option<RetrievalCall>, generation: Option<GenerationCall>)

  /** The services the view reaches: the database, the vector store and both Gemini models. */
  datatype Services = Services(
    db: Db,
    store: Store,
    embedQuery: QueryEmbedder,
    generate: Generator,
    apiKey: Option<string>)

  const RagTopK: int := 4

  const FallbackReply: string := "The information is not available in the document."

  const GroundedInstruction: string :=
    "You are a document-only assistant. Never answer outside the document content."

  const FriendlyInstruction: string :=
    "You are a helpful, friendly AI assistant. Answer naturally and clearly."

  /** `request.body or "{}"`. */
  function BodyText(body: string): (t: string)
    ensures body != [] ==> t == body
    ensures body == [] ==> t == "{}"
  {
    if body == [] then "{}" else body
  }

  /** One line of the context: `f"- {r.get('text', '').strip()}"`. */
  function ContextLine(m: Match): (line: string)
    ensures |line| >= 2 && line[..2] == "- "
  {
    "- " + Strip(Python, m.text)
  }

  /** The retrieved chunks with non-empty text, in retrieval order. */
  function WithText(ms: seq<Match>): (r: seq<Match>)
    ensures |r| <= |ms|
    ensures forall i :: 0 <= i < |r| ==> r[i].text != [] && r[i] in ms
    ensures forall i :: 0 <= i < |ms| && ms[i].text != [] ==> ms[i] in r
  {
    if ms == [] then []
    else if ms[0].text != [] then [ms[0]] + WithText(ms[1..])
    else WithText(ms[1..])
  }

  /** Filtering distributes over concatenation: the kept chunks keep their
      retrieval order and their multiplicity. */
  lemma {:induction false} WithTextAppend(a: seq<Match>, b: seq<Match>)
    ensures WithText(a + b) == WithText(a) + WithText(b)
    ensures WithText([]) == [] && forall m :: WithText([m]) == (if m.text != [] then [m] else [])
    decreases |a|
  {
    forall m ensures WithText([m]) == (if m.text != [] then [m] else []) {
      assert [m][1..] == [];
    }
    if a == [] {
      assert a + b == b;
    } else {
      assert (a + b)[0] == a[0];
      assert (a + b)[1..] == a[1..] + b;
      WithTextAppend(a[1..], b);
      if a[0].text != [] {
        assert [a[0]] + (WithText(a[1..]) + WithText(b)) == [a[0]] + WithText(a[1..]) + WithText(b);
      }
    }
  }

  function Lines(ms: seq<Match>): (lines: seq<string>)
    ensures |lines| == |ms|
    ensures forall i :: 0 <= i < |ms| ==> lines[i] == ContextLine(ms[i])
  {
    seq(|ms|, i requires 0 <= i < |ms| => ContextLine(ms[i]))
  }

  /** `rag_context`: the `"\n"`-join of the context lines of the chunks with text. */
  function RagContext(ms: seq<Match>): string {
    Join(Lines(WithText(ms)), "\n")
  }

  /** A join of non-empty strings is empty exactly when there is nothing to join. */
  lemma {:induction false} JoinEmpty(parts: seq<string>, sep: string)
    requires forall i :: 0 <= i < |parts| ==> parts[i] != []
    ensures Join(parts, sep) == [] <==> parts == []
  {
    if |parts| > 1 {
      assert |Join(parts, sep)| >= |parts[0]|;
    }
  }

  /** The context is empty exactly when no retrieved chunk has text; a chunk
      of spaces alone still contributes the line `"- "`. */
  lemma RagContextEmpty(ms: seq<Match>)
    ensures RagContext(ms) == [] <==> forall i :: 0 <= i < |ms| ==> ms[i].text == []
  {
    var lines := Lines(WithText(ms));
    JoinEmpty(lines, "\n");
    if WithText(ms) != [] {
      assert WithText(ms)[0] in ms;
    }
  }

  /** The grounded prompt's fixed parts around the context and the question. */
  const PromptHead: string := "\nYou are a strict document-based assistant.\n\nDOCUMENT CONTENT:\n"
  const PromptMiddle: string := "\n\nUSER QUESTION:\n"
  const PromptTail: string :=
    "\n\nRULES:\n- Answer ONLY using the document content above.\n- Do NOT assume or guess.\n"
    + "- If the answer is NOT found, reply exactly:\n\"The information is not available in the document.\"\n"

  function GroundedPrompt(context: string, question: string): string {
    PromptHead + context + PromptMiddle + question + PromptTail
  }

  /** In `h + c + m + q + t`, `c` and `q` sit right after `h` and after `h + c + m`. */
  lemma FiveParts(h: string, c: string, m: string, q: string, t: string)
    ensures var p := h + c + m + q + t;
            var at := |h| + |c| + |m|;
            && |p| == at + |q| + |t|
            && p[|h|..|h| + |c|] == c
            && p[at..at + |q|] == q
  {
    var p := h + c + m + q + t;
    assert p == (h + c) + (m + q) + t;
    assert (h + c)[|h|..] == c;
    var at := |h| + |c| + |m|;
    assert p[at..at + |q|] == (m + q)[|m|..];
  }

  /** The grounded prompt carries the context and the question verbatim, at fixed places. */
  lemma GroundedPromptEmbeds(context: string, question: string)
    ensures var p := GroundedPrompt(context, question);
            var q := |PromptHead| + |context| + |PromptMiddle|;
            && |p| == q + |question| + |PromptTail|
            && p[|PromptHead|..|PromptHead| + |context|] == context
            && p[q..q + |question|] == question
  {
    FiveParts(PromptHead, context, PromptMiddle, question, PromptTail);
  }

  /** The prompt and system instruction for a given context. */
  function PromptFor(context: string, question: string): (call: GenerationCall)
    ensures context != [] ==> call == GenerationCall(GroundedInstruction, GroundedPrompt(context, question))
    ensures context == [] ==> call == GenerationCall(FriendlyInstruction, question)
  {
    if context != [] then GenerationCall(GroundedInstruction, GroundedPrompt(context, question))
    else GenerationCall(FriendlyInstruction, question)
  }

  /** `response.text.strip() if response.text else FALLBACK`. */
  function ReplyText(text: string): (reply: string)
    ensures text == [] ==> reply == FallbackReply
    ensures text != [] ==> reply == Strip(Python, text)
  {
    if text != [] then Strip(Python, text) else FallbackReply
  }

  /** A reply made from the model's text is never padded with whitespace;
      the reply is empty only when the model answered with whitespace alone. */
  lemma ReplyTrimmed(text: string)
    ensures var reply := ReplyText(text);
            && (text != [] && reply != [] ==> !IsPySpace(reply[0]) && !IsPySpace(reply[|reply| - 1]))
            && (reply == [] <==> text != [] && IsBlank(Python, text))
  {
    assert |FallbackReply| == 49;
  }

  /** The context the view builds for the chat: the first mapping's document,
      `query_document(..., top_k=4)`, and the joined lines; `""` whenever
      any step finds nothing or raises.  Also returns the retrieval call made. */
  function RetrieveContext(s: Services, chatId: JsonValue, question: string): (r: (string, Option<RetrievalCall>))
    ensures r.1.Some? ==> r.1.value.query == question && r.1.value.topK == RagTopK
    ensures r.1.None? ==> r.0 == []
    ensures r.1.Some? ==> exists key :: PyInt(chatId) == Some(key) && FirstMappingForChat(s.db, key) == Some(Mapping(key, r.1.value.documentId))
    ensures r.1.Some? ==>
              var q := QueryDocument(s.store, s.embedQuery, r.1.value.documentId, JString(question), RagTopK);
              && (q.Found? ==> r.0 == RagContext(q.matches))
              && (q.Raised? ==> r.0 == [])
  {
    match PyInt(chatId)
    case None => ("", None)
    case Some(key) =>
      match FirstMappingForChat(s.db, key)
      case None => ("", None)
      case Some(m) =>
        var call := RetrievalCall(m.documentId, question, RagTopK);
        match QueryDocument(s.store, s.embedQuery, m.documentId, JString(question), RagTopK)
        case Raised(_) => ("", Some(call))
        case Found(ms) => (RagContext(ms), Some(call))
  }

  /** `gemini_chat(request)`. */
  function GeminiChat(req: Request, decode: string -> Decoded, s: Services): (h: Handled)
  {
    if req.verb != "POST" then
      Handled(Response(405, ErrorText("POST request required")), None, None)
    else
      match decode(BodyText(req.body))
      case Malformed => Handled(Response(500, Exception(BadJson)), None, None)
      case Decoded(data) =>
        if !data.JObject? then Handled(Response(500, Exception(BodyNotObject)), None, None)
        else
          var message := Get(data.fields, "message", JString(""));
          var chatId := Get(data.fields, "chat_id", JNull);
          if !message.JString? then Handled(Response(500, Exception(MessageNotText)), None, None)
          else
            var question := Strip(Python, message.s);
            if question == [] then Handled(Response(400, ErrorText("Empty message")), None, None)
            else if !Truthy(chatId) then Handled(Response(400, ErrorText("chat_id missing")), None, None)
            else if s.apiKey.None? || s.apiKey.value == [] then
              Handled(Response(500, ErrorText("Gemini API key missing")), None, None)
            else
              var (context, retrieval) := RetrieveContext(s, chatId, question);
              var call := PromptFor(context, question);
              match s.generate(call.instruction, call.prompt)
              case GenerateRaised(e) => Handled(Response(500, Exception(GenerationFailed(e))), retrieval, Some(call))
              case Generated(text) => Handled(Response(200, Reply(ReplyText(text))), retrieval, Some(call))
  }

  /** The checks every request passes before the view does any work. */
  predicate Validated(req: Request, decode: string -> Decoded, s: Services) {
    && req.verb == "POST"
    && decode(BodyText(req.body)).Decoded?
    && var data := decode(BodyText(req.body)).value;
       && data.JObject?
       && Get(data.fields, "message", JString("")).JString?
       && Strip(Python, Get(data.fields, "message", JString("")).s) != []
       && Truthy(Get(data.fields, "chat_id", JNull))
       && s.apiKey.Some? && s.apiKey.value != []
  }

  /** The question sent to retrieval and to the model: the stripped message. */
  function Question(req: Request, decode: string -> Decoded): string
    requires decode(BodyText(req.body)).Decoded? && decode(BodyText(req.body)).value.JObject?
    requires Get(decode(BodyText(req.body)).value.fields, "message", JString("")).JString?
  {
    Strip(Python, Get(decode(BodyText(req.body)).value.fields, "message", JString("")).s)
  }

  /** Validation order: 405 for any method but POST, before anything else;
      then the body; then an empty message (400) before a missing chat id (400);
      then a missing API key (500).  No retrieval and no generation happens
      unless every check passes, and then the model is always called. */
  lemma ValidationOrder(req: Request, decode: string -> Decoded, s: Services)
    ensures var h := GeminiChat(req, decode, s);
      && (req.verb != "POST" ==> h.response == Response(405, ErrorText("POST request required")))
      && (!Validated(req, decode, s) ==> h.retrieval.None? && h.generation.None? && h.response.status != 200)
      && (Validated(req, decode, s) ==> h.generation.Some?)
      && (req.verb == "POST" && decode(BodyText(req.body)).Decoded? && decode(BodyText(req.body)).value.JObject? ==>
            var fields := decode(BodyText(req.body)).value.fields;
            var message := Get(fields, "message", JString(""));
            && (message.JString? && IsBlank(Python, message.s) ==> h.response == Response(400, ErrorText("Empty message")))
            && (message.JString? && !IsBlank(Python, message.s) && !Truthy(Get(fields, "chat_id", JNull)) ==>
                  h.response == Response(400, ErrorText("chat_id missing")))
            && (message.JString? && !IsBlank(Python, message.s) && Truthy(Get(fields, "chat_id", JNull))
                && (s.apiKey.None? || s.apiKey.value == []) ==>
                  h.response == Response(500, ErrorText("Gemini API key missing"))))
  {
  }

  /** A chat id of `0` (or `""`, `false`, `null`) counts as missing. */
  lemma ZeroChatIdIsMissing(decode: string -> Decoded, s: Services, body: string, message: string)
    requires decode(body) == Decoded(JObject(map["message" := JString(message), "chat_id" := JInt(0)]))
    requires !IsBlank(Python, message) && body != []
    ensures GeminiChat(Request("POST", body), decode, s).response == Response(400, ErrorText("chat_id missing"))
  {
  }

  /** When no retrieval result carries text (or retrieval fails, or the chat
      has no document) the model gets exactly the question, with the friendly
      instruction; otherwise it gets the grounded prompt, built from the
      retrieved context and the question, with the document-only instruction. */
  lemma PromptChoice(req: Request, decode: string -> Decoded, s: Services)
    requires Validated(req, decode, s)
    ensures var h := GeminiChat(req, decode, s);
            var question := Question(req, decode);
            var chatId := Get(decode(BodyText(req.body)).value.fields, "chat_id", JNull);
            var context := RetrieveContext(s, chatId, question).0;
            && h.generation == Some(PromptFor(context, question))
            && (context == [] ==> h.generation == Some(GenerationCall(FriendlyInstruction, question)))
            && (context != [] ==> h.generation == Some(GenerationCall(GroundedInstruction, GroundedPrompt(context, question))))
  {
  }

  /** Retrieval failures never fail the request: a chat whose retrieval
      raises is answered exactly like a chat with no document at all. */
  lemma RetrievalFailureFallsBack(s: Services, chatId: JsonValue, question: string, key: int, m: Mapping)
    requires PyInt(chatId) == Some(key) && FirstMappingForChat(s.db, key) == Some(m)
    requires QueryDocument(s.store, s.embedQuery, m.documentId, JString(question), RagTopK).Raised?
    ensures RetrieveContext(s, chatId, question).0 == []
    ensures RetrieveContext(s, chatId, question).0 == RetrieveContext(s.(db := s.db.(mappings := [])), chatId, question).0
  {
    assert FirstMappingForChat(s.db.(mappings := []), key).None?;
  }

  /** A chat id the browser stored as a decimal string finds the same
      mapping as the number itself. */
  lemma StoredChatIdFindsMapping(s: Services, n: nat, question: string)
    ensures RetrieveContext(s, JString(NatToString(n)), question) == RetrieveContext(s, JInt(n), question)
  {
    PyIntReadsRendered(n);
  }

  /** Whatever the model answers, a validated request gets a reply (200) or
      the model's error text (500); the reply is the stripped text or the
      fixed sentence, also when no document context was used. */
  lemma ReplyOrError(req: Request, decode: string -> Decoded, s: Services)
    requires Validated(req, decode, s)
    ensures var h := GeminiChat(req, decode, s);
            var call := h.generation.value;
            match s.generate(call.instruction, call.prompt)
            case Generated(text) => h.response == Response(200, Reply(ReplyText(text)))
            case GenerateRaised(e) => h.response == Response(500, Exception(GenerationFailed(e)))
  {
  }
}

=== FILE: chunking.dfy ===
/** The fixed-size, overlapping text chunker of the document pipeline
    (`chunk_text` in documents/embeddings.py).

    The loop keeps one integer, `start`, and emits the window
    `text[start:min(start + chunk_size, len(text))]` while `start < len(text)`.
    Only the length of the text steers the loop, so the loop itself is modelled
    over `length` and produces half-open `Span`s; the chunk strings are the
    slices of the text at those spans.

    The loop is run with a fuel bound: a run either exits (the `while` condition
    became false) or is still running when the fuel is spent.  Two policies for
    choosing the next start exist:
    - `AsWritten` is the rule of `chunk_text` as written: `end - overlap`, or `end` when that is
      negative.  It does not guarantee progress, and it never exits once the
      text is at least `overlap` long (see `AsWrittenNeverExits`).
    - `Corrected` stops after the window that reaches the end of the text and
      otherwise falls back to `end` whenever `end - overlap` would not move
      forward; it always exits and covers the text. */
module Chunking {
  import opened Strings

  /** The sizes `upsert_document_embeddings` hard-codes (and `chunk_text`'s defaults). */
  const DefaultChunkSize: nat := 1000
  const DefaultOverlap: int := 200

  datatype Policy = AsWritten | Corrected

  /** The half-open character window `[lo, hi)`. */
  datatype Span = Span(lo: nat, hi: nat)

  /** A fuel-bounded run: `Exited` when the loop condition turned false,
      `Running` when the fuel ran out first. */
  datatype Bounded<T> = Exited(items: seq<T>) | Running(items: seq<T>)

  function Min(a: int, b: int): int {
    if a <= b then a else b
  }

  /** `end = min(start + chunk_size, length)`. */
  function WindowEnd(start: nat, size: nat, length: nat): nat {
    Min(start + size, length)
  }

  /** The start of the next window after the window `[start, end)`. */
  function NextStart(policy: Policy, start: nat, end: nat, overlap: int, length: nat): nat {
    match policy
    case AsWritten =>
      if end - overlap < 0 then end else end - overlap
    case Corrected =>
      if end >= length then end
      else if end - overlap > start then end - overlap
      else end
  }

  /** The span is one the loop can emit: it starts inside the text and ends
      where `min(start + chunk_size, length)` puts it. */
  predicate Window(sp: Span, size: nat, length: nat) {
    sp.lo < length && sp.hi == WindowEnd(sp.lo, size, length)
  }

  /** Each span after the first starts where the policy says the previous one leads. */
  predicate Chain(policy: Policy, length: nat, overlap: int, spans: seq<Span>) {
    forall i :: 0 <= i < |spans| - 1 ==>
      spans[i + 1].lo == NextStart(policy, spans[i].lo, spans[i].hi, overlap, length)
  }

  function Prepend<T>(x: T, r: Bounded<T>): (r': Bounded<T>)
    ensures r'.items == [x] + r.items
    ensures r'.Exited? <==> r.Exited?
  {
    match r
    case Exited(xs) => Exited([x] + xs)
    case Running(xs) => Running([x] + xs)
  }

  /** The `while start < length` loop, from a given `start`, with `fuel` iterations at most. */
  function RunFrom(policy: Policy, length: nat, size: nat, overlap: int, start: nat, fuel: nat): (r: Bounded<Span>)
    requires size >= 1
    ensures start >= length ==> r == Exited([])
    ensures start < length && fuel > 0 ==> |r.items| > 0 && r.items[0].lo == start
    ensures forall i :: 0 <= i < |r.items| ==> Window(r.items[i], size, length)
    decreases fuel
  {
    if start >= length then Exited([])
    else if fuel == 0 then Running([])
    else
      var end := WindowEnd(start, size, length);
      var rest := RunFrom(policy, length, size, overlap, NextStart(policy, start, end, overlap, length), fuel - 1);
      Prepend(Span(start, end), rest)
  }

  /** Prepending a span that leads to the first span of a chain extends the chain. */
  lemma ChainCons(policy: Policy, length: nat, overlap: int, sp: Span, rest: seq<Span>)
    requires Chain(policy, length, overlap, rest)
    requires rest != [] ==> rest[0].lo == NextStart(policy, sp.lo, sp.hi, overlap, length)
    ensures Chain(policy, length, overlap, [sp] + rest)
  {
    var all := [sp] + rest;
    forall i | 0 <= i < |all| - 1
      ensures all[i + 1].lo == NextStart(policy, all[i].lo, all[i].hi, overlap, length)
    {
      if i > 0 {
        assert all[i] == rest[i - 1] && all[i + 1] == rest[i];
      }
    }
  }

  /** The shape of a run: each window after the first starts where the policy
      sends the previous one; a run still going after `fuel` iterations has
      one window per iteration; an exited run ended because the start the
      policy computed after its last window reached `length`. */
  lemma {:induction false} RunShape(policy: Policy, length: nat, size: nat, overlap: int, start: nat, fuel: nat)
    requires size >= 1
    ensures var r := RunFrom(policy, length, size, overlap, start, fuel);
            && Chain(policy, length, overlap, r.items)
            && (r.Running? ==> |r.items| == fuel)
            && (r.Exited? ==> |r.items| <= fuel)
            && (r.Exited? && |r.items| > 0 ==>
                  NextStart(policy, r.items[|r.items| - 1].lo, r.items[|r.items| - 1].hi, overlap, length) >= length)
    decreases fuel
  {
    if start < length && fuel > 0 {
      var end := WindowEnd(start, size, length);
      var next := NextStart(policy, start, end, overlap, length);
      RunShape(policy, length, size, overlap, next, fuel - 1);
      RunUnfold(policy, length, size, overlap, start, next, fuel);
      var rest := RunFrom(policy, length, size, overlap, next, fuel - 1);
      ChainCons(policy, length, overlap, Span(start, end), rest.items);
    }
  }

  /** The chunk strings at the given spans. */
  function Slices(text: string, spans: seq<Span>): (chunks: seq<string>)
    requires forall i :: 0 <= i < |spans| ==> spans[i].lo <= spans[i].hi <= |text|
    ensures |chunks| == |spans|
    ensures forall i :: 0 <= i < |spans| ==> chunks[i] == text[spans[i].lo..spans[i].hi]
  {
    seq(|spans|, i requires 0 <= i < |spans| => text[spans[i].lo..spans[i].hi])
  }

  /** `chunk_text(text, chunk_size, overlap)`, run for at most `fuel` iterations. */
  function ChunkText(policy: Policy, text: string, size: nat, overlap: int, fuel: nat): (r: Bounded<string>)
    requires size >= 1
    ensures text == [] ==> r == Exited([])
    ensures forall i :: 0 <= i < |r.items| ==> 1 <= |r.items[i]| <= size
  {
    if text == [] then Exited([])
    else
      var run := RunFrom(policy, |text|, size, overlap, 0, fuel);
      var chunks := Slices(text, run.items);
      if run.Exited? then Exited(chunks) else Running(chunks)
  }

  /** The chunks of a run are exactly the slices `text[start:min(start + size, len)]`
      at the starts the loop visits. */
  lemma ChunksAreWindows(policy: Policy, text: string, size: nat, overlap: int, fuel: nat)
    requires size >= 1
    ensures var run := RunFrom(policy, |text|, size, overlap, 0, fuel);
            var r := ChunkText(policy, text, size, overlap, fuel);
            && |r.items| == |run.items|
            && (r.Exited? <==> run.Exited?)
            && forall i :: 0 <= i < |run.items| ==>
                 r.items[i] == text[run.items[i].lo..Min(run.items[i].lo + size, |text|)]
  {
  }

  // ---------------------------------------------------------------------
  // `chunk_text` as written: no forward-progress guarantee
  // ---------------------------------------------------------------------

  /** With a positive overlap no larger than the text, every start `chunk_text`'s
      rule computes lies inside the text, so `while start < length` stays true. */
  lemma AsWrittenStaysInside(start: nat, size: nat, overlap: int, length: nat)
    requires size >= 1 && 0 < overlap <= length && start < length
    ensures NextStart(AsWritten, start, WindowEnd(start, size, length), overlap, length) < length
  {
  }

  /** The loop of `chunk_text` never exits: whatever the fuel, it is still running
      and has emitted one chunk per iteration. */
  lemma {:induction false} AsWrittenNeverExits(length: nat, size: nat, overlap: int, start: nat, fuel: nat)
    requires size >= 1 && 0 < overlap <= length && start < length
    ensures RunFrom(AsWritten, length, size, overlap, start, fuel).Running?
    ensures |RunFrom(AsWritten, length, size, overlap, start, fuel).items| == fuel
    decreases fuel
  {
    if fuel > 0 {
      var end := WindowEnd(start, size, length);
      var next := NextStart(AsWritten, start, end, overlap, length);
      AsWrittenStaysInside(start, size, overlap, length);
      AsWrittenNeverExits(length, size, overlap, next, fuel - 1);
    }
  }

  /** Once a window reaches the end of the text (and `overlap <= size`), the
      loop is at a fixed point: it restarts at `length - overlap` and emits
      the last `overlap` characters again, forever. */
  lemma {:induction false} AsWrittenFixedPoint(length: nat, size: nat, overlap: int, fuel: nat)
    requires 0 < overlap <= size && overlap <= length
    ensures var tail := Span(length - overlap, length);
            RunFrom(AsWritten, length, size, overlap, length - overlap, fuel) == Running(seq(fuel, _ => tail))
    decreases fuel
  {
    var tail := Span(length - overlap, length);
    if fuel > 0 {
      var s := length - overlap;
      assert WindowEnd(s, size, length) == length;
      assert NextStart(AsWritten, s, length, overlap, length) == s;
      AsWrittenFixedPoint(length, size, overlap, fuel - 1);
      assert [tail] + seq(fuel - 1, _ => tail) == seq(fuel, _ => tail);
    }
  }

  /** Reaching `end == length` sends the loop of `chunk_text` to `length - overlap`. */
  lemma AsWrittenEndLeadsToTail(start: nat, size: nat, overlap: int, length: nat)
    requires size >= 1 && 0 < overlap <= length && start < length && start + size >= length
    ensures NextStart(AsWritten, start, WindowEnd(start, size, length), overlap, length) == length - overlap
  {
  }

  lemma AsWrittenExampleRun()
    ensures RunFrom(AsWritten, 10, 4, 2, 0, 6)
         == Running([Span(0, 4), Span(2, 6), Span(4, 8), Span(6, 10), Span(8, 10), Span(8, 10)])
  {
    AsWrittenFixedPoint(10, 4, 2, 2);
    assert RunFrom(AsWritten, 10, 4, 2, 8, 2) == Running([Span(8, 10), Span(8, 10)]);
    assert RunFrom(AsWritten, 10, 4, 2, 6, 3) == Running([Span(6, 10), Span(8, 10), Span(8, 10)]);
    assert RunFrom(AsWritten, 10, 4, 2, 4, 4) == Running([Span(4, 8), Span(6, 10), Span(8, 10), Span(8, 10)]);
    assert RunFrom(AsWritten, 10, 4, 2, 2, 5) == Running([Span(2, 6), Span(4, 8), Span(6, 10), Span(8, 10), Span(8, 10)]);
  }

  /** The windows of the example, as strings. */
  lemma ExampleSlices(t: string)
    requires t == "abcdefghij"
    ensures Slices(t, [Span(0, 4), Span(2, 6), Span(4, 8), Span(6, 10), Span(8, 10), Span(8, 10)])
         == ["abcd", "cdef", "efgh", "ghij", "ij", "ij"]
  {
    var chunks := Slices(t, [Span(0, 4), Span(2, 6), Span(4, 8), Span(6, 10), Span(8, 10), Span(8, 10)]);
    var expected: seq<string> := ["abcd", "cdef", "efgh", "ghij", "ij", "ij"];
    assert chunks[0] == "abcd" by { assert t[0..4] == "abcd"; }
    assert chunks[1] == "cdef" by { assert t[2..6] == "cdef"; }
    assert chunks[2] == "efgh" by { assert t[4..8] == "efgh"; }
    assert chunks[3] == "ghij" by { assert t[6..10] == "ghij"; }
    assert chunks[4] == "ij" && chunks[5] == "ij" by { assert t[8..10] == "ij"; }
    assert |chunks| == |expected| == 6;
    assert forall i :: 0 <= i < 6 ==> chunks[i] == expected[i];
  }

  /** `chunk_text("abcdefghij", 4, 2)`: after "ghij" the loop emits "ij" again and again. */
  lemma AsWrittenExample()
    ensures ChunkText(AsWritten, "abcdefghij", 4, 2, 6) == Running(["abcd", "cdef", "efgh", "ghij", "ij", "ij"])
  {
    AsWrittenExampleRun();
    ExampleSlices("abcdefghij");
  }

  // ---------------------------------------------------------------------
  // When the loop of `chunk_text` does terminate: a partition of the text
  // ---------------------------------------------------------------------

  /** `spans` cut `[lo, hi)` into consecutive, non-overlapping, non-empty pieces. */
  predicate Tiles(spans: seq<Span>, lo: nat, hi: nat)
    decreases |spans|
  {
    if |spans| == 0 then lo == hi
    else spans[0].lo == lo && spans[0].lo < spans[0].hi && Tiles(spans[1..], spans[0].hi, hi)
  }

  /** Prepending a non-empty piece that ends where a tiling starts extends the tiling. */
  lemma TilesCons(sp: Span, rest: seq<Span>, hi: nat)
    requires sp.lo < sp.hi && Tiles(rest, sp.hi, hi)
    ensures Tiles([sp] + rest, sp.lo, hi)
  {
    assert ([sp] + rest)[1..] == rest;
  }

  /** `ceil(n / d)`, the number of `d`-sized windows needed for `n` characters. */
  function CeilDiv(n: nat, d: nat): (q: nat)
    requires d >= 1
    ensures n > 0 ==> (q - 1) * d < n <= q * d
    ensures n == 0 ==> q == 0
  {
    if n == 0 then 0 else if n <= d then 1 else CeilDiv(n - d, d) + 1
  }

  /** With no overlap, or a text shorter than the overlap, the rule of `chunk_text`
      advances to `end` exactly. */
  lemma AsWrittenAdvancesToEnd(start: nat, end: nat, overlap: int, length: nat)
    requires overlap == 0 || length < overlap
    requires end <= length
    ensures NextStart(AsWritten, start, end, overlap, length) == end
  {
  }

  /** One iteration of the loop: the first window, then the run from the next start. */
  lemma RunStep(policy: Policy, length: nat, size: nat, overlap: int, start: nat, next: nat, fuel: nat)
    requires size >= 1 && start < length && fuel > 0
    requires next == NextStart(policy, start, WindowEnd(start, size, length), overlap, length)
    ensures var r := RunFrom(policy, length, size, overlap, start, fuel);
            var rest := RunFrom(policy, length, size, overlap, next, fuel - 1);
            && r.items == [Span(start, WindowEnd(start, size, length))] + rest.items
            && (r.Exited? <==> rest.Exited?)
  {
  }

  /** One more window of `size` characters accounts for one more unit of `ceil`. */
  lemma CeilDivStep(n: nat, m: nat, d: nat)
    requires d >= 1 && n > 0 && m == (if n <= d then 0 else n - d)
    ensures CeilDiv(n, d) == CeilDiv(m, d) + 1
  {
  }

  /** The loop of `chunk_text` terminates when `overlap == 0` or `length < overlap`:
      given `ceil((length - start) / size)` iterations it exits, after
      exactly that many windows. */
  lemma {:induction false} AsWrittenExitsAfterCeil(length: nat, size: nat, overlap: int, start: nat, fuel: nat)
    requires size >= 1
    requires overlap == 0 || length < overlap
    requires start <= length
    requires fuel >= CeilDiv(length - start, size)
    ensures var r := RunFrom(AsWritten, length, size, overlap, start, fuel);
            r.Exited? && |r.items| == CeilDiv(length - start, size)
    decreases fuel
  {
    if start < length {
      var end := WindowEnd(start, size, length);
      AsWrittenAdvancesToEnd(start, end, overlap, length);
      CeilDivStep(length - start, length - end, size);
      AsWrittenExitsAfterCeil(length, size, overlap, end, fuel - 1);
      RunStep(AsWritten, length, size, overlap, start, end, fuel);
    }
  }

  /** Under the same conditions the windows tile `[start, length)`. */
  lemma {:induction false} AsWrittenTiles(length: nat, size: nat, overlap: int, start: nat, fuel: nat)
    requires size >= 1
    requires overlap == 0 || length < overlap
    requires start <= length
    requires fuel >= CeilDiv(length - start, size)
    ensures Tiles(RunFrom(AsWritten, length, size, overlap, start, fuel).items, start, length)
    decreases fuel
  {
    if start < length {
      var end := WindowEnd(start, size, length);
      AsWrittenAdvancesToEnd(start, end, overlap, length);
      CeilDivStep(length - start, length - end, size);
      AsWrittenTiles(length, size, overlap, end, fuel - 1);
      RunUnfold(AsWritten, length, size, overlap, start, end, fuel);
      TilesCons(Span(start, end), RunFrom(AsWritten, length, size, overlap, end, fuel - 1).items, length);
    }
  }

  /** The loop of `chunk_text` terminates when `overlap == 0` or `length < overlap`:
      given `ceil((length - start) / size)` iterations it exits, and the
      windows tile `[start, length)` with one window per `size` characters. */
  lemma AsWrittenPartition(length: nat, size: nat, overlap: int, start: nat, fuel: nat)
    requires size >= 1
    requires overlap == 0 || length < overlap
    requires start <= length
    requires fuel >= CeilDiv(length - start, size)
    ensures var r := RunFrom(AsWritten, length, size, overlap, start, fuel);
            && r.Exited?
            && Tiles(r.items, start, length)
            && |r.items| == CeilDiv(length - start, size)
  {
    AsWrittenExitsAfterCeil(length, size, overlap, start, fuel);
    AsWrittenTiles(length, size, overlap, start, fuel);
  }

  /** Concatenation of a sequence of strings. */
  function Concat(parts: seq<string>): string {
    if |parts| == 0 then "" else parts[0] + Concat(parts[1..])
  }

  /** Slices at spans that tile `[lo, hi)` concatenate back to `text[lo..hi]`. */
  lemma {:induction false} TilesConcat(text: string, spans: seq<Span>, lo: nat, hi: nat)
    requires Tiles(spans, lo, hi)
    requires hi <= |text|
    requires forall i :: 0 <= i < |spans| ==> spans[i].lo <= spans[i].hi <= |text|
    ensures lo <= hi
    ensures Concat(Slices(text, spans)) == text[lo..hi]
    decreases |spans|
  {
    if |spans| > 0 {
      var mid := spans[0].hi;
      TilesConcat(text, spans[1..], mid, hi);
      assert Slices(text, spans) == [text[lo..mid]] + Slices(text, spans[1..]);
      assert text[lo..hi] == text[lo..mid] + text[mid..hi];
    }
  }

  /** With `overlap == 0` (or a text shorter than the overlap) `chunk_text`
      terminates and its chunks concatenate to the whole text. */
  lemma AsWrittenChunksRebuildText(text: string, size: nat, overlap: int, fuel: nat)
    requires size >= 1
    requires overlap == 0 || |text| < overlap
    requires fuel >= CeilDiv(|text|, size)
    ensures ChunkText(AsWritten, text, size, overlap, fuel).Exited?
    ensures Concat(ChunkText(AsWritten, text, size, overlap, fuel).items) == text
  {
    if text != [] {
      AsWrittenPartition(|text|, size, overlap, 0, fuel);
      var run := RunFrom(AsWritten, |text|, size, overlap, 0, fuel);
      TilesConcat(text, run.items, 0, |text|);
    }
  }

  // ---------------------------------------------------------------------
  // The corrected rule
  // ---------------------------------------------------------------------

  /** The corrected rule always moves forward. */
  lemma CorrectedProgress(start: nat, size: nat, overlap: int, length: nat)
    requires size >= 1 && start < length
    ensures NextStart(Corrected, start, WindowEnd(start, size, length), overlap, length) > start
  {
  }

  /** The corrected loop exits within `length - start` iterations, whatever the overlap. */
  lemma {:induction false} CorrectedExits(length: nat, size: nat, overlap: int, start: nat, fuel: nat)
    requires size >= 1
    requires start + fuel >= length
    ensures RunFrom(Corrected, length, size, overlap, start, fuel).Exited?
    decreases fuel
  {
    if start < length {
      var next := NextStart(Corrected, start, WindowEnd(start, size, length), overlap, length);
      CorrectedProgress(start, size, overlap, length);
      CorrectedExits(length, size, overlap, next, fuel - 1);
    }
  }

  /** `spans` cover `[lo, hi)` without gaps: each window starts after the
      previous start and no later than the previous end, and the last one
      ends at `hi`. */
  predicate Covers(spans: seq<Span>, lo: nat, hi: nat)
    decreases |spans|
  {
    if |spans| == 0 then lo == hi
    else
      && spans[0].lo == lo && lo < spans[0].hi <= hi
      && (if |spans| == 1 then spans[0].hi == hi
          else spans[0].lo < spans[1].lo <= spans[0].hi && Covers(spans[1..], spans[1].lo, hi))
  }

  /** Prepending a window that starts before, and reaches, the next one extends a cover. */
  lemma CoversCons(sp: Span, rest: seq<Span>, hi: nat)
    requires sp.lo < sp.hi <= hi
    requires rest == [] ==> sp.hi == hi
    requires rest != [] ==> sp.lo < rest[0].lo <= sp.hi && Covers(rest, rest[0].lo, hi)
    ensures Covers([sp] + rest, sp.lo, hi)
  {
    assert ([sp] + rest)[1..] == rest;
  }

  /** With a non-negative overlap the corrected windows cover the text from `start` on. */
  lemma {:induction false} CorrectedCovers(length: nat, size: nat, overlap: int, start: nat, fuel: nat)
    requires size >= 1 && overlap >= 0
    requires start <= length
    requires start + fuel >= length
    ensures Covers(RunFrom(Corrected, length, size, overlap, start, fuel).items, start, length)
    decreases fuel
  {
    if start < length {
      var end := WindowEnd(start, size, length);
      var next := NextStart(Corrected, start, end, overlap, length);
      CorrectedProgress(start, size, overlap, length);
      CorrectedCovers(length, size, overlap, next, fuel - 1);
      var rest := RunFrom(Corrected, length, size, overlap, next, fuel - 1);
      RunUnfold(Corrected, length, size, overlap, start, next, fuel);
      CoversCons(Span(start, end), rest.items, length);
    }
  }

  /** Position `k` lies inside one of the windows. */
  predicate InSomeSpan(spans: seq<Span>, k: nat) {
    exists i :: 0 <= i < |spans| && spans[i].lo <= k < spans[i].hi
  }

  /** Every character position of the covered range lies in some window. */
  lemma {:induction false} CoversEveryPosition(spans: seq<Span>, lo: nat, hi: nat, k: nat)
    requires Covers(spans, lo, hi)
    requires lo <= k < hi
    ensures InSomeSpan(spans, k)
    decreases |spans|
  {
    if k >= spans[0].hi {
      assert |spans| > 1;
      CoversEveryPosition(spans[1..], spans[1].lo, hi, k);
      var i :| 0 <= i < |spans[1..]| && spans[1..][i].lo <= k < spans[1..][i].hi;
      assert spans[i + 1] == spans[1..][i];
    }
  }

  /** For `0 <= overlap < size` consecutive corrected windows overlap by exactly
      `overlap` characters, and every window but the last is `size` long. */
  lemma CorrectedOverlapExact(length: nat, size: nat, overlap: int, start: nat, fuel: nat)
    requires 0 <= overlap < size
    ensures var spans := RunFrom(Corrected, length, size, overlap, start, fuel).items;
            forall i :: 0 <= i < |spans| - 1 ==>
              spans[i].hi - spans[i].lo == size && spans[i].hi - spans[i + 1].lo == overlap
  {
    var spans := RunFrom(Corrected, length, size, overlap, start, fuel).items;
    RunShape(Corrected, length, size, overlap, start, fuel);
    forall i | 0 <= i < |spans| - 1
      ensures spans[i].hi - spans[i].lo == size && spans[i].hi - spans[i + 1].lo == overlap
    {
      assert Window(spans[i + 1], size, length);
      assert spans[i + 1].lo == NextStart(Corrected, spans[i].lo, spans[i].hi, overlap, length);
    }
  }

  /** One unfolding of `RunFrom`, with the next start named by the caller. */
  lemma RunUnfold(policy: Policy, length: nat, size: nat, overlap: int, start: nat, next: nat, fuel: nat)
    requires size >= 1 && start < length && fuel > 0
    requires next == NextStart(policy, start, WindowEnd(start, size, length), overlap, length)
    ensures RunFrom(policy, length, size, overlap, start, fuel)
            == Prepend(Span(start, WindowEnd(start, size, length)), RunFrom(policy, length, size, overlap, next, fuel - 1))
  {
  }

  /** Whenever the loop of `chunk_text` terminates (`overlap <= 0`, or a text shorter
      than the overlap), the corrected loop visits exactly the same windows. */
  lemma {:induction false} CorrectedAgreesWhenTerminating(length: nat, size: nat, overlap: int, start: nat, fuel: nat)
    requires size >= 1
    requires overlap <= 0 || length < overlap
    ensures RunFrom(Corrected, length, size, overlap, start, fuel) == RunFrom(AsWritten, length, size, overlap, start, fuel)
    decreases fuel
  {
    if start < length && fuel > 0 {
      var end := WindowEnd(start, size, length);
      var a := NextStart(AsWritten, start, end, overlap, length);
      var c := NextStart(Corrected, start, end, overlap, length);
      RunUnfold(AsWritten, length, size, overlap, start, a, fuel);
      RunUnfold(Corrected, length, size, overlap, start, c, fuel);
      if a == c {
        CorrectedAgreesWhenTerminating(length, size, overlap, a, fuel - 1);
      } else {
        assert a >= length && c >= length;
      }
    }
  }

  /** The corrected chunker on the same example stops after "ghij". */
  lemma CorrectedExampleRun()
    ensures RunFrom(Corrected, 10, 4, 2, 0, 10) == Exited([Span(0, 4), Span(2, 6), Span(4, 8), Span(6, 10)])
  {
    assert RunFrom(Corrected, 10, 4, 2, 10, 6) == Exited([]);
    assert RunFrom(Corrected, 10, 4, 2, 6, 7) == Exited([Span(6, 10)]);
    assert RunFrom(Corrected, 10, 4, 2, 4, 8) == Exited([Span(4, 8), Span(6, 10)]);
    assert RunFrom(Corrected, 10, 4, 2, 2, 9) == Exited([Span(2, 6), Span(4, 8), Span(6, 10)]);
  }

  lemma CorrectedExampleSlices(t: string)
    requires t == "abcdefghij"
    ensures Slices(t, [Span(0, 4), Span(2, 6), Span(4, 8), Span(6, 10)]) == ["abcd", "cdef", "efgh", "ghij"]
  {
    var chunks := Slices(t, [Span(0, 4), Span(2, 6), Span(4, 8), Span(6, 10)]);
    var expected: seq<string> := ["abcd", "cdef", "efgh", "ghij"];
    assert chunks[0] == "abcd" by { assert t[0..4] == "abcd"; }
    assert chunks[1] == "cdef" by { assert t[2..6] == "cdef"; }
    assert chunks[2] == "efgh" by { assert t[4..8] == "efgh"; }
    assert chunks[3] == "ghij" by { assert t[6..10] == "ghij"; }
    assert |chunks| == |expected| == 4;
    assert forall i :: 0 <= i < 4 ==> chunks[i] == expected[i];
  }

  /** With the corrected rule, `chunk_text("abcdefghij", 4, 2)` gives `abcd`,
      `cdef`, `efgh`, `ghij` and stops. */
  lemma CorrectedExample()
    ensures ChunkText(Corrected, "abcdefghij", 4, 2, 10) == Exited(["abcd", "cdef", "efgh", "ghij"])
  {
    CorrectedExampleRun();
    CorrectedExampleSlices("abcdefghij");
  }

  /** The corrected chunker, run to completion: it always finishes within
      `|text|` iterations, and with `overlap >= 0` its chunks cover the text. */
  lemma CorrectedChunkTextCovers(text: string, size: nat, overlap: int)
    requires size >= 1 && overlap >= 0
    ensures ChunkText(Corrected, text, size, overlap, |text|).Exited?
    ensures var run := RunFrom(Corrected, |text|, size, overlap, 0, |text|);
            forall k :: 0 <= k < |text| ==> InSomeSpan(run.items, k)
  {
    CorrectedExits(|text|, size, overlap, 0, |text|);
    CorrectedCovers(|text|, size, overlap, 0, |text|);
    var run := RunFrom(Corrected, |text|, size, overlap, 0, |text|);
    forall k | 0 <= k < |text|
      ensures InSomeSpan(run.items, k)
    {
      CoversEveryPosition(run.items, 0, |text|, k);
    }
  }
}

=== FILE: common.dfy ===
/** Optional values, for lookups that may find nothing (`.first()`,
    `dict.get`, `sessionStorage.getItem`). */
module Common {

  datatype Option<+T> = None | Some(value: T) {
    function GetOr(default: T): T {
      match this
      case Some(v) => v
      case None => default
    }
  }

  /** Index of the first element of `xs` satisfying `p`, as a query's `.first()`
      in table order finds it. */
  function FirstWhere<T>(xs: seq<T>, p: T -> bool): (r: Option<nat>)
    ensures r.Some? ==> r.value < |xs| && p(xs[r.value]) && forall j :: 0 <= j < r.value ==> !p(xs[j])
    ensures r.None? <==> forall j :: 0 <= j < |xs| ==> !p(xs[j])
  {
    if |xs| == 0 then None
    else if p(xs[0]) then Some(0)
    else
      match FirstWhere(xs[1..], p)
      case None => None
      case Some(i) => Some(i + 1)
  }

  /** The elements of `xs` satisfying `p`, in order (a `.filter(...)` query). */
  function Filter<T(!new)>(xs: seq<T>, p: T -> bool): (r: seq<T>)
    ensures |r| <= |xs|
    ensures forall x :: x in r <==> x in xs && p(x)
  {
    if |xs| == 0 then []
    else
      assert xs == [xs[0]] + xs[1..];
      if p(xs[0]) then [xs[0]] + Filter(xs[1..], p)
      else Filter(xs[1..], p)
  }
}

=== FILE: docmodels.dfy ===
/** The persistent records of the document app (documents/models.py) and the
    chat record the upload view creates, held as ordered tables.  Rows are
    appended with increasing primary keys, so table order is primary-key
    order, which is the order `.first()` takes on an unordered queryset. */
module DocModels {
  import opened Strings
  import opened Common

  /** A `Document` row.  `file` is the stored file name (the `FileField`'s `name`). */
  datatype Document = Document(
    id: nat,
    userId: nat,
    file: string,
    title: string,
    extractedText: string,
    uploadedAt: int)

  /** A `chat.Chat` row (only what the upload view sets). */
  datatype Chat = Chat(id: nat, userId: nat, title: string)

  /** A `DocumentChatMapping` row: `chat_id` is a plain integer column, not a
      foreign key; `document` is a foreign key with `on_delete=CASCADE`. */
  datatype Mapping = Mapping(chatId: int, documentId: nat)

  /** The tables, and the next primary keys the database will hand out. */
  datatype Db = Db(
    documents: seq<Document>,
    chats: seq<Chat>,
    mappings: seq<Mapping>,
    nextDocId: nat,
    nextChatId: nat)

  predicate HasDocument(db: Db, id: nat) {
    exists i :: 0 <= i < |db.documents| && db.documents[i].id == id
  }

  /** Primary keys are unique and below the next key; every mapping points at
      an existing document.  Nothing restricts how many mappings one chat or
      one document has. */
  predicate WellFormed(db: Db) {
    && DocumentKeysUnique(db.documents)
    && (forall i :: 0 <= i < |db.documents| ==> db.documents[i].id < db.nextDocId)
    && ChatKeysUnique(db.chats)
    && (forall i :: 0 <= i < |db.chats| ==> db.chats[i].id < db.nextChatId)
    && (forall i :: 0 <= i < |db.mappings| ==> HasDocument(db, db.mappings[i].documentId))
  }

  /** No two different document rows share a primary key. */
  predicate DocumentKeysUnique(ds: seq<Document>) {
    forall d1, d2 :: d1 in ds && d2 in ds && d1.id == d2.id ==> d1 == d2
  }

  /** No two different chat rows share a primary key. */
  predicate ChatKeysUnique(cs: seq<Chat>) {
    forall c1, c2 :: c1 in cs && c2 in cs && c1.id == c2.id ==> c1 == c2
  }

  /** In a well-formed database every mapping names a document key below the
      next one. */
  lemma MappingBelowNextKey(db: Db, m: Mapping)
    requires WellFormed(db) && m in db.mappings
    ensures m.documentId < db.nextDocId
  {
    var i :| 0 <= i < |db.mappings| && db.mappings[i] == m;
    var k :| 0 <= k < |db.documents| && db.documents[k].id == m.documentId;
  }

  /** `document_upload_path`: `"documents/user_{user.id}/{filename}"`. */
  function UploadPath(userId: nat, filename: string): string {
    "documents/user_" + NatToString(userId) + "/" + filename
  }

  /** The upload path names its owner and file unambiguously. */
  lemma UploadPathInjective(u1: nat, f1: string, u2: nat, f2: string)
    requires UploadPath(u1, f1) == UploadPath(u2, f2)
    ensures u1 == u2 && f1 == f2
  {
    var prefix := "documents/user_";
    assert UploadPath(u1, f1)[|prefix|..] == NatToString(u1) + ['/'] + f1;
    assert UploadPath(u2, f2)[|prefix|..] == NatToString(u2) + ['/'] + f2;
    DigitsPrefixUnique(NatToString(u1), NatToString(u2), '/', f1, f2);
    NatToStringInjective(u1, u2);
  }

  /** `Document.__str__`: the title, or the file name when the title is blank. */
  function DisplayName(d: Document): (r: string)
    ensures r == d.title || r == d.file
    ensures r == "" <==> d.title == "" && d.file == ""
    ensures d.title != "" ==> r == d.title
  {
    if d.title != "" then d.title else d.file
  }

  /** The vector-index collection that holds a document's chunks. */
  function CollectionName(docId: nat): string {
    "document_" + NatToString(docId)
  }

  /** Different documents never share a collection. */
  lemma CollectionNameInjective(a: nat, b: nat)
    requires CollectionName(a) == CollectionName(b)
    ensures a == b
  {
    var prefix := "document_";
    assert CollectionName(a)[|prefix|..] == NatToString(a);
    assert CollectionName(b)[|prefix|..] == NatToString(b);
    NatToStringInjective(a, b);
  }

  /** `DocumentChatMapping.objects.filter(chat_id=c).first()`. */
  function FirstMappingForChat(db: Db, chatId: int): (r: Option<Mapping>)
    ensures r.Some? ==> exists i :: 0 <= i < |db.mappings| && db.mappings[i] == r.value && r.value.chatId == chatId
                                     && forall j :: 0 <= j < i ==> db.mappings[j].chatId != chatId
    ensures r.None? <==> forall j :: 0 <= j < |db.mappings| ==> db.mappings[j].chatId != chatId
  {
    match FirstWhere(db.mappings, (m: Mapping) => m.chatId == chatId)
    case None => None
    case Some(i) => Some(db.mappings[i])
  }

  /** `DocumentChatMapping.objects.filter(document=d).first()`. */
  function FirstMappingForDocument(db: Db, docId: nat): (r: Option<Mapping>)
    ensures r.Some? ==> exists i :: 0 <= i < |db.mappings| && db.mappings[i] == r.value && r.value.documentId == docId
                                     && forall j :: 0 <= j < i ==> db.mappings[j].documentId != docId
    ensures r.None? <==> forall j :: 0 <= j < |db.mappings| ==> db.mappings[j].documentId != docId
  {
    match FirstWhere(db.mappings, (m: Mapping) => m.documentId == docId)
    case None => None
    case Some(i) => Some(db.mappings[i])
  }

  /** Several mappings for one chat are representable in a well-formed
      database: the schema has no uniqueness constraint on `chat_id`. */
  lemma SeveralMappingsPerChat()
    ensures exists db: Db :: WellFormed(db) && |db.mappings| == 2
                             && db.mappings[0].chatId == db.mappings[1].chatId
                             && db.mappings[0].documentId != db.mappings[1].documentId
  {
    var d1 := Document(1, 1, "", "", "", 0);
    var d2 := Document(2, 1, "", "", "", 0);
    var db := Db([d1, d2], [Chat(7, 1, "")], [Mapping(7, 1), Mapping(7, 2)], 3, 8);
    assert HasDocument(db, 1) by { assert db.documents[0].id == 1; }
    assert HasDocument(db, 2) by { assert db.documents[1].id == 2; }
    assert DocumentKeysUnique(db.documents);
    assert ChatKeysUnique(db.chats);
    assert WellFormed(db);
  }

  /** `DocumentChatMapping.objects.filter(document=d).delete()`. */
  function DeleteMappingsOf(db: Db, docId: nat): (db': Db)
    requires WellFormed(db)
    ensures WellFormed(db')
    ensures forall m :: m in db'.mappings <==> m in db.mappings && m.documentId != docId
    ensures db'.documents == db.documents && db'.chats == db.chats
  {
    var db' := db.(mappings := Filter(db.mappings, (m: Mapping) => m.documentId != docId));
    forall i | 0 <= i < |db'.mappings|
      ensures HasDocument(db', db'.mappings[i].documentId)
    {
      assert db'.mappings[i] in db.mappings;
      var k :| 0 <= k < |db.mappings| && db.mappings[k] == db'.mappings[i];
    }
    db'
  }

  /** Deleting a document row; the database cascades to its mappings. */
  function DeleteDocumentCascade(db: Db, docId: nat): (db': Db)
    requires WellFormed(db)
    ensures WellFormed(db')
    ensures !HasDocument(db', docId)
    ensures forall d :: d in db'.documents <==> d in db.documents && d.id != docId
    ensures forall m :: m in db'.mappings <==> m in db.mappings && m.documentId != docId
    ensures db'.chats == db.chats
  {
    var docs := Filter(db.documents, (d: Document) => d.id != docId);
    var maps := Filter(db.mappings, (m: Mapping) => m.documentId != docId);
    var db' := Db(docs, db.chats, maps, db.nextDocId, db.nextChatId);
    forall i | 0 <= i < |maps|
      ensures HasDocument(db', maps[i].documentId)
    {
      var m := maps[i];
      assert m in db.mappings;
      var k :| 0 <= k < |db.mappings| && db.mappings[k] == m;
      var j :| 0 <= j < |db.documents| && db.documents[j].id == m.documentId;
      assert db.documents[j] in docs;
      var j' :| 0 <= j' < |docs| && docs[j'] == db.documents[j];
    }
    forall i | 0 <= i < |docs|
      ensures docs[i].id != docId
    {
      assert docs[i] in docs;
    }
    db'
  }

  /** Deleting a user: the database cascades to the user's documents (and
      from them to their mappings) and to the user's chats; everything of
      other users stays. */
  function DeleteUserCascade(db: Db, userId: nat): (db': Db)
    requires WellFormed(db)
    ensures WellFormed(db')
    ensures forall d :: d in db'.documents <==> d in db.documents && d.userId != userId
    ensures forall c :: c in db'.chats <==> c in db.chats && c.userId != userId
    ensures forall m :: m in db'.mappings <==> m in db.mappings && HasDocument(db', m.documentId)
  {
    var docs := Filter(db.documents, (d: Document) => d.userId != userId);
    var chats := Filter(db.chats, (c: Chat) => c.userId != userId);
    var maps := Filter(db.mappings, (m: Mapping) => HasDocumentIn(docs, m.documentId));
    var db' := Db(docs, chats, maps, db.nextDocId, db.nextChatId);
    forall i | 0 <= i < |maps|
      ensures HasDocument(db', maps[i].documentId)
    {
      assert maps[i] in maps;
    }
    forall i | 0 <= i < |docs|
      ensures docs[i].id < db.nextDocId
    {
      assert docs[i] in docs;
      var k :| 0 <= k < |db.documents| && db.documents[k] == docs[i];
    }
    forall i | 0 <= i < |chats|
      ensures chats[i].id < db.nextChatId
    {
      assert chats[i] in chats;
      var k :| 0 <= k < |db.chats| && db.chats[k] == chats[i];
    }
    db'
  }

  predicate HasDocumentIn(docs: seq<Document>, id: nat) {
    exists i :: 0 <= i < |docs| && docs[i].id == id
  }
}

=== FILE: docviews.dfy ===
/** The four document endpoints of documents/views.py: upload, list, delete
    and the test query.

    The state an endpoint acts on is the database, the set of stored file
    names and the vector index.  What the storage backend, the PDF/DOCX
    libraries, the embedding service and the clock do is given as inputs. */
module DocViews {
  import opened Common
  import opened Strings
  import opened Json
  import opened DocModels
  import opened Chunking
  import opened Ingestion
  import opened Extraction
  import opened Retrieval

  /** Everything the document endpoints read and write. */
  datatype State = State(db: Db, files: set<string>, index: Index)

  // ---------------------------------------------------------------------
  // Upload
  // ---------------------------------------------------------------------

  /** `100 * 1024 * 1024`: the largest accepted upload, in bytes. */
  const MaxUploadBytes: int := 100 * 1024 * 1024

  /** The accepted extensions, compared after lower-casing. */
  const AllowedExtensions: seq<string> := [".pdf", ".txt", ".docx"]

  /** `MEDIA_URL` of the settings. */
  const MediaUrl: string := "/media/"

  /** The `file` part of the multipart request.  A Django file object is
      falsy when its name is empty. */
  datatype UploadedFile = UploadedFile(name: string, size: int)

  /** The world around the upload view.  `storedName` is what
      `default_storage.save` returns for a requested name (the storage may
      pick another name when the requested one is taken); `readers` is what
      the libraries and the file system yield for a full path; `now` is the
      `auto_now_add` time stamp. */
  datatype UploadEnv = UploadEnv(
    mediaRoot: string,
    storedName: string -> string,
    readers: string -> Readers,
    chromaAvailable: bool,
    embed: Embedder,
    now: int)

  /** `UploadPending`: the view has not returned yet, because the embedding
      loop is still running when the iteration bound is spent. */
  datatype UploadResponse =
    | UploadRejected(detail: string)
    | UploadCreated(document: Document, chatId: nat)
    | UploadPending

  datatype UploadResult = UploadResult(response: UploadResponse, state: State)

  /** The HTTP status of a response the view has sent. */
  function UploadStatus(r: UploadResponse): int
    requires !r.UploadPending?
  {
    if r.UploadRejected? then 400 else 201
  }

  /** `os.path.join(a, b)` for two POSIX components. */
  function PathJoin(a: string, b: string): (r: string)
    ensures |b| > 0 && b[0] == '/' ==> r == b
    ensures |r| >= |b| && r[|r| - |b|..] == b
  {
    if |b| > 0 && b[0] == '/' then b
    else if a == [] || a[|a| - 1] == '/' then a + b
    else a + "/" + b
  }

  /** The three upload checks, as the view makes them in order. */
  predicate HasFile(file: Option<UploadedFile>) {
    file.Some? && file.value.name != ""
  }

  predicate WithinSizeLimit(f: UploadedFile) {
    f.size <= MaxUploadBytes
  }

  predicate AllowedType(f: UploadedFile) {
    LowerExt(f.name) in AllowedExtensions
  }

  /** The record of a successful upload, built from the stored name. */
  function NewDocument(st: State, userId: nat, f: UploadedFile, env: UploadEnv): (d: Document)
    ensures d.id == st.db.nextDocId && d.userId == userId && d.title == f.name && d.uploadedAt == env.now
    ensures d.file == env.storedName(UploadPath(userId, f.name))
  {
    var savePath := env.storedName(UploadPath(userId, f.name));
    var fullPath := PathJoin(env.mediaRoot, savePath);
    Document(st.db.nextDocId, userId, savePath, f.name, ExtractText(fullPath, env.readers(fullPath)), env.now)
  }

  /** The three rows a successful upload creates: the document, a chat
      titled like it, and the mapping that links them. */
  function CreateRecords(db: Db, doc: Document): (db': Db)
    ensures db'.documents == db.documents + [doc]
    ensures db'.chats == db.chats + [Chat(db.nextChatId, doc.userId, doc.title)]
    ensures db'.mappings == db.mappings + [Mapping(db.nextChatId, doc.id)]
    ensures db'.nextDocId == db.nextDocId + 1 && db'.nextChatId == db.nextChatId + 1
  {
    var chat := Chat(db.nextChatId, doc.userId, doc.title);
    Db(db.documents + [doc], db.chats + [chat], db.mappings + [Mapping(chat.id, doc.id)],
       db.nextDocId + 1, db.nextChatId + 1)
  }

  /** Creating the rows with the next document key keeps the database well
      formed, and the new document was not there before. */
  lemma CreateRecordsWellFormed(db: Db, doc: Document)
    requires WellFormed(db) && doc.id == db.nextDocId
    ensures WellFormed(CreateRecords(db, doc))
    ensures !HasDocument(db, doc.id)
  {
    var db' := CreateRecords(db, doc);
    forall i | 0 <= i < |db'.mappings|
      ensures HasDocument(db', db'.mappings[i].documentId)
    {
      if i < |db.mappings| {
        var j :| 0 <= j < |db.documents| && db.documents[j].id == db.mappings[i].documentId;
        assert db'.documents[j] == db.documents[j];
      } else {
        assert db'.documents[|db.documents|] == doc;
      }
    }
    forall d1, d2 | d1 in db'.documents && d2 in db'.documents && d1.id == d2.id
      ensures d1 == d2
    {
      assert d1 in db.documents ==> d1.id < db.nextDocId;
      assert d2 in db.documents ==> d2.id < db.nextDocId;
    }
    forall c1, c2 | c1 in db'.chats && c2 in db'.chats && c1.id == c2.id
      ensures c1 == c2
    {
      assert c1 in db.chats ==> c1.id < db.nextChatId;
      assert c2 in db.chats ==> c2.id < db.nextChatId;
    }
  }

  /** The new document's first mapping is the new one, so the list view
      reports the new chat as its linked chat. */
  lemma CreateRecordsLinksChat(db: Db, doc: Document)
    requires WellFormed(db) && doc.id == db.nextDocId
    ensures FirstMappingForDocument(CreateRecords(db, doc), doc.id) == Some(Mapping(db.nextChatId, doc.id))
  {
    var ms := CreateRecords(db, doc).mappings;
    forall j | 0 <= j < |db.mappings|
      ensures ms[j].documentId != doc.id
    {
      var k :| 0 <= k < |db.documents| && db.documents[k].id == db.mappings[j].documentId;
      assert ms[j] == db.mappings[j];
    }
    assert ms[|db.mappings|] == Mapping(db.nextChatId, doc.id);
  }

  /** The embedding call the upload view makes for a new document. */
  function UploadIngestion(policy: Policy, st: State, doc: Document, env: UploadEnv, fuel: nat): Ingested {
    UpsertDocumentEmbeddings(policy, env.chromaAvailable, doc, env.embed, DefaultBatchSize, st.index, fuel)
  }

  /** `UploadDocumentView.post`, with the embedding loop choosing its next
      start by `policy` and running at most `fuel` iterations.  The rows are
      created before the embedding call; an exception inside that call is
      caught and logged, and whatever was upserted before it stays. */
  function Upload(policy: Policy, st: State, userId: nat, file: Option<UploadedFile>, env: UploadEnv, fuel: nat): (r: UploadResult)
    ensures r.response.UploadRejected? <==> !(HasFile(file) && WithinSizeLimit(file.value) && AllowedType(file.value))
    ensures r.response.UploadRejected? ==> r.state == st
    ensures !HasFile(file) ==> r.response == UploadRejected("No file uploaded")
    ensures HasFile(file) && !WithinSizeLimit(file.value) ==> r.response == UploadRejected("File too large (max 100 MB)")
    ensures HasFile(file) && WithinSizeLimit(file.value) && !AllowedType(file.value) ==>
              r.response == UploadRejected("Unsupported file type")
    ensures !r.response.UploadRejected? ==>
      var doc := NewDocument(st, userId, file.value, env);
      && (r.response.UploadPending? <==> UploadIngestion(policy, st, doc, env, fuel).outcome.StillRunning?)
      && (r.response.UploadCreated? ==> r.response.document == doc && r.response.chatId == st.db.nextChatId)
      && doc.file == env.storedName(UploadPath(userId, file.value.name))
      && r.state.db == CreateRecords(st.db, doc)
      && r.state.files == st.files + {doc.file}
      && r.state.index == UploadIngestion(policy, st, doc, env, fuel).index
      && (forall n :: n != CollectionName(doc.id) ==>
            && (n in r.state.index <==> n in st.index)
            && (n in st.index ==> r.state.index[n] == st.index[n]))
  {
    if !HasFile(file) then UploadResult(UploadRejected("No file uploaded"), st)
    else if !WithinSizeLimit(file.value) then UploadResult(UploadRejected("File too large (max 100 MB)"), st)
    else if !AllowedType(file.value) then UploadResult(UploadRejected("Unsupported file type"), st)
    else
      var doc := NewDocument(st, userId, file.value, env);
      var ingested := UploadIngestion(policy, st, doc, env, fuel);
      var st' := State(CreateRecords(st.db, doc), st.files + {doc.file}, ingested.index);
      if ingested.outcome.StillRunning? then UploadResult(UploadPending, st')
      else UploadResult(UploadCreated(doc, st.db.nextChatId), st')
  }

  /** With the corrected chunking rule and `len(text)` iterations the view
      always answers, and the embedding step cannot change the answer: the
      response and the database are the same whatever the vector library
      and the embedding service do. */
  lemma UploadSurvivesIngestion(st: State, userId: nat, file: Option<UploadedFile>, env: UploadEnv,
                                chroma: bool, embed: Embedder, fuel: nat)
    requires HasFile(file) ==> fuel >= |NewDocument(st, userId, file.value, env).extractedText|
    ensures var a := Upload(Corrected, st, userId, file, env, fuel);
            var b := Upload(Corrected, st, userId, file, env.(chromaAvailable := chroma, embed := embed), fuel);
            && !a.response.UploadPending?
            && a.response == b.response && a.state.db == b.state.db && a.state.files == b.state.files
  {
    if HasFile(file) {
      var env' := env.(chromaAvailable := chroma, embed := embed);
      var doc := NewDocument(st, userId, file.value, env);
      assert NewDocument(st, userId, file.value, env') == doc;
      CorrectedIngestionReturns(env.chromaAvailable, doc, env.embed, DefaultBatchSize, st.index, fuel);
      CorrectedIngestionReturns(chroma, doc, embed, DefaultBatchSize, st.index, fuel);
    }
  }

  /** As written, an accepted upload whose text is non-blank and at least
      200 characters long, with the vector library present and an embedding
      service that never fails, never gets an answer: the embedding loop
      runs past any iteration bound. */
  lemma AsWrittenUploadNeverAnswers(st: State, userId: nat, f: UploadedFile, env: UploadEnv, fuel: nat)
    requires HasFile(Some(f)) && WithinSizeLimit(f) && AllowedType(f)
    requires env.chromaAvailable && forall t :: env.embed(t).Some?
    requires var text := NewDocument(st, userId, f, env).extractedText;
             |text| >= DefaultOverlap && !IsBlank(Python, text)
    ensures Upload(AsWritten, st, userId, Some(f), env, fuel).response == UploadPending
  {
    var doc := NewDocument(st, userId, f, env);
    AsWrittenIngestionNeverCompletes(doc, env.embed, DefaultBatchSize, st.index, fuel);
    LoopExitsWithRun(AsWritten, doc, env.embed, DefaultBatchSize, LoopState(0, 0, NoBuffers, []), fuel);
  }

  /** As written, such an upload is answered with 201 only after an
      embedding call raised, so its collection holds only the batches
      upserted before the failure, each a full batch of 50 chunks. */
  lemma AsWrittenUploadAnswersOnlyAfterFailure(st: State, userId: nat, f: UploadedFile, env: UploadEnv, fuel: nat)
    requires HasFile(Some(f)) && WithinSizeLimit(f) && AllowedType(f)
    requires env.chromaAvailable
    requires var text := NewDocument(st, userId, f, env).extractedText;
             |text| >= DefaultOverlap && !IsBlank(Python, text)
    ensures var doc := NewDocument(st, userId, f, env);
            var o := UploadIngestion(AsWritten, st, doc, env, fuel).outcome;
            Upload(AsWritten, st, userId, Some(f), env, fuel).response.UploadCreated? ==>
              && o.Aborted?
              && forall i :: 0 <= i < |o.upserts| ==> |o.upserts[i].documents| == DefaultBatchSize
  {
    var doc := NewDocument(st, userId, f, env);
    AsWrittenLoopNeverCompletes(doc, env.embed, DefaultBatchSize, LoopState(0, 0, NoBuffers, []), fuel);
  }

  /** The saved path is `UploadPath(...)` behind the media root, so the text
      extraction sees the same extension as the upload check when the
      storage keeps the requested name. */
  lemma FullPathKeepsExtension(mediaRoot: string, userId: nat, filename: string)
    ensures LowerExt(PathJoin(mediaRoot, UploadPath(userId, filename))) == LowerExt(filename)
  {
    var dir := "documents/user_" + NatToString(userId);
    var b := UploadPath(userId, filename);
    assert b == dir + "/" + filename;
    assert b[0] == 'd';
    if mediaRoot == [] || mediaRoot[|mediaRoot| - 1] == '/' {
      assert PathJoin(mediaRoot, b) == (mediaRoot + dir) + "/" + filename;
      ExtIgnoresDirectory(mediaRoot + dir, filename);
    } else {
      assert PathJoin(mediaRoot, b) == (mediaRoot + "/" + dir) + "/" + filename;
      ExtIgnoresDirectory(mediaRoot + "/" + dir, filename);
    }
  }

  /** An accepted PDF, stored under its requested name, is read page by page
      when the PDF library is present. */
  lemma UploadedPdfIsReadAsPdf(st: State, userId: nat, f: UploadedFile, env: UploadEnv)
    requires LowerExt(f.name) == ".pdf"
    requires env.storedName(UploadPath(userId, f.name)) == UploadPath(userId, f.name)
    ensures var fullPath := PathJoin(env.mediaRoot, UploadPath(userId, f.name));
            var rd := env.readers(fullPath);
            rd.pdfLib ==>
              NewDocument(st, userId, f, env).extractedText == (if rd.pdf.Some? then Gather(rd.pdf.value, true) else "")
  {
    FullPathKeepsExtension(env.mediaRoot, userId, f.name);
  }

  lemma LowerPdf()
    ensures AsciiLower("PDF") == "pdf"
  {
    var lower := AsciiLower("PDF");
    assert lower[0] == 'p' && lower[1] == 'd' && lower[2] == 'f';
  }

  /** The type check looks only at the extension, lower-cased: a name
      `stem.e` passes exactly when `"." + lower(e)` is allowed, so
      `REPORT.PDF` passes (`LowerPdf`). */
  lemma ExtensionCheckIgnoresCase(stem: string, e: string, size: int)
    requires '.' !in e && '/' !in e && '/' !in stem
    requires !AllDots(stem)
    ensures AllowedType(UploadedFile(stem + "." + e, size)) <==> "." + AsciiLower(e) in AllowedExtensions
  {
    LowerExtOfStemAndExt(stem, e);
  }

  /** A bare dot-file such as `.pdf` has no extension and is rejected. */
  lemma DotFileRejected(name: string, size: int)
    requires |name| > 0 && name[0] == '.'
    requires forall k :: 0 < k < |name| ==> name[k] != '.' && name[k] != '/'
    ensures !AllowedType(UploadedFile(name, size))
  {
    DotFileHasNoExt(name);
    assert AsciiLower("") == "";
  }

  /** With the corrected chunking rule, an upload into a fresh collection,
      with the vector library present, a non-blank text and an embedding
      service that never fails, is answered with 201 and leaves exactly the
      text's chunks in the new collection. */
  lemma UploadIndexesChunks(st: State, userId: nat, f: UploadedFile, env: UploadEnv)
    requires HasFile(Some(f)) && WithinSizeLimit(f) && AllowedType(f)
    requires env.chromaAvailable && forall t :: env.embed(t).Some?
    requires CollectionName(st.db.nextDocId) !in st.index
    requires !IsBlank(Python, NewDocument(st, userId, f, env).extractedText)
    ensures var text := NewDocument(st, userId, f, env).extractedText;
            var r := Upload(Corrected, st, userId, Some(f), env, |text|);
            && r.response.UploadCreated?
            && CollectionName(st.db.nextDocId) in r.state.index
            && FlatDocuments(r.state.index[CollectionName(st.db.nextDocId)])
                 == ChunkText(Corrected, text, DefaultChunkSize, DefaultOverlap, |text|).items
  {
    var doc := NewDocument(st, userId, f, env);
    var text := doc.extractedText;
    CorrectedIngestionCompletes(doc, env.embed, DefaultBatchSize, st.index);
    var ing := UploadIngestion(Corrected, st, doc, env, |text|);
    var o := ing.outcome;
    assert ing.index[CollectionName(doc.id)] == [] + o.upserts;
    assert [] + o.upserts == o.upserts;
    var r := Upload(Corrected, st, userId, Some(f), env, |text|);
    assert r.state.index == ing.index;
  }

  // ---------------------------------------------------------------------
  // List
  // ---------------------------------------------------------------------

  /** One element of the list response. */
  datatype ListEntry = ListEntry(id: nat, title: string, file: Option<string>, uploadedAt: int, linkedChatId: Option<int>)

  /** `d.file.url if d.file else None`.  `toUri` is the storage's encoding
      of a stored name into a URL path (`filepath_to_uri`, which
      percent-encodes, with leading slashes removed); the result is joined
      to `MEDIA_URL`. */
  function FileUrl(name: string, toUri: string -> string): (url: Option<string>)
    ensures url.None? <==> name == ""
    ensures url.Some? ==> StartsWith(url.value, MediaUrl) && url.value[|MediaUrl|..] == toUri(name)
  {
    if name == "" then None else Some(MediaUrl + toUri(name))
  }

  /** One list element: the document's fields, its file URL and the chat of
      its first mapping. */
  function Entry(db: Db, toUri: string -> string, d: Document): (e: ListEntry)
    ensures e.id == d.id && e.title == d.title && e.uploadedAt == d.uploadedAt
  {
    var m := FirstMappingForDocument(db, d.id);
    ListEntry(d.id, d.title, FileUrl(d.file, toUri), d.uploadedAt, if m.Some? then Some(m.value.chatId) else None)
  }

  /** `linked_chat_id` is `None` exactly when no mapping names the document,
      and otherwise the chat of the earliest such mapping. */
  lemma EntryLinkedChat(db: Db, toUri: string -> string, d: Document)
    ensures var e := Entry(db, toUri, d);
            && (e.linkedChatId.None? <==> forall j :: 0 <= j < |db.mappings| ==> db.mappings[j].documentId != d.id)
            && (e.linkedChatId.Some? ==> exists j :: 0 <= j < |db.mappings| && db.mappings[j].documentId == d.id
                                                    && db.mappings[j].chatId == e.linkedChatId.value
                                                    && forall k :: 0 <= k < j ==> db.mappings[k].documentId != d.id)
  {
  }

  predicate NewestFirst(ds: seq<Document>) {
    forall i, j :: 0 <= i < j < |ds| ==> ds[i].uploadedAt >= ds[j].uploadedAt
  }

  /** Insert `d` before the first document not newer than it. */
  function InsertByDate(d: Document, ds: seq<Document>): (r: seq<Document>)
    requires NewestFirst(ds)
    ensures NewestFirst(r)
    ensures multiset(r) == multiset(ds) + multiset{d}
    ensures |r| == |ds| + 1
    ensures r != [] && (r[0] == d || (ds != [] && r[0] == ds[0]))
  {
    if ds == [] || d.uploadedAt >= ds[0].uploadedAt then
      ConsNewestFirst(d, ds);
      [d] + ds
    else
      assert ds == [ds[0]] + ds[1..];
      var rest := InsertByDate(d, ds[1..]);
      ConsNewestFirst(ds[0], rest);
      ConsMultiset(ds, d, rest);
      [ds[0]] + rest
  }

  lemma ConsMultiset(ds: seq<Document>, d: Document, rest: seq<Document>)
    requires ds != [] && multiset(rest) == multiset(ds[1..]) + multiset{d}
    ensures multiset([ds[0]] + rest) == multiset(ds) + multiset{d}
  {
    assert ds == [ds[0]] + ds[1..];
  }

  /** A document no older than the head of a sorted list can go in front. */
  lemma ConsNewestFirst(d: Document, ds: seq<Document>)
    requires NewestFirst(ds)
    requires ds == [] || d.uploadedAt >= ds[0].uploadedAt
    ensures NewestFirst([d] + ds)
  {
    var r := [d] + ds;
    forall i, j | 0 <= i < j < |r|
      ensures r[i].uploadedAt >= r[j].uploadedAt
    {
      if i == 0 {
        assert r[j] == ds[j - 1];
        assert ds[0].uploadedAt >= ds[j - 1].uploadedAt || j == 1;
      } else {
        assert r[i] == ds[i - 1] && r[j] == ds[j - 1];
      }
    }
  }

  /** `.order_by("-uploaded_at")`: newest first.  The database leaves the
      order of equal time stamps open; the model keeps their table order,
      one of the orders it may return. */
  function SortNewestFirst(ds: seq<Document>): (r: seq<Document>)
    ensures NewestFirst(r)
    ensures multiset(r) == multiset(ds)
    ensures |r| == |ds|
  {
    if ds == [] then []
    else
      assert ds == [ds[0]] + ds[1..];
      InsertByDate(ds[0], SortNewestFirst(ds[1..]))
  }

  function OwnedBy(db: Db, userId: nat): seq<Document> {
    Filter(db.documents, (d: Document) => d.userId == userId)
  }

  lemma SameMembers<T>(a: seq<T>, b: seq<T>)
    requires multiset(a) == multiset(b)
    ensures forall x :: x in a <==> x in b
  {
    forall x
      ensures x in a <==> x in b
    {
      assert x in a <==> x in multiset(a);
      assert x in b <==> x in multiset(b);
    }
  }

  /** Every document of the user appears in the sorted list, and only those. */
  lemma SortedOwnedIsOwned(db: Db, userId: nat)
    ensures forall d :: d in SortNewestFirst(OwnedBy(db, userId)) <==> d in db.documents && d.userId == userId
  {
    var owned := OwnedBy(db, userId);
    SameMembers(SortNewestFirst(owned), owned);
  }

  /** One entry per document, in order. */
  function Entries(db: Db, toUri: string -> string, ds: seq<Document>): (r: seq<ListEntry>)
    ensures |r| == |ds|
    ensures forall i :: 0 <= i < |ds| ==> r[i] == Entry(db, toUri, ds[i])
  {
    if ds == [] then [] else [Entry(db, toUri, ds[0])] + Entries(db, toUri, ds[1..])
  }

  /** `ListDocumentsView.get`. */
  function ListDocuments(db: Db, toUri: string -> string, userId: nat): (r: seq<ListEntry>)
    ensures forall i, j :: 0 <= i < j < |r| ==> r[i].uploadedAt >= r[j].uploadedAt
    ensures |r| == |OwnedBy(db, userId)|
  {
    Entries(db, toUri, SortNewestFirst(OwnedBy(db, userId)))
  }

  /** Every list element is the entry of one of the user's documents. */
  lemma ListHasOnlyOwned(db: Db, toUri: string -> string, userId: nat, i: nat)
    requires i < |ListDocuments(db, toUri, userId)|
    ensures exists d :: d in db.documents && d.userId == userId && ListDocuments(db, toUri, userId)[i] == Entry(db, toUri, d)
  {
    var sorted := SortNewestFirst(OwnedBy(db, userId));
    SortedOwnedIsOwned(db, userId);
    var d := sorted[i];
    assert d in db.documents && d.userId == userId && ListDocuments(db, toUri, userId)[i] == Entry(db, toUri, d);
  }

  /** Every document of the user has its entry in the list. */
  lemma ListHasAllOwned(db: Db, toUri: string -> string, userId: nat, d: Document)
    requires d in db.documents && d.userId == userId
    ensures Entry(db, toUri, d) in ListDocuments(db, toUri, userId)
  {
    var sorted := SortNewestFirst(OwnedBy(db, userId));
    SortedOwnedIsOwned(db, userId);
    var i :| 0 <= i < |sorted| && sorted[i] == d;
    assert ListDocuments(db, toUri, userId)[i] == Entry(db, toUri, d);
  }

  /** Another user's documents never appear in the list. */
  lemma ListShowsOnlyOwnDocuments(db: Db, toUri: string -> string, userId: nat, i: nat)
    requires WellFormed(db)
    requires i < |ListDocuments(db, toUri, userId)|
    ensures exists k :: 0 <= k < |db.documents| && db.documents[k].id == ListDocuments(db, toUri, userId)[i].id
                        && db.documents[k].userId == userId
  {
    ListHasOnlyOwned(db, toUri, userId, i);
    var d :| d in db.documents && d.userId == userId && ListDocuments(db, toUri, userId)[i] == Entry(db, toUri, d);
    var k :| 0 <= k < |db.documents| && db.documents[k] == d;
  }

  // ---------------------------------------------------------------------
  // Delete
  // ---------------------------------------------------------------------

  /** Whether removing the stored file succeeds, and whether the vector
      library can be loaded; either failure is swallowed. */
  datatype DeleteEnv = DeleteEnv(fileDeleteOk: bool, chromaAvailable: bool)

  datatype DeleteResponse = NotFound | NoContent

  function DeleteStatus(r: DeleteResponse): int {
    if r.NotFound? then 404 else 204
  }

  datatype DeleteResult = DeleteResult(response: DeleteResponse, state: State)

  predicate Owns(db: Db, userId: nat, pk: nat) {
    exists i :: 0 <= i < |db.documents| && db.documents[i].id == pk && db.documents[i].userId == userId
  }

  /** `DeleteDocumentView.delete(request, pk)`: the mappings are deleted
      first, then the file (a failure is swallowed), then the collection (a
      failure is swallowed), then the row, whose cascade finds no mapping
      left. */
  function DeleteDocument(st: State, userId: nat, pk: nat, env: DeleteEnv): (r: DeleteResult)
    requires WellFormed(st.db)
    ensures r.response.NotFound? <==> !Owns(st.db, userId, pk)
    ensures r.response.NotFound? ==> r.state == st
    ensures r.response.NoContent? ==>
      && WellFormed(r.state.db)
      && !HasDocument(r.state.db, pk)
      && (forall d :: d in r.state.db.documents <==> d in st.db.documents && d.id != pk)
      && (forall m :: m in r.state.db.mappings <==> m in st.db.mappings && m.documentId != pk)
      && r.state.db.chats == st.db.chats
      && (forall d :: d in st.db.documents && d.id == pk ==>
            r.state.files == (if env.fileDeleteOk then st.files - {d.file} else st.files))
      && r.state.index == (if env.chromaAvailable then st.index - {CollectionName(pk)} else st.index)
  {
    match FirstWhere(st.db.documents, (d: Document) => d.id == pk && d.userId == userId)
    case None => DeleteResult(NotFound, st)
    case Some(i) =>
      var doc := st.db.documents[i];
      var db1 := DeleteMappingsOf(st.db, pk);
      var files := if env.fileDeleteOk then st.files - {doc.file} else st.files;
      var index := if env.chromaAvailable then st.index - {CollectionName(doc.id)} else st.index;
      var db2 := DeleteDocumentCascade(db1, doc.id);
      DeleteResult(NoContent, State(db2, files, index))
  }

  /** Deleting, as its owner, the document an upload just created succeeds
      and gives back the same documents; the chat the upload created stays. */
  lemma DeleteUndoesCreate(st: State, doc: Document, denv: DeleteEnv)
    requires WellFormed(st.db) && doc.id == st.db.nextDocId
    ensures WellFormed(CreateRecords(st.db, doc))
    ensures var del := DeleteDocument(st.(db := CreateRecords(st.db, doc)), doc.userId, doc.id, denv);
            && del.response.NoContent?
            && (forall d :: d in del.state.db.documents <==> d in st.db.documents)
            && del.state.db.chats == st.db.chats + [Chat(st.db.nextChatId, doc.userId, doc.title)]
  {
    var db' := CreateRecords(st.db, doc);
    CreateRecordsWellFormed(st.db, doc);
    assert db'.documents[|st.db.documents|] == doc;
    var del := DeleteDocument(st.(db := db'), doc.userId, doc.id, denv);
    forall d | d in st.db.documents
      ensures d.id != doc.id
    {
      var k :| 0 <= k < |st.db.documents| && st.db.documents[k] == d;
    }
  }

  /** Deleting the document an upload just created also gives back the same
      mappings. */
  lemma DeleteUndoesCreateMappings(st: State, doc: Document, denv: DeleteEnv)
    requires WellFormed(st.db) && doc.id == st.db.nextDocId
    ensures WellFormed(CreateRecords(st.db, doc))
    ensures var del := DeleteDocument(st.(db := CreateRecords(st.db, doc)), doc.userId, doc.id, denv);
            forall m :: m in del.state.db.mappings <==> m in st.db.mappings
  {
    var db' := CreateRecords(st.db, doc);
    CreateRecordsWellFormed(st.db, doc);
    assert db'.documents[|st.db.documents|] == doc;
    var del := DeleteDocument(st.(db := db'), doc.userId, doc.id, denv);
    forall m | m in st.db.mappings
      ensures m.documentId != doc.id
    {
      MappingBelowNextKey(st.db, m);
    }
  }

  // ---------------------------------------------------------------------
  // Test query
  // ---------------------------------------------------------------------

  datatype QueryResponse =
    | QueryRejected                 // 400 `{"error": "document_id and question required"}`
    | QueryFailed                   // 500: `request.data.get`, `int(document_id)` or the retrieval raised
    | Answered(documentId: JsonValue, question: JsonValue, matches: seq<Match>)

  function QueryStatus(r: QueryResponse): int {
    match r
    case QueryRejected => 400
    case QueryFailed => 500
    case Answered(_, _, _) => 200
  }

  /** The `top_k` the test endpoint asks for. */
  const TestTopK: int := 5

  /** `test_document_query(request)` on the decoded JSON body.  A body that
      is not an object has no `get`, and the view answers 500. */
  function TestDocumentQuery(store: Store, embed: QueryEmbedder, body: JsonValue): (r: QueryResponse)
    ensures !body.JObject? ==> r.QueryFailed?
    ensures body.JObject? ==>
      (r.QueryRejected? <==> !Truthy(Get(body.fields, "document_id", JNull)) || !Truthy(Get(body.fields, "question", JNull)))
    ensures r.QueryFailed? && body.JObject? ==>
              PyInt(Get(body.fields, "document_id", JNull)).None?
              || QueryDocument(store, embed, PyInt(Get(body.fields, "document_id", JNull)).value,
                               Get(body.fields, "question", JNull), TestTopK).Raised?
    ensures r.Answered? ==>
      && body.JObject?
      && r.documentId == body.fields["document_id"] && r.question == body.fields["question"]
      && PyInt(r.documentId).Some?
      && QueryDocument(store, embed, PyInt(r.documentId).value, r.question, TestTopK) == Found(r.matches)
  {
    if !body.JObject? then QueryFailed
    else
      var documentId := Get(body.fields, "document_id", JNull);
      var question := Get(body.fields, "question", JNull);
      if !Truthy(documentId) || !Truthy(question) then QueryRejected
      else
        match PyInt(documentId)
        case None => QueryFailed
        case Some(id) =>
          match QueryDocument(store, embed, id, question, TestTopK)
          case Raised(_) => QueryFailed
          case Found(matches) => Answered(documentId, question, matches)
  }

  /** A numeric string id such as `"12"` reaches the document's collection:
      the test query reads it as the number it renders. */
  lemma RenderedIdQueriesDocument(store: Store, embed: QueryEmbedder, docId: nat, question: JsonValue)
    requires Truthy(question)
    ensures var r := TestDocumentQuery(store, embed, JObject(map["document_id" := JString(NatToString(docId)), "question" := question]));
            r.Answered? <==> QueryDocument(store, embed, docId, question, TestTopK).Found?
  {
    assert IntToString(docId) == NatToString(docId);
    PyIntReadsRendered(docId);
    assert NatToString(docId) != [];
  }

  /** The test endpoint returns at most five matches when the search honours
      its `n_results`. */
  lemma TestQueryAtMostFive(store: Store, embed: QueryEmbedder, body: JsonValue)
    requires HonoursTopK(store)
    ensures var r := TestDocumentQuery(store, embed, body);
            r.Answered? ==> |r.matches| <= TestTopK
  {
    var r := TestDocumentQuery(store, embed, body);
    if r.Answered? {
      AtMostTopK(store, embed, PyInt(r.documentId).value, r.question, TestTopK);
    }
  }
}

=== FILE: extraction.dfy ===
/** `extract_text_from_file` (documents/views.py) and the extension rule it
    shares with the upload view: `os.path.splitext` on a POSIX path, then
    lower-casing.

    The PDF and DOCX libraries and the file system are inputs: what each
    reader yields, page by page or paragraph by paragraph, including the
    point where it raises. */
module Extraction {
  import opened Common
  import opened Strings

  // ---------------------------------------------------------------------
  // os.path.splitext
  // ---------------------------------------------------------------------

  predicate AllDots(s: string) {
    forall k :: 0 <= k < |s| ==> s[k] == '.'
  }

  /** The last path segment: everything after the last `/`. */
  function Basename(p: string): (b: string)
    ensures |b| <= |p| && b == p[|p| - |b|..]
    ensures forall k :: 0 <= k < |b| ==> b[k] != '/'
  {
    p[LastIndexOf(p, '/') + 1..]
  }

  /** The extension of one path segment: from its last dot, unless only dots
      come before that dot (a leading-dot name such as `.pdf` has none). */
  function SegmentExt(b: string): (e: string)
    ensures |e| <= |b| && e == b[|b| - |e|..]
    ensures e != [] ==> e[0] == '.'
    ensures forall k :: 0 < k < |e| ==> e[k] != '.'
  {
    var dot := LastIndexOf(b, '.');
    if dot >= 0 && !AllDots(b[..dot]) then b[dot..] else ""
  }

  /** `posixpath.splitext(p)`: root and extension, the extension taken from
      the last path segment. */
  function SplitExt(p: string): (r: (string, string))
    ensures r.0 + r.1 == p
    ensures r.1 == SegmentExt(Basename(p))
  {
    var e := SegmentExt(Basename(p));
    assert p[..|p| - |e|] + p[|p| - |e|..] == p;
    (p[..|p| - |e|], e)
  }

  /** The extension of `p`, lower-cased, as both views compare it. */
  function LowerExt(p: string): string {
    AsciiLower(SplitExt(p).1)
  }

  lemma LastIndexOfAppend(a: string, b: string, c: char)
    ensures LastIndexOf(a + b, c) == if LastIndexOf(b, c) >= 0 then |a| + LastIndexOf(b, c) else LastIndexOf(a, c)
    decreases |b|
  {
    if |b| > 0 {
      assert (a + b)[..|a + b| - 1] == a + b[..|b| - 1];
      LastIndexOfAppend(a, b[..|b| - 1], c);
    } else {
      assert a + b == a;
    }
  }

  /** A string without `c` has no last occurrence of it. */
  lemma LastIndexOfAbsent(s: string, c: char)
    requires forall k :: 0 <= k < |s| ==> s[k] != c
    ensures LastIndexOf(s, c) == -1
  {
  }

  /** A slice of `l + p` beyond `l` is the same slice of `p`. */
  lemma SliceAfterPrefix(l: string, p: string, i: nat, i': nat)
    requires i <= |p| && i' == |l| + i
    ensures (l + p)[i'..] == p[i..]
  {
  }

  /** Only the last path segment decides the extension: a directory in front
      (`MEDIA_ROOT`, the per-user folder) changes nothing. */
  lemma ExtIgnoresDirectory(d: string, p: string)
    ensures SplitExt(d + "/" + p).1 == SplitExt(p).1
  {
    var l := d + "/";
    LastIndexOfAppend(l, p, '/');
    assert LastIndexOf(l, '/') == |d|;
    var sepP := LastIndexOf(p, '/');
    SliceAfterPrefix(l, p, sepP + 1, LastIndexOf(l + p, '/') + 1);
    assert Basename(l + p) == Basename(p);
  }

  /** A segment made of a stem that is not all dots, a dot, and a dot-free
      `e` has the extension `"." + e`. */
  lemma SegmentExtOfStem(stem: string, e: string)
    requires '.' !in e
    requires !AllDots(stem)
    ensures SegmentExt(stem + "." + e) == "." + e
  {
    var l := stem + ".";
    LastIndexOfAbsent(e, '.');
    LastIndexOfAppend(l, e, '.');
    assert LastIndexOf(l, '.') == |stem|;
    assert (l + e)[..|stem|] == stem;
    assert (l + e)[|stem|..] == "." + e;
  }

  /** A path without `/` is its own last segment. */
  lemma BasenameOfSegment(p: string)
    requires '/' !in p
    ensures Basename(p) == p
  {
    LastIndexOfAbsent(p, '/');
  }

  lemma JoinAssoc(a: string, b: string, c: string)
    ensures a + (b + c) == a + b + c
  {
  }

  /** The root `posixpath.splitext` returns is what precedes the extension. */
  lemma RootBeforeExt(p: string, root: string, ext: string)
    requires SplitExt(p).1 == ext && root + ext == p
    ensures SplitExt(p).0 == root
  {
    assert SplitExt(p).0 == p[..|root|];
    assert root == p[..|root|];
  }

  /** A file name made of a stem that is not all dots and `"." + e` (no dot,
      no slash in `e`, no slash in the stem) splits exactly there. */
  lemma SplitExtOfStemAndExt(stem: string, e: string)
    requires '.' !in e && '/' !in e && '/' !in stem
    requires !AllDots(stem)
    ensures SplitExt(stem + "." + e) == (stem, "." + e)
  {
    var p := stem + "." + e;
    JoinAssoc(stem, ".", e);
    assert '/' !in p;
    BasenameOfSegment(p);
    SegmentExtOfStem(stem, e);
    RootBeforeExt(p, stem, "." + e);
  }

  /** A dot-file name such as `.pdf` has no extension. */
  lemma DotFileHasNoExt(name: string)
    requires |name| > 0 && name[0] == '.'
    requires forall k :: 0 < k < |name| ==> name[k] != '.' && name[k] != '/'
    ensures SplitExt(name) == (name, "")
  {
    LastIndexOfAbsent(name, '/');
    assert Basename(name) == name;
    LastIndexOfAbsent(name[1..], '.');
    LastIndexOfAppend(name[..1], name[1..], '.');
    assert name[..1] + name[1..] == name;
    assert LastIndexOf(name, '.') == 0;
    assert AllDots(name[..0]);
    assert SegmentExt(name) == "";
    assert name[..|name|] == name;
  }

  /** Only the extension is lower-cased: `"REPORT.PDF"` passes as `.pdf`. */
  lemma LowerExtOfStemAndExt(stem: string, e: string)
    requires '.' !in e && '/' !in e && '/' !in stem
    requires !AllDots(stem)
    ensures LowerExt(stem + "." + e) == "." + AsciiLower(e)
  {
    SplitExtOfStemAndExt(stem, e);
    LowerDotPrefix(e);
  }

  lemma LowerDotPrefix(e: string)
    ensures AsciiLower("." + e) == "." + AsciiLower(e)
  {
    var lower := AsciiLower("." + e);
    assert forall k :: 0 < k < |lower| ==> ("." + e)[k] == e[k - 1];
  }

  /** A bare `.pdf` has no extension, so it is not a PDF upload. */
  lemma BareDotPdfExample()
    ensures SplitExt(".pdf") == (".pdf", "")
  {
    DotFileHasNoExt(".pdf");
  }

  // ---------------------------------------------------------------------
  // The concatenation folds
  // ---------------------------------------------------------------------

  /** One page or paragraph as the library yields it: its text (`""` also for
      a page whose `extract_text()` is `None`), or the exception it raised. */
  datatype Piece = Piece(text: string) | Raises

  /** What the file system and the libraries make of the file.  `None`:
      opening the file raised.  `pdfLib` / `docxLib`: the import succeeded. */
  datatype Readers = Readers(
    pdfLib: bool,
    docxLib: bool,
    pdf: Option<seq<Piece>>,
    docx: Option<seq<Piece>>,
    plain: Option<string>)

  predicate NoRaise(pieces: seq<Piece>) {
    forall i :: 0 <= i < |pieces| ==> pieces[i].Piece?
  }

  /** What one non-raising piece adds: its text and a newline, nothing for
      an empty piece when `skipEmpty` (the PDF loop's `if page_text:`). */
  function Kept(t: string, skipEmpty: bool): string {
    if skipEmpty && t == [] then "" else t + "\n"
  }

  /** `text += piece + "\n"` over the pieces, stopping with what was gathered
      so far at the first piece that raises. */
  function Gather(pieces: seq<Piece>, skipEmpty: bool): (text: string)
    decreases |pieces|
  {
    if pieces == [] then ""
    else match pieces[0]
      case Raises => ""
      case Piece(t) => Kept(t, skipEmpty) + Gather(pieces[1..], skipEmpty)
  }

  /** Gathering distributes over concatenation while nothing raises. */
  lemma {:induction false} GatherAppend(a: seq<Piece>, b: seq<Piece>, skipEmpty: bool)
    requires NoRaise(a)
    ensures Gather(a + b, skipEmpty) == Gather(a, skipEmpty) + Gather(b, skipEmpty)
    decreases |a|
  {
    if a == [] {
      assert a + b == b;
    } else {
      assert a[0].Piece?;
      var head := Kept(a[0].text, skipEmpty);
      var x, y := Gather(a[1..], skipEmpty), Gather(b, skipEmpty);
      assert (a + b)[0] == a[0];
      assert (a + b)[1..] == a[1..] + b;
      GatherAppend(a[1..], b, skipEmpty);
      calc {
        Gather(a + b, skipEmpty);
        head + Gather(a[1..] + b, skipEmpty);
        head + (x + y);
        { JoinAssoc(head, x, y); }
        head + x + y;
        Gather(a, skipEmpty) + y;
      }
    }
  }

  /** The text gathered before an exception is what is returned: everything
      from the raising piece on is lost. */
  lemma KeepsTextBeforeRaise(a: seq<Piece>, rest: seq<Piece>, skipEmpty: bool)
    requires NoRaise(a)
    ensures Gather(a + [Raises] + rest, skipEmpty) == Gather(a, skipEmpty)
  {
    GatherAppend(a, [Raises] + rest, skipEmpty);
    assert a + [Raises] + rest == a + ([Raises] + rest);
  }

  /** One piece: the PDF loop keeps a non-empty page and its newline, and
      skips an empty one; the DOCX loop keeps every paragraph. */
  lemma GatherOne(t: string)
    ensures Gather([Piece(t)], true) == (if t == [] then "" else t + "\n")
    ensures Gather([Piece(t)], false) == t + "\n"
  {
    assert [Piece(t)][1..] == [];
  }

  /** A read without exceptions gathers one newline per kept piece, so the
      text ends in a newline unless nothing was kept. */
  lemma {:induction false} GatherEndsWithNewline(pieces: seq<Piece>, skipEmpty: bool)
    requires NoRaise(pieces)
    ensures var text := Gather(pieces, skipEmpty);
            text == [] || text[|text| - 1] == '\n'
    ensures !skipEmpty && pieces != [] ==> Gather(pieces, skipEmpty) != []
    decreases |pieces|
  {
    if pieces != [] {
      GatherEndsWithNewline(pieces[1..], skipEmpty);
    }
  }

  /** `extract_text_from_file(fpath)`: the reader is chosen by the
      lower-cased extension and the libraries that imported.  What the
      choice means is stated by the lemmas about it: a raising reader keeps
      the text gathered before it (`KeepsTextBeforeRaise`), a missing library
      falls back to plain reading (`MissingLibrariesReadPlain`), and the
      upload view reads a `.PDF` upload with the PDF reader
      (`DocViews.UploadedPdfIsReadAsPdf`). */
  function ExtractText(path: string, rd: Readers): (text: string)
    ensures LowerExt(path) != ".pdf" && LowerExt(path) != ".docx" ==> text == rd.plain.GetOr("")
    ensures rd.pdf.None? && rd.docx.None? && rd.plain.None? ==> text == ""
  {
    var ext := LowerExt(path);
    if ext == ".pdf" && rd.pdfLib then
      match rd.pdf
      case None => ""
      case Some(pages) => Gather(pages, true)
    else if ext == ".docx" && rd.docxLib then
      match rd.docx
      case None => ""
      case Some(paras) => Gather(paras, false)
    else rd.plain.GetOr("")
  }

  /** Without the two libraries every file is read as plain text, whatever
      its extension, and a failed read gives `""`. */
  lemma MissingLibrariesReadPlain(path: string, rd: Readers)
    requires !rd.pdfLib && !rd.docxLib
    ensures ExtractText(path, rd) == (if rd.plain.Some? then rd.plain.value else "")
  {
  }

  /** The reader depends on the lower-cased extension only: two paths whose
      extensions agree up to ASCII case, whatever their directories and
      stems, are read alike. */
  lemma ReaderChosenByLowerExt(p: string, q: string, rd: Readers)
    requires LowerExt(p) == LowerExt(q)
    ensures ExtractText(p, rd) == ExtractText(q, rd)
  {
  }

  /** A PDF or DOCX read whose pages or paragraphs all load gives a text that
      is empty or ends in a newline; a DOCX with paragraphs gives a non-empty
      text. */
  lemma StructuredReadEndsWithNewline(path: string, rd: Readers)
    requires || (LowerExt(path) == ".pdf" && rd.pdfLib && rd.pdf.Some? && NoRaise(rd.pdf.value))
             || (LowerExt(path) == ".docx" && rd.docxLib && rd.docx.Some? && NoRaise(rd.docx.value))
    ensures var text := ExtractText(path, rd);
            text == [] || text[|text| - 1] == '\n'
    ensures LowerExt(path) == ".docx" && rd.docx.Some? && rd.docx.value != [] ==> ExtractText(path, rd) != []
  {
    if LowerExt(path) == ".pdf" {
      GatherEndsWithNewline(rd.pdf.value, true);
    } else {
      GatherEndsWithNewline(rd.docx.value, false);
    }
  }
}

=== FILE: frontend.dfy ===
/** The chat page's script (frontend/static/frontend/js/chat.js) without its
    DOM: the CSRF cookie lookup, the submit handler's guard and history
    updates, the chat id it sends, the upload handler's chat id update, and
    the history list with its replay.

    `sessionStorage` is a map from key to string.  What the server answers is
    an input; the message panel is the sequence of messages shown. */
module Frontend {
  import opened Common
  import opened Strings
  import opened Json
  import opened DocModels
  import opened ChatView

  // ---------------------------------------------------------------------
  // getCSRFToken
  // ---------------------------------------------------------------------

  const CsrfCookieName: string := "csrftoken="

  /** The segments of `document.cookie.split(';')`, each trimmed. */
  function Trimmed(segments: seq<string>): (pairs: seq<string>)
    ensures |pairs| == |segments|
    ensures forall i :: 0 <= i < |pairs| ==> pairs[i] == Strip(JavaScript, segments[i])
  {
    seq(|segments|, i requires 0 <= i < |segments| => Strip(JavaScript, segments[i]))
  }

  /** A trimmed segment that is the CSRF cookie. */
  predicate IsCsrfPair(pair: string) {
    StartsWith(pair, CsrfCookieName)
  }

  /** The value of the first pair, from index `from` on, that starts with
      the cookie name. */
  function TokenFrom(pairs: seq<string>, from: nat): (t: Option<string>)
    requires from <= |pairs|
    ensures t.None? <==> forall i :: from <= i < |pairs| ==> !IsCsrfPair(pairs[i])
    decreases |pairs| - from
  {
    if from == |pairs| then None
    else if IsCsrfPair(pairs[from]) then Some(pairs[from][|CsrfCookieName|..])
    else TokenFrom(pairs, from + 1)
  }

  /** The first matching pair decides the token; later ones are ignored. */
  lemma {:induction false} TokenFromFirstMatch(pairs: seq<string>, from: nat, i: nat)
    requires from <= i < |pairs| && IsCsrfPair(pairs[i])
    requires forall j :: from <= j < i ==> !IsCsrfPair(pairs[j])
    ensures TokenFrom(pairs, from) == Some(pairs[i][|CsrfCookieName|..])
    decreases i - from
  {
    if from < i {
      TokenFromFirstMatch(pairs, from + 1, i);
    }
  }

  /** `getCSRFToken()` on the already decoded `document.cookie`. */
  function CsrfToken(cookie: string): (t: string) {
    TokenFrom(Trimmed(Split(cookie, ';')), 0).GetOr("")
  }

  /** Splitting at the first separator. */
  lemma SplitAtFirst(a: string, sep: char, rest: string)
    requires sep !in a
    ensures Split(a + [sep] + rest, sep) == [a] + Split(rest, sep)
  {
    var s := a + [sep] + rest;
    assert s[|a|] == sep;
    var i := IndexOf(s, sep);
    assert s[..|a|] == a;
    assert s[..i] == a;
    assert s[i + 1..] == rest;
  }

  /** A string without the separator is one segment. */
  lemma SplitNoSeparator(s: string, sep: char)
    requires sep !in s
    ensures Split(s, sep) == [s]
  {
  }

  lemma DropPrefix(p: string, t: string)
    ensures (p + t)[|p|..] == t
  {
  }

  /** `" csrftoken=T"` has no `;` when `T` has none. */
  lemma NoSemicolonInPair(token: string)
    requires ';' !in token
    ensures ';' !in " " + CsrfCookieName + token
  {
    var rest := " " + CsrfCookieName + token;
    forall k | 0 <= k < |rest|
      ensures rest[k] != ';'
    {
      if k > |CsrfCookieName| {
        assert rest[k] == token[k - 1 - |CsrfCookieName|];
      }
    }
  }

  /** `" csrftoken=T"` trims to `"csrftoken=T"` when `T` has no trailing
      whitespace. */
  lemma PairTrimmed(token: string)
    requires token == [] || !IsJsSpace(token[|token| - 1])
    ensures Strip(JavaScript, " " + CsrfCookieName + token) == CsrfCookieName + token
  {
    var name := CsrfCookieName;
    assert name[0] == 'c' && name[|name| - 1] == '=';
    StripAfterSpace(name, token);
  }

  /** A space, then a name and a value with no outer whitespace: trimming
      drops the space only. */
  lemma StripAfterSpace(name: string, token: string)
    requires |name| > 0 && !IsJsSpace(name[0]) && !IsJsSpace(name[|name| - 1])
    requires token == [] || !IsJsSpace(token[|token| - 1])
    ensures Strip(JavaScript, " " + name + token) == name + token
  {
    var pair := name + token;
    assert " " + name + token == [' '] + pair;
    LeadingSpaceStripped(JavaScript, ' ', pair);
    assert pair[0] == name[0];
    assert pair[|pair| - 1] == (if token == [] then name[|name| - 1] else token[|token| - 1]);
    StripUnpadded(JavaScript, pair);
  }

  /** Two `;`-free segments, only the second a CSRF cookie once trimmed:
      its value is the token. */
  lemma TokenInSecondSegment(first: string, rest: string)
    requires ';' !in first && ';' !in rest
    requires !IsCsrfPair(Strip(JavaScript, first)) && IsCsrfPair(Strip(JavaScript, rest))
    ensures CsrfToken(first + [';'] + rest) == Strip(JavaScript, rest)[|CsrfCookieName|..]
  {
    SplitAtFirst(first, ';', rest);
    SplitNoSeparator(rest, ';');
    var segments := Split(first + [';'] + rest, ';');
    assert segments == [first, rest];
    var pairs := Trimmed(segments);
    TokenFromFirstMatch(pairs, 0, 1);
  }

  /** The browser's `a=1; csrftoken=T` form: the token after another cookie,
      separated by `"; "`, is found when the first cookie is not the CSRF
      one and `T` has no `;` and no trailing whitespace. */
  lemma CsrfTokenAfterOtherCookie(first: string, token: string)
    requires ';' !in first && !IsCsrfPair(Strip(JavaScript, first))
    requires ';' !in token && (token == [] || !IsJsSpace(token[|token| - 1]))
    ensures CsrfToken(first + "; " + CsrfCookieName + token) == token
  {
    var rest := " " + CsrfCookieName + token;
    assert first + "; " + CsrfCookieName + token == first + [';'] + rest;
    NoSemicolonInPair(token);
    PairTrimmed(token);
    DropPrefix(CsrfCookieName, token);
    TokenInSecondSegment(first, rest);
  }

  /** Without any CSRF cookie the header is sent empty. */
  lemma CsrfTokenMissing(cookie: string)
    requires forall i :: 0 <= i < |Split(cookie, ';')| ==> !IsCsrfPair(Strip(JavaScript, Split(cookie, ';')[i]))
    ensures CsrfToken(cookie) == ""
  {
  }

  // ---------------------------------------------------------------------
  // The page state
  // ---------------------------------------------------------------------

  datatype Sender = UserSide | BotSide

  /** One message: `{sender, text}`. */
  datatype Message = Message(sender: Sender, text: string)

  /** `chatHistory`, the message panel, `sessionStorage` and the in-memory
      `currentChatId` (1 when the page loads).  `session` holds the keys
      other than `chatHistory`: `saveHistory` stores `JSON.stringify` of the
      history under that key and the page parses it back on load, so the
      model keeps the history itself in `history` and `Loaded` receives it
      already decoded. */
  datatype Page = Page(history: seq<Message>, panel: seq<Message>, session: map<string, string>, currentChatId: int)

  const ChatIdKey: string := "currentChatId"

  function Loaded(history: seq<Message>, session: map<string, string>): Page {
    Page(history, [], session, 1)
  }

  // ---------------------------------------------------------------------
  // Upload handler
  // ---------------------------------------------------------------------

  /** How the upload request ended: a non-ok status, an exception, or a
      decoded body whose `chat_id` is a number (`None` when absent). */
  datatype UploadAnswer = UploadNotOk | UploadThrew | UploadOk(chatId: Option<int>)

  const UploadFailedNotice: string := "❌ Document upload failed."

  /** The upload `change` handler for one selected file. */
  function UploadChange(p: Page, fileName: string, answer: UploadAnswer): (p': Page)
    ensures p'.history == p.history
    ensures answer.UploadOk? && answer.chatId.Some? && answer.chatId.value != 0 ==>
              p'.currentChatId == answer.chatId.value && p'.session == p.session[ChatIdKey := IntToString(answer.chatId.value)]
    ensures !(answer.UploadOk? && answer.chatId.Some? && answer.chatId.value != 0) ==>
              p'.currentChatId == p.currentChatId && p'.session == p.session
    ensures |p'.panel| == |p.panel| + 2 && p'.panel[..|p.panel|] == p.panel
    ensures !answer.UploadOk? <==> p'.panel[|p.panel| + 1] == Message(BotSide, UploadFailedNotice)
  {
    var panel := p.panel + [Message(BotSide, "Uploading \"" + fileName + "\"...")];
    match answer
    case UploadOk(chatId) =>
      var shown := panel + [Message(BotSide, "\U{1F4C4} Document \"" + fileName + "\" uploaded successfully!")];
      assert shown[..|p.panel|] == p.panel;
      if chatId.Some? && chatId.value != 0 then
        p.(panel := shown, currentChatId := chatId.value, session := p.session[ChatIdKey := IntToString(chatId.value)])
      else p.(panel := shown)
    case _ =>
      var shown := panel + [Message(BotSide, UploadFailedNotice)];
      assert shown[..|p.panel|] == p.panel;
      p.(panel := shown)
  }

  // ---------------------------------------------------------------------
  // Submit handler
  // ---------------------------------------------------------------------

  /** How the chat request ended: a non-ok status (the handler throws
      `"Server error"`), another exception with its message, or the decoded
      body's `reply` (`None` when absent). */
  datatype ChatAnswer = ChatNotOk | ChatThrew(message: string) | ChatOk(reply: Option<string>)

  const NoResponse: string := "No response from AI"
  const QuotaNotice: string := "API free quota exceeded. Please try again later or upgrade your plan."
  const ConnectionNotice: string := "Error connecting to AI"
  const ServerError: string := "Server error"

  /** `s.includes(part)`. */
  predicate Contains(s: string, part: string) {
    exists i :: 0 <= i <= |s| && StartsWith(s[i..], part)
  }

  /** A string without the first character of `part` does not contain it. */
  lemma FirstCharAbsent(s: string, part: string)
    requires part != [] && part[0] !in s
    ensures !Contains(s, part)
  {
    forall i | 0 <= i <= |s|
      ensures !StartsWith(s[i..], part)
    {
      if i < |s| {
        assert s[i..][0] == s[i];
      }
    }
  }

  /** The notice the `catch` block shows for an error message. */
  function ErrorNotice(message: string): (notice: string) {
    if Contains(message, "429") then QuotaNotice else ConnectionNotice
  }

  /** The id the handler sends: the stored one when it is a non-empty
      string, else the in-memory one. */
  function ChatIdToSend(p: Page): (v: JsonValue)
    ensures ChatIdKey in p.session && p.session[ChatIdKey] != "" ==> v == JString(p.session[ChatIdKey])
    ensures !(ChatIdKey in p.session && p.session[ChatIdKey] != "") ==> v == JInt(p.currentChatId)
  {
    if ChatIdKey in p.session && p.session[ChatIdKey] != "" then JString(p.session[ChatIdKey]) else JInt(p.currentChatId)
  }

  datatype Submitted = Submitted(page: Page, sent: Option<JsonValue>)

  /** The `submit` handler for the input box's content.  `session` stays
      as it was; the handler's `saveHistory` call rewrites only the
      `chatHistory` key, which `history` stands for. */
  function Submit(p: Page, input: string, answer: ChatAnswer): (r: Submitted)
    ensures IsBlank(JavaScript, input) <==> r.sent.None?
    ensures r.sent.None? ==> r.page == p
    ensures r.sent.Some? ==>
      var text := Strip(JavaScript, input);
      && r.sent.value == JObject(map["message" := JString(text), "chat_id" := ChatIdToSend(p)])
      && r.page.session == p.session && r.page.currentChatId == p.currentChatId
      && |r.page.history| >= |p.history| + 1
      && r.page.history[..|p.history| + 1] == p.history + [Message(UserSide, text)]
      && (r.page.history == p.history + [Message(UserSide, text)] <==> !answer.ChatOk?)
  {
    var text := Strip(JavaScript, input);
    if text == "" then Submitted(p, None)
    else
      var mine := Message(UserSide, text);
      var sent := JObject(map["message" := JString(text), "chat_id" := ChatIdToSend(p)]);
      var history := p.history + [mine];
      var panel := p.panel + [mine];
      match answer
      case ChatOk(reply) =>
        var botReply := if reply.Some? && reply.value != "" then reply.value else NoResponse;
        var history' := history + [Message(BotSide, botReply)];
        assert history'[..|p.history| + 1] == history;
        Submitted(Page(history', panel + [Message(BotSide, botReply)], p.session, p.currentChatId), Some(sent))
      case ChatNotOk =>
        Submitted(Page(history, panel + [Message(BotSide, ErrorNotice(ServerError))], p.session, p.currentChatId), Some(sent))
      case ChatThrew(message) =>
        Submitted(Page(history, panel + [Message(BotSide, ErrorNotice(message))], p.session, p.currentChatId), Some(sent))
  }

  /** A successful answer adds the bot entry after the user entry: the reply,
      or the fixed text when the reply is missing or empty. */
  lemma SubmitRecordsReply(p: Page, input: string, reply: Option<string>)
    requires !IsBlank(JavaScript, input)
    ensures var h := Submit(p, input, ChatOk(reply)).page.history;
            h == p.history + [Message(UserSide, Strip(JavaScript, input)),
                              Message(BotSide, if reply.Some? && reply.value != "" then reply.value else NoResponse)]
  {
  }

  /** A non-ok status never shows the quota notice: the thrown message is
      `"Server error"`, which does not contain `429`. */
  lemma NotOkIsConnectionError(p: Page, input: string)
    requires !IsBlank(JavaScript, input)
    ensures var panel := Submit(p, input, ChatNotOk).page.panel;
            panel[|panel| - 1] == Message(BotSide, ConnectionNotice)
  {
    assert '4' !in ServerError;
    FirstCharAbsent(ServerError, "429");
  }

  /** What the view receives as `chat_id` after an upload that returned chat
      `n`: the stored decimal string, which the view reads back as `n`, so
      the document context is looked up for chat `n`. */
  lemma UploadedChatIdReachesView(p: Page, fileName: string, n: nat, input: string, s: Services, question: string)
    requires n != 0
    ensures var p' := UploadChange(p, fileName, UploadOk(Some(n)));
            && ChatIdToSend(p') == JString(NatToString(n))
            && RetrieveContext(s, ChatIdToSend(p'), question) == RetrieveContext(s, JInt(n), question)
  {
    var p' := UploadChange(p, fileName, UploadOk(Some(n)));
    assert p'.session[ChatIdKey] == NatToString(n);
    StoredChatIdFindsMapping(s, n, question);
  }

  /** The stored id wins over the in-memory one, e.g. after a reload, where
      the in-memory id is back to 1. */
  lemma StoredIdSurvivesReload(history: seq<Message>, session: map<string, string>)
    requires ChatIdKey in session && session[ChatIdKey] != ""
    ensures ChatIdToSend(Loaded(history, session)) == JString(session[ChatIdKey])
  {
  }

  // ---------------------------------------------------------------------
  // History list and replay
  // ---------------------------------------------------------------------

  /** One history list item: the text and its `data-index`. */
  datatype Item = Item(index: nat, text: string)

  /** `renderHistory()`: the user entries, tagged with their index in the
      full history, from index `from` on. */
  function Items(h: seq<Message>, from: nat): (items: seq<Item>)
    requires from <= |h|
    ensures forall k :: 0 <= k < |items| ==> from <= items[k].index < |h|
    decreases |h| - from
  {
    if from == |h| then []
    else if h[from].sender == UserSide then [Item(from, h[from].text)] + Items(h, from + 1)
    else Items(h, from + 1)
  }

  /** Every listed item is a user entry of the history, with its text. */
  lemma {:induction false} ItemIsUserEntry(h: seq<Message>, from: nat, k: nat)
    requires from <= |h| && k < |Items(h, from)|
    ensures var item := Items(h, from)[k];
            h[item.index] == Message(UserSide, item.text)
    decreases |h| - from
  {
    if h[from].sender == UserSide && k > 0 {
      ItemIsUserEntry(h, from + 1, k - 1);
    } else if h[from].sender != UserSide {
      ItemIsUserEntry(h, from + 1, k);
    }
  }

  /** Items are listed in history order. */
  lemma {:induction false} ItemsInOrder(h: seq<Message>, from: nat, k: nat, l: nat)
    requires from <= |h| && k < l < |Items(h, from)|
    ensures Items(h, from)[k].index < Items(h, from)[l].index
    decreases |h| - from
  {
    if h[from].sender == UserSide {
      if k > 0 {
        ItemsInOrder(h, from + 1, k - 1, l - 1);
      }
    } else {
      ItemsInOrder(h, from + 1, k, l);
    }
  }

  /** Every user entry is listed. */
  lemma {:induction false} UserEntryIsListed(h: seq<Message>, from: nat, i: nat)
    requires from <= i < |h| && h[i].sender == UserSide
    ensures exists k :: 0 <= k < |Items(h, from)| && Items(h, from)[k].index == i
    decreases i - from
  {
    var items := Items(h, from);
    if i == from {
      assert items[0].index == i;
    } else {
      UserEntryIsListed(h, from + 1, i);
      var rest := Items(h, from + 1);
      var k :| 0 <= k < |rest| && rest[k].index == i;
      if h[from].sender == UserSide {
        assert items[k + 1] == rest[k];
      } else {
        assert items[k] == rest[k];
      }
    }
  }

  /** The click handler's loop: the panel becomes the history up to and
      including the clicked entry. */
  method Replay(h: seq<Message>, idx: nat) returns (panel: seq<Message>)
    requires idx < |h|
    ensures panel == h[..idx + 1]
    ensures panel[idx].sender == h[idx].sender && panel[idx].text == h[idx].text
  {
    panel := [];
    var i := 0;
    while i <= idx
      invariant 0 <= i <= idx + 1
      invariant panel == h[..i]
    {
      panel := panel + [h[i]];
      i := i + 1;
    }
  }

  /** Clicking a listed item replays the history up to that user message:
      `data-index` holds the decimal index, which `parseInt` reads back. */
  lemma ClickReplaysUpToItem(h: seq<Message>, k: nat)
    requires k < |Items(h, 0)|
    ensures var item := Items(h, 0)[k];
            && AllDigits(NatToString(item.index))
            && ParseDigits(NatToString(item.index)) == item.index
            && item.index < |h|
            && h[..item.index + 1][item.index] == Message(UserSide, item.text)
  {
    ParseNatToString(Items(h, 0)[k].index);
    ItemIsUserEntry(h, 0, k);
  }
}

=== FILE: ingestion.dfy ===
/** Ingestion of a document's text into its vector-index collection
    (`embed_texts` and `upsert_document_embeddings` in documents/embeddings.py).

    The ingestion loop repeats the chunker's loop inline with chunk size 1000
    and overlap 200, numbering the chunks, and flushes a batch (one embedding
    call per chunk, then one `upsert`) when the batch is full or when the next
    start is past the end of the text.  The embedding service is a parameter
    (`None` stands for a call that raised); the vector index is a map from
    collection name to the upserts that collection has received. */
module Ingestion {
  import opened Strings
  import opened Common
  import opened Chunking
  import opened DocModels

  /** An embedding vector; its values are opaque. */
  type Vector = seq<real>

  /** The embedding service, one text per call; `None` when the call raises. */
  type Embedder = string -> Option<Vector>

  /** The `batch_size` default of `upsert_document_embeddings`. */
  const DefaultBatchSize: int := 50

  /** Metadata stored with each chunk vector. */
  datatype ChunkMeta = ChunkMeta(documentId: nat, chunkIndex: nat, fileName: string)

  /** The arguments of one `collection.upsert(...)` call. */
  datatype Upsert = Upsert(ids: seq<string>, embeddings: seq<Vector>, metadatas: seq<ChunkMeta>, documents: seq<string>)

  /** The three batch lists the loop fills before a flush. */
  datatype Buffers = Buffers(chunks: seq<string>, ids: seq<string>, metadatas: seq<ChunkMeta>)

  /** Loop variables: `start`, `chunk_index`, the batch buffers and the upserts made so far. */
  datatype LoopState = LoopState(start: nat, index: nat, buffers: Buffers, upserts: seq<Upsert>)

  /** How ingestion ended.  `Skipped`: returned before touching the index.
      `Completed`: the loop exited.  `Aborted`: an embedding call raised during a
      flush (earlier upserts stay in the index).  `StillRunning`: the fuel ran
      out with the loop still going. */
  datatype Outcome =
    | Skipped
    | Completed(upserts: seq<Upsert>)
    | Aborted(upserts: seq<Upsert>)
    | StillRunning(upserts: seq<Upsert>, pending: Buffers)

  /** The vector index: the upserts each collection has received, in order. */
  type Index = map<string, seq<Upsert>>

  datatype Ingested = Ingested(outcome: Outcome, index: Index)

  function Max(a: int, b: int): int {
    if a >= b then a else b
  }

  /** The chunk id `"{document.id}_{chunk_index}"`. */
  function ChunkId(docId: nat, k: nat): string {
    NatToString(docId) + "_" + NatToString(k)
  }

  /** Chunk ids never collide: the id determines document and chunk index. */
  lemma ChunkIdInjective(d1: nat, k1: nat, d2: nat, k2: nat)
    requires ChunkId(d1, k1) == ChunkId(d2, k2)
    ensures d1 == d2 && k1 == k2
  {
    DigitsPrefixUnique(NatToString(d1), NatToString(d2), '_', NatToString(k1), NatToString(k2));
    NatToStringInjective(d1, d2);
    NatToStringInjective(k1, k2);
  }

  /** `embed_texts`: one embedding per text, in order; `None` as soon as any call raises. */
  function EmbedTexts(texts: seq<string>, embed: Embedder): (r: Option<seq<Vector>>)
    ensures r.Some? <==> forall i :: 0 <= i < |texts| ==> embed(texts[i]).Some?
    ensures r.Some? ==> |r.value| == |texts| && forall i :: 0 <= i < |texts| ==> r.value[i] == embed(texts[i]).value
  {
    if |texts| == 0 then Some([])
    else
      match embed(texts[0])
      case None => None
      case Some(v) =>
        match EmbedTexts(texts[1..], embed)
        case None => None
        case Some(vs) => Some([v] + vs)
  }

  /** The batch lists have one entry per chunk and fewer entries than a full batch. */
  predicate BuffersOk(b: Buffers, batchSize: int) {
    |b.chunks| == |b.ids| == |b.metadatas| && |b.chunks| < Max(batchSize, 1)
  }

  /** One upsert call: parallel lists of equal length, between one entry and a full batch. */
  predicate WellSized(u: Upsert, batchSize: int) {
    && |u.ids| == |u.embeddings| == |u.metadatas| == |u.documents|
    && 1 <= |u.documents| <= Max(batchSize, 1)
  }

  predicate AllWellSized(us: seq<Upsert>, batchSize: int) {
    forall i :: 0 <= i < |us| ==> WellSized(us[i], batchSize)
  }

  /** Each vector of the upsert is the embedding of the chunk stored with it. */
  predicate Embedded(u: Upsert, embed: Embedder) {
    forall i :: 0 <= i < |u.documents| && i < |u.embeddings| ==> embed(u.documents[i]) == Some(u.embeddings[i])
  }

  predicate AllEmbedded(us: seq<Upsert>, embed: Embedder) {
    forall i :: 0 <= i < |us| ==> Embedded(us[i], embed)
  }

  const NoBuffers := Buffers([], [], [])

  datatype StepResult = Next(st: LoopState) | Failed(upserts: seq<Upsert>)

  /** The batch lists with the chunk at `st.start`, its id and its metadata appended. */
  function Pushed(doc: Document, st: LoopState): Buffers
    requires st.start < |doc.extractedText|
  {
    var text := doc.extractedText;
    var end := WindowEnd(st.start, DefaultChunkSize, |text|);
    Buffers(st.buffers.chunks + [text[st.start..end]],
            st.buffers.ids + [ChunkId(doc.id, st.index)],
            st.buffers.metadatas + [ChunkMeta(doc.id, st.index, doc.title)])
  }

  /** One iteration of the ingestion loop from `st.start < len(text)`. */
  function Step(policy: Policy, doc: Document, embed: Embedder, batchSize: int, st: LoopState): (r: StepResult)
    requires st.start < |doc.extractedText|
    requires BuffersOk(st.buffers, batchSize) && AllWellSized(st.upserts, batchSize)
    ensures r.Failed? ==> r.upserts == st.upserts
    ensures r.Next? ==> BuffersOk(r.st.buffers, batchSize) && AllWellSized(r.st.upserts, batchSize)
    ensures r.Next? ==> r.st.index == st.index + 1
    ensures r.Next? ==> r.st.start == NextStart(policy, st.start, WindowEnd(st.start, DefaultChunkSize, |doc.extractedText|), DefaultOverlap, |doc.extractedText|)
    ensures r.Next? && r.st.start >= |doc.extractedText| ==> r.st.buffers == NoBuffers
  {
    var text := doc.extractedText;
    var end := WindowEnd(st.start, DefaultChunkSize, |text|);
    var b := Pushed(doc, st);
    var next := NextStart(policy, st.start, end, DefaultOverlap, |text|);
    if |b.chunks| >= batchSize || next >= |text| then
      match EmbedTexts(b.chunks, embed)
      case None => Failed(st.upserts)
      case Some(vs) =>
        var u := Upsert(b.ids, vs, b.metadatas, b.chunks);
        assert WellSized(u, batchSize);
        Next(LoopState(next, st.index + 1, NoBuffers, st.upserts + [u]))
    else
      Next(LoopState(next, st.index + 1, b, st.upserts))
  }

  /** The ingestion `while start < length` loop with at most `fuel` iterations. */
  function Loop(policy: Policy, doc: Document, embed: Embedder, batchSize: int, st: LoopState, fuel: nat): (r: Outcome)
    requires BuffersOk(st.buffers, batchSize) && AllWellSized(st.upserts, batchSize)
    ensures !r.Skipped?
    ensures AllWellSized(r.upserts, batchSize)
    ensures r.StillRunning? ==> BuffersOk(r.pending, batchSize)
    decreases fuel
  {
    if st.start >= |doc.extractedText| then Completed(st.upserts)
    else if fuel == 0 then StillRunning(st.upserts, st.buffers)
    else
      match Step(policy, doc, embed, batchSize, st)
      case Failed(us) => Aborted(us)
      case Next(st') => Loop(policy, doc, embed, batchSize, st', fuel - 1)
  }

  /** Every upsert the loop makes pairs each chunk with its own embedding. */
  lemma {:induction false} LoopKeepsEmbedded(policy: Policy, doc: Document, embed: Embedder, batchSize: int,
                                             st: LoopState, fuel: nat)
    requires BuffersOk(st.buffers, batchSize) && AllWellSized(st.upserts, batchSize)
    requires AllEmbedded(st.upserts, embed)
    ensures AllEmbedded(Loop(policy, doc, embed, batchSize, st, fuel).upserts, embed)
    decreases fuel
  {
    if st.start < |doc.extractedText| && fuel > 0 {
      var r := Step(policy, doc, embed, batchSize, st);
      if r.Next? {
        LoopKeepsEmbedded(policy, doc, embed, batchSize, r.st, fuel - 1);
      }
    }
  }

  /** `upsert_document_embeddings(document, batch_size)`: skip when the vector
      library is missing or the text is blank; otherwise get or create the
      document's collection and run the loop from `start = 0`. */
  function UpsertDocumentEmbeddings(policy: Policy, chromaAvailable: bool, doc: Document, embed: Embedder,
                                    batchSize: int, index: Index, fuel: nat): (r: Ingested)
    ensures r.outcome.Skipped? <==> !chromaAvailable || IsBlank(Python, doc.extractedText)
    ensures r.outcome.Skipped? ==> r.index == index
    ensures !r.outcome.Skipped? ==>
      && CollectionName(doc.id) in r.index
      && r.index[CollectionName(doc.id)] == (if CollectionName(doc.id) in index then index[CollectionName(doc.id)] else []) + r.outcome.upserts
      && forall n :: n != CollectionName(doc.id) ==> (n in r.index <==> n in index) && (n in index ==> r.index[n] == index[n])
    ensures !r.outcome.Skipped? ==> AllWellSized(r.outcome.upserts, batchSize)
    ensures !r.outcome.Skipped? ==> AllEmbedded(r.outcome.upserts, embed)
  {
    if !chromaAvailable || Strip(Python, doc.extractedText) == "" then Ingested(Skipped, index)
    else
      var name := CollectionName(doc.id);
      var before := if name in index then index[name] else [];
      var o := Loop(policy, doc, embed, batchSize, LoopState(0, 0, NoBuffers, []), fuel);
      LoopKeepsEmbedded(policy, doc, embed, batchSize, LoopState(0, 0, NoBuffers, []), fuel);
      Ingested(o, index[name := before + o.upserts])
  }

  // ---------------------------------------------------------------------
  // What the loop emits
  // ---------------------------------------------------------------------

  function FlatDocuments(us: seq<Upsert>): seq<string> {
    if |us| == 0 then [] else FlatDocuments(us[..|us| - 1]) + us[|us| - 1].documents
  }

  function FlatIds(us: seq<Upsert>): seq<string> {
    if |us| == 0 then [] else FlatIds(us[..|us| - 1]) + us[|us| - 1].ids
  }

  function FlatMetadatas(us: seq<Upsert>): seq<ChunkMeta> {
    if |us| == 0 then [] else FlatMetadatas(us[..|us| - 1]) + us[|us| - 1].metadatas
  }

  /** Ids `"{docId}_{from}"`, `"{docId}_{from + 1}"`, ... (`n` of them). */
  function IdsFrom(docId: nat, from: nat, n: nat): seq<string>
    decreases n
  {
    if n == 0 then [] else [ChunkId(docId, from)] + IdsFrom(docId, from + 1, n - 1)
  }

  /** Metadata for chunks `from`, `from + 1`, ... (`n` of them). */
  function MetasFrom(docId: nat, title: string, from: nat, n: nat): seq<ChunkMeta>
    decreases n
  {
    if n == 0 then [] else [ChunkMeta(docId, from, title)] + MetasFrom(docId, title, from + 1, n - 1)
  }

  lemma IdsFromCons(docId: nat, from: nat, next: nat, n: nat, m: nat)
    requires next == from + 1 && m == n + 1
    ensures IdsFrom(docId, from, m) == [ChunkId(docId, from)] + IdsFrom(docId, next, n)
  {
  }

  lemma MetasFromCons(docId: nat, title: string, from: nat, next: nat, n: nat, m: nat)
    requires next == from + 1 && m == n + 1
    ensures MetasFrom(docId, title, from, m) == [ChunkMeta(docId, from, title)] + MetasFrom(docId, title, next, n)
  {
  }

  function PendingOf(o: Outcome): Buffers {
    if o.StillRunning? then o.pending else NoBuffers
  }

  /** Every chunk handed to `upsert` so far, plus those still in the batch buffers. */
  function EmittedChunks(us: seq<Upsert>, b: Buffers): seq<string> {
    FlatDocuments(us) + b.chunks
  }

  function EmittedIds(us: seq<Upsert>, b: Buffers): seq<string> {
    FlatIds(us) + b.ids
  }

  function EmittedMetadatas(us: seq<Upsert>, b: Buffers): seq<ChunkMeta> {
    FlatMetadatas(us) + b.metadatas
  }

  lemma SlicesCons(text: string, sp: Span, rest: seq<Span>)
    requires sp.lo <= sp.hi <= |text|
    requires forall i :: 0 <= i < |rest| ==> rest[i].lo <= rest[i].hi <= |text|
    ensures Slices(text, [sp] + rest) == [text[sp.lo..sp.hi]] + Slices(text, rest)
  {
  }

  lemma AppendShift<T>(a: seq<T>, b: seq<T>, x: T, s: seq<T>)
    requires b == a + [x]
    ensures b + s == a + ([x] + s)
  {
  }


  lemma FlatSnoc(us: seq<Upsert>, u: Upsert)
    ensures FlatDocuments(us + [u]) == FlatDocuments(us) + u.documents
    ensures FlatIds(us + [u]) == FlatIds(us) + u.ids
    ensures FlatMetadatas(us + [u]) == FlatMetadatas(us) + u.metadatas
  {
    assert (us + [u])[..|us|] == us;
  }

  /** A step with embeddings that never fail either keeps the pushed batch
      lists or flushes them as one more upsert. */
  lemma StepShape(policy: Policy, doc: Document, embed: Embedder, batchSize: int, st: LoopState)
    requires forall t :: embed(t).Some?
    requires st.start < |doc.extractedText|
    requires BuffersOk(st.buffers, batchSize) && AllWellSized(st.upserts, batchSize)
    ensures var r := Step(policy, doc, embed, batchSize, st);
            var b := Pushed(doc, st);
            && r.Next?
            && ((r.st.upserts == st.upserts && r.st.buffers == b)
                || (r.st.buffers == NoBuffers && exists vs :: r.st.upserts == st.upserts + [Upsert(b.ids, vs, b.metadatas, b.chunks)]))
  {
    var b := Pushed(doc, st);
    var r := Step(policy, doc, embed, batchSize, st);
    if r.st.upserts != st.upserts {
      var vs := EmbedTexts(b.chunks, embed).value;
      assert r.st.upserts == st.upserts + [Upsert(b.ids, vs, b.metadatas, b.chunks)];
    }
  }

  /** A step (with embeddings that never fail) adds exactly one chunk to what
      has been emitted. */
  lemma StepEmitsChunk(policy: Policy, doc: Document, embed: Embedder, batchSize: int, st: LoopState)
    requires forall t :: embed(t).Some?
    requires st.start < |doc.extractedText|
    requires BuffersOk(st.buffers, batchSize) && AllWellSized(st.upserts, batchSize)
    ensures var r := Step(policy, doc, embed, batchSize, st);
            var end := WindowEnd(st.start, DefaultChunkSize, |doc.extractedText|);
            && r.Next?
            && EmittedChunks(r.st.upserts, r.st.buffers) == EmittedChunks(st.upserts, st.buffers) + [doc.extractedText[st.start..end]]
  {
    StepShape(policy, doc, embed, batchSize, st);
    var r := Step(policy, doc, embed, batchSize, st);
    var b := Pushed(doc, st);
    if r.st.upserts != st.upserts {
      var vs :| r.st.upserts == st.upserts + [Upsert(b.ids, vs, b.metadatas, b.chunks)];
      FlatSnoc(st.upserts, Upsert(b.ids, vs, b.metadatas, b.chunks));
    }
  }

  /** A step (with embeddings that never fail) adds exactly the next chunk
      id to what has been emitted. */
  lemma StepEmitsId(policy: Policy, doc: Document, embed: Embedder, batchSize: int, st: LoopState)
    requires forall t :: embed(t).Some?
    requires st.start < |doc.extractedText|
    requires BuffersOk(st.buffers, batchSize) && AllWellSized(st.upserts, batchSize)
    ensures var r := Step(policy, doc, embed, batchSize, st);
            && r.Next?
            && EmittedIds(r.st.upserts, r.st.buffers) == EmittedIds(st.upserts, st.buffers) + [ChunkId(doc.id, st.index)]
  {
    StepShape(policy, doc, embed, batchSize, st);
    var r := Step(policy, doc, embed, batchSize, st);
    var b := Pushed(doc, st);
    if r.st.upserts != st.upserts {
      var vs :| r.st.upserts == st.upserts + [Upsert(b.ids, vs, b.metadatas, b.chunks)];
      FlatSnoc(st.upserts, Upsert(b.ids, vs, b.metadatas, b.chunks));
    }
  }

  /** A step (with embeddings that never fail) adds exactly the next chunk's
      metadata to what has been emitted. */
  lemma StepEmitsMetadata(policy: Policy, doc: Document, embed: Embedder, batchSize: int, st: LoopState)
    requires forall t :: embed(t).Some?
    requires st.start < |doc.extractedText|
    requires BuffersOk(st.buffers, batchSize) && AllWellSized(st.upserts, batchSize)
    ensures var r := Step(policy, doc, embed, batchSize, st);
            && r.Next?
            && EmittedMetadatas(r.st.upserts, r.st.buffers) == EmittedMetadatas(st.upserts, st.buffers) + [ChunkMeta(doc.id, st.index, doc.title)]
  {
    StepShape(policy, doc, embed, batchSize, st);
    var r := Step(policy, doc, embed, batchSize, st);
    var b := Pushed(doc, st);
    if r.st.upserts != st.upserts {
      var vs :| r.st.upserts == st.upserts + [Upsert(b.ids, vs, b.metadatas, b.chunks)];
      FlatSnoc(st.upserts, Upsert(b.ids, vs, b.metadatas, b.chunks));
    }
  }

  /** How many windows the chunker's loop visits from `start` within `fuel`
      iterations (with the ingestion's size and overlap). */
  function WindowCount(policy: Policy, length: nat, start: nat, fuel: nat): nat
    decreases fuel
  {
    if start >= length || fuel == 0 then 0
    else
      var end := WindowEnd(start, DefaultChunkSize, length);
      1 + WindowCount(policy, length, NextStart(policy, start, end, DefaultOverlap, length), fuel - 1)
  }

  lemma {:induction false} WindowCountIsRunLength(policy: Policy, length: nat, start: nat, fuel: nat)
    ensures WindowCount(policy, length, start, fuel) == |RunFrom(policy, length, DefaultChunkSize, DefaultOverlap, start, fuel).items|
    decreases fuel
  {
    if start < length && fuel > 0 {
      var end := WindowEnd(start, DefaultChunkSize, length);
      WindowCountIsRunLength(policy, length, NextStart(policy, start, end, DefaultOverlap, length), fuel - 1);
    }
  }

  /** The windows the chunker's loop visits from `start` within `fuel`
      iterations (with the ingestion's size and overlap). */
  function SpansFrom(policy: Policy, length: nat, start: nat, fuel: nat): (spans: seq<Span>)
    ensures forall i :: 0 <= i < |spans| ==> spans[i].lo <= spans[i].hi <= length
    decreases fuel
  {
    if start >= length || fuel == 0 then []
    else
      var end := WindowEnd(start, DefaultChunkSize, length);
      [Span(start, end)] + SpansFrom(policy, length, NextStart(policy, start, end, DefaultOverlap, length), fuel - 1)
  }

  /** Whether the chunker's loop from `start` exits within `fuel` iterations. */
  predicate ExitsWithin(policy: Policy, length: nat, start: nat, fuel: nat)
    decreases fuel
  {
    start >= length
    || (fuel > 0 && ExitsWithin(policy, length, NextStart(policy, start, WindowEnd(start, DefaultChunkSize, length), DefaultOverlap, length), fuel - 1))
  }

  /** One iteration of the chunker's loop with the ingestion's size and overlap. */
  lemma RunCons(policy: Policy, length: nat, start: nat, next: nat, fuel: nat)
    requires start < length && fuel > 0
    requires next == NextStart(policy, start, WindowEnd(start, DefaultChunkSize, length), DefaultOverlap, length)
    ensures var run := RunFrom(policy, length, DefaultChunkSize, DefaultOverlap, start, fuel);
            var rest := RunFrom(policy, length, DefaultChunkSize, DefaultOverlap, next, fuel - 1);
            && run.items == [Span(start, WindowEnd(start, DefaultChunkSize, length))] + rest.items
            && (run.Exited? <==> rest.Exited?)
  {
  }

  lemma {:induction false} SpansFromIsRun(policy: Policy, length: nat, start: nat, fuel: nat)
    ensures SpansFrom(policy, length, start, fuel) == RunFrom(policy, length, DefaultChunkSize, DefaultOverlap, start, fuel).items
    decreases fuel
  {
    if start < length && fuel > 0 {
      var next := NextStart(policy, start, WindowEnd(start, DefaultChunkSize, length), DefaultOverlap, length);
      SpansFromIsRun(policy, length, next, fuel - 1);
      RunCons(policy, length, start, next, fuel);
    }
  }

  lemma {:induction false} ExitsWithinIsExited(policy: Policy, length: nat, start: nat, fuel: nat)
    ensures ExitsWithin(policy, length, start, fuel) <==> RunFrom(policy, length, DefaultChunkSize, DefaultOverlap, start, fuel).Exited?
    decreases fuel
  {
    if start < length && fuel > 0 {
      var next := NextStart(policy, start, WindowEnd(start, DefaultChunkSize, length), DefaultOverlap, length);
      ExitsWithinIsExited(policy, length, next, fuel - 1);
      RunCons(policy, length, start, next, fuel);
    }
  }

  /** One more iteration of both loops: the ingestion loop steps to `st'`,
      emitting one more chunk, id and metadata, and the chunker's run from
      `st'.start` is one window shorter. */
  lemma LoopUnfold(policy: Policy, doc: Document, embed: Embedder, batchSize: int, st: LoopState, fuel: nat)
    returns (st': LoopState)
    requires forall t :: embed(t).Some?
    requires BuffersOk(st.buffers, batchSize) && AllWellSized(st.upserts, batchSize)
    requires st.start < |doc.extractedText| && fuel > 0
    ensures BuffersOk(st'.buffers, batchSize) && AllWellSized(st'.upserts, batchSize)
    ensures st'.start >= |doc.extractedText| ==> st'.buffers == NoBuffers
    ensures st'.index == st.index + 1
    ensures st'.start == NextStart(policy, st.start, WindowEnd(st.start, DefaultChunkSize, |doc.extractedText|), DefaultOverlap, |doc.extractedText|)
    ensures Loop(policy, doc, embed, batchSize, st, fuel) == Loop(policy, doc, embed, batchSize, st', fuel - 1)
    ensures WindowCount(policy, |doc.extractedText|, st.start, fuel) == 1 + WindowCount(policy, |doc.extractedText|, st'.start, fuel - 1)
    ensures EmittedChunks(st'.upserts, st'.buffers)
            == EmittedChunks(st.upserts, st.buffers) + [doc.extractedText[st.start..WindowEnd(st.start, DefaultChunkSize, |doc.extractedText|)]]
    ensures EmittedIds(st'.upserts, st'.buffers) == EmittedIds(st.upserts, st.buffers) + [ChunkId(doc.id, st.index)]
    ensures EmittedMetadatas(st'.upserts, st'.buffers) == EmittedMetadatas(st.upserts, st.buffers) + [ChunkMeta(doc.id, st.index, doc.title)]
  {
    StepEmitsChunk(policy, doc, embed, batchSize, st);
    StepEmitsId(policy, doc, embed, batchSize, st);
    StepEmitsMetadata(policy, doc, embed, batchSize, st);
    st' := Step(policy, doc, embed, batchSize, st).st;
  }

  /** When the loop stops at once, nothing more is emitted and the run is empty. */
  lemma LoopStops(policy: Policy, doc: Document, embed: Embedder, batchSize: int, st: LoopState, fuel: nat)
    requires BuffersOk(st.buffers, batchSize) && AllWellSized(st.upserts, batchSize)
    requires st.start >= |doc.extractedText| ==> st.buffers == NoBuffers
    requires st.start >= |doc.extractedText| || fuel == 0
    ensures var o := Loop(policy, doc, embed, batchSize, st, fuel);
            && o.upserts == st.upserts && PendingOf(o) == st.buffers
            && WindowCount(policy, |doc.extractedText|, st.start, fuel) == 0
            && SpansFrom(policy, |doc.extractedText|, st.start, fuel) == []
            && (o.Completed? <==> ExitsWithin(policy, |doc.extractedText|, st.start, fuel))
            && !o.Aborted?
  {
  }

  /** The ingestion loop never aborts when embedding never fails, and it
      completes exactly when the chunker's loop exits. */
  lemma {:induction false} LoopExitsWithRun(policy: Policy, doc: Document, embed: Embedder, batchSize: int, st: LoopState, fuel: nat)
    requires forall t :: embed(t).Some?
    requires BuffersOk(st.buffers, batchSize) && AllWellSized(st.upserts, batchSize)
    requires st.start >= |doc.extractedText| ==> st.buffers == NoBuffers
    ensures var o := Loop(policy, doc, embed, batchSize, st, fuel);
            && !o.Aborted?
            && (o.Completed? <==> ExitsWithin(policy, |doc.extractedText|, st.start, fuel))
    decreases fuel
  {
    if st.start < |doc.extractedText| && fuel > 0 {
      var st' := LoopUnfold(policy, doc, embed, batchSize, st, fuel);
      LoopExitsWithRun(policy, doc, embed, batchSize, st', fuel - 1);
    } else {
      LoopStops(policy, doc, embed, batchSize, st, fuel);
    }
  }

  /** What the loop has emitted from state `st`, followed by the windows the
      chunker's loop still visits from `st.start` within `fuel` iterations. */
  function ChunksPlanned(policy: Policy, doc: Document, st: LoopState, fuel: nat): seq<string> {
    EmittedChunks(st.upserts, st.buffers) + Slices(doc.extractedText, SpansFrom(policy, |doc.extractedText|, st.start, fuel))
  }

  /** The ids emitted so far, followed by consecutive ids for the windows still to visit. */
  function IdsPlanned(policy: Policy, doc: Document, st: LoopState, fuel: nat): seq<string> {
    EmittedIds(st.upserts, st.buffers) + IdsFrom(doc.id, st.index, WindowCount(policy, |doc.extractedText|, st.start, fuel))
  }

  /** The metadata emitted so far, followed by that of the windows still to visit. */
  function MetasPlanned(policy: Policy, doc: Document, st: LoopState, fuel: nat): seq<ChunkMeta> {
    EmittedMetadatas(st.upserts, st.buffers) + MetasFrom(doc.id, doc.title, st.index, WindowCount(policy, |doc.extractedText|, st.start, fuel))
  }

  /** One step moves one window from the plan into what has been emitted. */
  lemma ChunksPlannedStep(policy: Policy, doc: Document, st: LoopState, st': LoopState, fuel: nat)
    requires st.start < |doc.extractedText| && fuel > 0
    requires st'.start == NextStart(policy, st.start, WindowEnd(st.start, DefaultChunkSize, |doc.extractedText|), DefaultOverlap, |doc.extractedText|)
    requires EmittedChunks(st'.upserts, st'.buffers)
             == EmittedChunks(st.upserts, st.buffers) + [doc.extractedText[st.start..WindowEnd(st.start, DefaultChunkSize, |doc.extractedText|)]]
    ensures ChunksPlanned(policy, doc, st, fuel) == ChunksPlanned(policy, doc, st', fuel - 1)
  {
    var text := doc.extractedText;
    var end := WindowEnd(st.start, DefaultChunkSize, |text|);
    var rest := SpansFrom(policy, |text|, st'.start, fuel - 1);
    SlicesCons(text, Span(st.start, end), rest);
    AppendShift(EmittedChunks(st.upserts, st.buffers), EmittedChunks(st'.upserts, st'.buffers),
                text[st.start..end], Slices(text, rest));
  }

  lemma IdsPlannedStep(policy: Policy, doc: Document, st: LoopState, st': LoopState, fuel: nat)
    requires fuel > 0
    requires st'.index == st.index + 1
    requires WindowCount(policy, |doc.extractedText|, st.start, fuel) == 1 + WindowCount(policy, |doc.extractedText|, st'.start, fuel - 1)
    requires EmittedIds(st'.upserts, st'.buffers) == EmittedIds(st.upserts, st.buffers) + [ChunkId(doc.id, st.index)]
    ensures IdsPlanned(policy, doc, st, fuel) == IdsPlanned(policy, doc, st', fuel - 1)
  {
    var n := WindowCount(policy, |doc.extractedText|, st'.start, fuel - 1);
    var m := WindowCount(policy, |doc.extractedText|, st.start, fuel);
    IdsFromCons(doc.id, st.index, st'.index, n, m);
    AppendShift(EmittedIds(st.upserts, st.buffers), EmittedIds(st'.upserts, st'.buffers), ChunkId(doc.id, st.index), IdsFrom(doc.id, st'.index, n));
  }

  lemma MetasPlannedStep(policy: Policy, doc: Document, st: LoopState, st': LoopState, fuel: nat)
    requires fuel > 0
    requires st'.index == st.index + 1
    requires WindowCount(policy, |doc.extractedText|, st.start, fuel) == 1 + WindowCount(policy, |doc.extractedText|, st'.start, fuel - 1)
    requires EmittedMetadatas(st'.upserts, st'.buffers) == EmittedMetadatas(st.upserts, st.buffers) + [ChunkMeta(doc.id, st.index, doc.title)]
    ensures MetasPlanned(policy, doc, st, fuel) == MetasPlanned(policy, doc, st', fuel - 1)
  {
    var n := WindowCount(policy, |doc.extractedText|, st'.start, fuel - 1);
    var m := WindowCount(policy, |doc.extractedText|, st.start, fuel);
    MetasFromCons(doc.id, doc.title, st.index, st'.index, n, m);
    AppendShift(EmittedMetadatas(st.upserts, st.buffers), EmittedMetadatas(st'.upserts, st'.buffers),
                ChunkMeta(doc.id, st.index, doc.title), MetasFrom(doc.id, doc.title, st'.index, n));
  }

  /** When the loop stops at once, the plan is exactly what has been emitted. */
  lemma PlannedWhenStopped(policy: Policy, doc: Document, embed: Embedder, batchSize: int, st: LoopState, fuel: nat)
    requires BuffersOk(st.buffers, batchSize) && AllWellSized(st.upserts, batchSize)
    requires st.start >= |doc.extractedText| ==> st.buffers == NoBuffers
    requires st.start >= |doc.extractedText| || fuel == 0
    ensures var o := Loop(policy, doc, embed, batchSize, st, fuel);
            && EmittedChunks(o.upserts, PendingOf(o)) == ChunksPlanned(policy, doc, st, fuel)
            && EmittedIds(o.upserts, PendingOf(o)) == IdsPlanned(policy, doc, st, fuel)
            && EmittedMetadatas(o.upserts, PendingOf(o)) == MetasPlanned(policy, doc, st, fuel)
  {
    LoopStops(policy, doc, embed, batchSize, st, fuel);
  }

  /** Step for step, the ingestion loop emits the chunker's windows of the text. */
  lemma {:induction false} LoopEmitsRun(policy: Policy, doc: Document, embed: Embedder, batchSize: int, st: LoopState, fuel: nat)
    requires forall t :: embed(t).Some?
    requires BuffersOk(st.buffers, batchSize) && AllWellSized(st.upserts, batchSize)
    requires st.start >= |doc.extractedText| ==> st.buffers == NoBuffers
    ensures var o := Loop(policy, doc, embed, batchSize, st, fuel);
            EmittedChunks(o.upserts, PendingOf(o)) == ChunksPlanned(policy, doc, st, fuel)
    decreases fuel
  {
    if st.start < |doc.extractedText| && fuel > 0 {
      var st' := LoopUnfold(policy, doc, embed, batchSize, st, fuel);
      LoopEmitsRun(policy, doc, embed, batchSize, st', fuel - 1);
      ChunksPlannedStep(policy, doc, st, st', fuel);
    } else {
      PlannedWhenStopped(policy, doc, embed, batchSize, st, fuel);
    }
  }

  /** Step for step, the ingestion loop numbers its chunks consecutively from
      `st.index`: ids `"{doc.id}_{k}"`. */
  lemma {:induction false} LoopNumbersRun(policy: Policy, doc: Document, embed: Embedder, batchSize: int, st: LoopState, fuel: nat)
    requires forall t :: embed(t).Some?
    requires BuffersOk(st.buffers, batchSize) && AllWellSized(st.upserts, batchSize)
    requires st.start >= |doc.extractedText| ==> st.buffers == NoBuffers
    ensures var o := Loop(policy, doc, embed, batchSize, st, fuel);
            EmittedIds(o.upserts, PendingOf(o)) == IdsPlanned(policy, doc, st, fuel)
    decreases fuel
  {
    if st.start < |doc.extractedText| && fuel > 0 {
      var st' := LoopUnfold(policy, doc, embed, batchSize, st, fuel);
      LoopNumbersRun(policy, doc, embed, batchSize, st', fuel - 1);
      IdsPlannedStep(policy, doc, st, st', fuel);
    } else {
      PlannedWhenStopped(policy, doc, embed, batchSize, st, fuel);
    }
  }

  /** Step for step, the k-th chunk's metadata is `{document_id, chunk_index: k, file_name: title}`. */
  lemma {:induction false} LoopLabelsRun(policy: Policy, doc: Document, embed: Embedder, batchSize: int, st: LoopState, fuel: nat)
    requires forall t :: embed(t).Some?
    requires BuffersOk(st.buffers, batchSize) && AllWellSized(st.upserts, batchSize)
    requires st.start >= |doc.extractedText| ==> st.buffers == NoBuffers
    ensures var o := Loop(policy, doc, embed, batchSize, st, fuel);
            EmittedMetadatas(o.upserts, PendingOf(o)) == MetasPlanned(policy, doc, st, fuel)
    decreases fuel
  {
    if st.start < |doc.extractedText| && fuel > 0 {
      var st' := LoopUnfold(policy, doc, embed, batchSize, st, fuel);
      LoopLabelsRun(policy, doc, embed, batchSize, st', fuel - 1);
      MetasPlannedStep(policy, doc, st, st', fuel);
    } else {
      PlannedWhenStopped(policy, doc, embed, batchSize, st, fuel);
    }
  }

  /** `chunk_text(text, 1000, 200)` in terms of the mirror functions. */
  lemma ChunkTextMirror(policy: Policy, text: string, fuel: nat)
    requires text != []
    ensures var c := ChunkText(policy, text, DefaultChunkSize, DefaultOverlap, fuel);
            && c.items == Slices(text, SpansFrom(policy, |text|, 0, fuel))
            && (c.Exited? <==> ExitsWithin(policy, |text|, 0, fuel))
            && |c.items| == WindowCount(policy, |text|, 0, fuel)
  {
    SpansFromIsRun(policy, |text|, 0, fuel);
    ExitsWithinIsExited(policy, |text|, 0, fuel);
    WindowCountIsRunLength(policy, |text|, 0, fuel);
  }

  /** The ingestion loop from `start = 0` with nothing emitted yet. */
  lemma LoopFromStart(policy: Policy, doc: Document, embed: Embedder, batchSize: int, fuel: nat)
    requires forall t :: embed(t).Some?
    ensures var o := Loop(policy, doc, embed, batchSize, LoopState(0, 0, NoBuffers, []), fuel);
            var n := WindowCount(policy, |doc.extractedText|, 0, fuel);
            && !o.Aborted?
            && (o.Completed? <==> ExitsWithin(policy, |doc.extractedText|, 0, fuel))
            && EmittedChunks(o.upserts, PendingOf(o)) == Slices(doc.extractedText, SpansFrom(policy, |doc.extractedText|, 0, fuel))
            && EmittedIds(o.upserts, PendingOf(o)) == IdsFrom(doc.id, 0, n)
            && EmittedMetadatas(o.upserts, PendingOf(o)) == MetasFrom(doc.id, doc.title, 0, n)
  {
    var st := LoopState(0, 0, NoBuffers, []);
    LoopExitsWithRun(policy, doc, embed, batchSize, st, fuel);
    LoopEmitsRun(policy, doc, embed, batchSize, st, fuel);
    LoopNumbersRun(policy, doc, embed, batchSize, st, fuel);
    LoopLabelsRun(policy, doc, embed, batchSize, st, fuel);
    assert EmittedChunks([], NoBuffers) == [];
    assert EmittedIds([], NoBuffers) == [];
    assert EmittedMetadatas([], NoBuffers) == [];
  }

  /** The ingestion loop emits the same chunks as `chunk_text(text, 1000, 200)`
      run for the same number of iterations; the k-th chunk (from 0) gets id
      `"{doc.id}_{k}"` and metadata `{document_id, chunk_index: k, file_name: title}`. */
  lemma InlineLoopMatchesChunkText(policy: Policy, doc: Document, embed: Embedder, batchSize: int, index: Index, fuel: nat)
    requires forall t :: embed(t).Some?
    requires !IsBlank(Python, doc.extractedText)
    ensures var o := UpsertDocumentEmbeddings(policy, true, doc, embed, batchSize, index, fuel).outcome;
            var c := ChunkText(policy, doc.extractedText, DefaultChunkSize, DefaultOverlap, fuel);
            && (o.Completed? <==> c.Exited?)
            && !o.Aborted?
            && EmittedChunks(o.upserts, PendingOf(o)) == c.items
            && EmittedIds(o.upserts, PendingOf(o)) == IdsFrom(doc.id, 0, |c.items|)
            && EmittedMetadatas(o.upserts, PendingOf(o)) == MetasFrom(doc.id, doc.title, 0, |c.items|)
  {
    assert doc.extractedText != [];
    LoopFromStart(policy, doc, embed, batchSize, fuel);
    ChunkTextMirror(policy, doc.extractedText, fuel);
  }

  /** The k-th id of `IdsFrom(docId, from, n)` is `"{docId}_{from + k}"`. */
  lemma {:induction false} IdsFromIndex(docId: nat, from: nat, n: nat)
    ensures |IdsFrom(docId, from, n)| == n
    ensures forall i :: 0 <= i < n ==> IdsFrom(docId, from, n)[i] == ChunkId(docId, from + i)
    decreases n
  {
    if n > 0 {
      IdsFromIndex(docId, from + 1, n - 1);
    }
  }

  /** Chunk ids of one document are pairwise distinct. */
  lemma IdsFromDistinct(docId: nat, from: nat, n: nat)
    ensures var ids := IdsFrom(docId, from, n);
            forall i, j :: 0 <= i < j < |ids| ==> ids[i] != ids[j]
  {
    IdsFromIndex(docId, from, n);
    var ids := IdsFrom(docId, from, n);
    forall i, j | 0 <= i < j < |ids|
      ensures ids[i] != ids[j]
    {
      if ids[i] == ids[j] {
        ChunkIdInjective(docId, from + i, docId, from + j);
      }
    }
  }

  // ---------------------------------------------------------------------
  // The loop of `upsert_document_embeddings` never completes; the corrected one does
  // ---------------------------------------------------------------------

  /** With the rule of `chunk_text` as written and a text of at least 200
      characters, the loop never exits: every flush is a full batch (the `start >= length` flush
      never fires), and only a raising embedding call (or the fuel) ends it. */
  lemma {:induction false} AsWrittenLoopNeverCompletes(doc: Document, embed: Embedder, batchSize: int, st: LoopState, fuel: nat)
    requires |doc.extractedText| >= DefaultOverlap
    requires st.start < |doc.extractedText|
    requires BuffersOk(st.buffers, batchSize) && AllWellSized(st.upserts, batchSize)
    requires forall i :: 0 <= i < |st.upserts| ==> |st.upserts[i].documents| == Max(batchSize, 1)
    ensures var o := Loop(AsWritten, doc, embed, batchSize, st, fuel);
            && (o.Aborted? || o.StillRunning?)
            && forall i :: 0 <= i < |o.upserts| ==> |o.upserts[i].documents| == Max(batchSize, 1)
    decreases fuel
  {
    if fuel > 0 {
      var text := doc.extractedText;
      AsWrittenStaysInside(st.start, DefaultChunkSize, DefaultOverlap, |text|);
      var r := Step(AsWritten, doc, embed, batchSize, st);
      if r.Next? {
        var us := r.st.upserts;
        if |us| != |st.upserts| {
          assert us[..|us| - 1] == st.upserts;
          assert |us[|us| - 1].documents| == |st.buffers.chunks| + 1;
        }
        AsWrittenLoopNeverCompletes(doc, embed, batchSize, r.st, fuel - 1);
      }
    }
  }

  /** `upsert_document_embeddings` as written never completes for a text of
      200 characters or more, whatever the fuel and the embedding service. */
  lemma AsWrittenIngestionNeverCompletes(doc: Document, embed: Embedder, batchSize: int, index: Index, fuel: nat)
    requires |doc.extractedText| >= DefaultOverlap
    ensures var o := UpsertDocumentEmbeddings(AsWritten, true, doc, embed, batchSize, index, fuel).outcome;
            o.Skipped? || o.Aborted? || o.StillRunning?
  {
    if !IsBlank(Python, doc.extractedText) {
      AsWrittenLoopNeverCompletes(doc, embed, batchSize, LoopState(0, 0, NoBuffers, []), fuel);
    }
  }

  /** The corrected ingestion, given `len(text)` iterations and an embedding
      service that never fails, completes; its upserts hold the corrected
      chunker's chunks in order, with ids `"{doc.id}_0"`, `"{doc.id}_1"`, ... */
  lemma CorrectedIngestionCompletes(doc: Document, embed: Embedder, batchSize: int, index: Index)
    requires forall t :: embed(t).Some?
    requires !IsBlank(Python, doc.extractedText)
    ensures var text := doc.extractedText;
            var o := UpsertDocumentEmbeddings(Corrected, true, doc, embed, batchSize, index, |text|).outcome;
            var c := ChunkText(Corrected, text, DefaultChunkSize, DefaultOverlap, |text|);
            && o.Completed?
            && FlatDocuments(o.upserts) == c.items
            && FlatIds(o.upserts) == IdsFrom(doc.id, 0, |c.items|)
  {
    var text := doc.extractedText;
    CorrectedExits(|text|, DefaultChunkSize, DefaultOverlap, 0, |text|);
    InlineLoopMatchesChunkText(Corrected, doc, embed, batchSize, index, |text|);
    var o := UpsertDocumentEmbeddings(Corrected, true, doc, embed, batchSize, index, |text|).outcome;
    assert PendingOf(o) == NoBuffers;
    assert FlatDocuments(o.upserts) + [] == FlatDocuments(o.upserts);
    assert FlatIds(o.upserts) + [] == FlatIds(o.upserts);
  }

  /** The corrected loop returns (completes or aborts) within
      `len(text) - start` iterations, whatever the embedding service does. */
  lemma {:induction false} CorrectedLoopReturns(doc: Document, embed: Embedder, batchSize: int, st: LoopState, fuel: nat)
    requires BuffersOk(st.buffers, batchSize) && AllWellSized(st.upserts, batchSize)
    requires st.start + fuel >= |doc.extractedText|
    ensures !Loop(Corrected, doc, embed, batchSize, st, fuel).StillRunning?
    decreases fuel
  {
    if st.start < |doc.extractedText| {
      CorrectedProgress(st.start, DefaultChunkSize, DefaultOverlap, |doc.extractedText|);
      var r := Step(Corrected, doc, embed, batchSize, st);
      if r.Next? {
        CorrectedLoopReturns(doc, embed, batchSize, r.st, fuel - 1);
      }
    }
  }

  /** `upsert_document_embeddings` with the corrected chunking rule always
      returns, given `len(text)` iterations. */
  lemma CorrectedIngestionReturns(chromaAvailable: bool, doc: Document, embed: Embedder, batchSize: int, index: Index, fuel: nat)
    requires fuel >= |doc.extractedText|
    ensures !UpsertDocumentEmbeddings(Corrected, chromaAvailable, doc, embed, batchSize, index, fuel).outcome.StillRunning?
  {
    if chromaAvailable && !IsBlank(Python, doc.extractedText) {
      CorrectedLoopReturns(doc, embed, batchSize, LoopState(0, 0, NoBuffers, []), fuel);
    }
  }
}

=== FILE: json.dfy ===
/** Decoded JSON request bodies, with the two Python conversions the views
    apply to them: truthiness (`if not x`) and `int(x)` (which Django also
    applies when an integer column is filtered by a value). */
module Json {
  import opened Common
  import opened Strings

  datatype JsonValue =
    | JNull
    | JBool(b: bool)
    | JInt(i: int)
    | JFloat(r: real)
    | JString(s: string)
    | JArray(items: seq<JsonValue>)
    | JObject(fields: map<string, JsonValue>)

  /** Python truthiness of the decoded value. */
  predicate Truthy(v: JsonValue) {
    match v
    case JNull => false
    case JBool(b) => b
    case JInt(i) => i != 0
    case JFloat(r) => r != 0.0
    case JString(s) => s != []
    case JArray(items) => items != []
    case JObject(fields) => fields != map[]
  }

  /** `d.get(key, default)` on a decoded object. */
  function Get(fields: map<string, JsonValue>, key: string, default: JsonValue): (v: JsonValue)
    ensures key in fields ==> v == fields[key]
    ensures key !in fields ==> v == default
  {
    if key in fields then fields[key] else default
  }

  /** `int(f)` for a float: truncation toward zero. */
  function Truncate(r: real): (i: int)
    ensures r >= 0.0 ==> i as real <= r < i as real + 1.0
    ensures r < 0.0 ==> i as real - 1.0 < r <= i as real
  {
    if r >= 0.0 then r.Floor else -((-r).Floor)
  }

  /** A decimal integer literal: an optional sign and at least one ASCII digit. */
  function ParseIntLiteral(t: string): (r: Option<int>)
    ensures r.Some? ==> t != [] && !IsPySpace(t[0])
  {
    if |t| > 1 && (t[0] == '+' || t[0] == '-') && AllDigits(t[1..]) then
      var n: int := ParseDigits(t[1..]);
      Some(if t[0] == '-' then -n else n)
    else if |t| > 0 && AllDigits(t) then Some(ParseDigits(t))
    else None
  }

  /** `int(v)`; `None` where Python raises `ValueError` or `TypeError`.
      Strings are stripped first, as `int(" 7 ")` allows. */
  function PyInt(v: JsonValue): (r: Option<int>)
    ensures v.JInt? ==> r == Some(v.i)
    ensures v.JBool? ==> r == Some(if v.b then 1 else 0)
    ensures v.JNull? || v.JArray? || v.JObject? ==> r.None?
    ensures v.JString? && IsBlank(Python, v.s) ==> r.None?
  {
    match v
    case JBool(b) => Some(if b then 1 else 0)
    case JInt(i) => Some(i)
    case JFloat(r) => Some(Truncate(r))
    case JString(s) => ParseIntLiteral(Strip(Python, s))
    case _ => None
  }

  lemma DigitIsNotSpaceOrSign(c: char)
    requires IsDigit(c)
    ensures !IsPySpace(c) && c != '+' && c != '-'
  {
  }

  /** `int(str(i)) == i`: a number rendered in decimal (as the browser
      stores a chat id) reads back as the same number. */
  lemma PyIntReadsRendered(i: int)
    ensures PyInt(JString(IntToString(i))) == Some(i)
  {
    var s := IntToString(i);
    if i >= 0 {
      DigitIsNotSpaceOrSign(s[0]);
      DigitIsNotSpaceOrSign(s[|s| - 1]);
      StripUnpadded(Python, s);
      ParseNatToString(i);
      assert ParseIntLiteral(s) == Some(i);
    } else {
      var digits := NatToString(-i);
      DigitIsNotSpaceOrSign(digits[|digits| - 1]);
      assert s[|s| - 1] == digits[|digits| - 1];
      StripUnpadded(Python, s);
      assert s[1..] == digits;
      ParseNatToString(-i);
      assert ParseIntLiteral(s) == Some(i);
    }
  }
}

=== FILE: registration.dfy ===
/** User registration (`RegisterSerializer` in users/serializers.py) as a
    transition of a registry of users, and the public view of a user
    (`UserSerializer`).

    Validation follows the serializer framework's order: every field is
    checked first and all field errors are reported together; only when there
    are none does the object-level check (`validate`, the two passwords must
    match) run.  Each string field is a `CharField` with the default
    `trim_whitespace=True`: a value that is empty or all whitespace fails with
    the blank message before any validator runs, and every other value is
    stripped (Python's `str.strip`) before the validators, the `validate_*`
    methods, the match check and `create` see it.  After a field's own
    validators, `CharField` always runs the null-character check.  The
    password validators and the password hasher are parameters. */
module Registration {
  import opened Common
  import opened Strings

  /** A `CustomUser` row; `passwordHash` is what `set_password` stores. */
  datatype User = User(id: nat, username: string, email: string, phone: Option<string>, passwordHash: string)

  datatype Registry = Registry(users: seq<User>, nextId: nat)

  /** The request body of a registration. */
  datatype Registration = Registration(
    username: string,
    email: string,
    phone: Option<string>,
    password: string,
    password2: string)

  /** The error messages of the configured password validators for a
      candidate password (empty when it passes). */
  type PasswordValidators = string -> seq<string>

  type Hasher = string -> string

  /** Field name to messages, as the 400 response carries them. */
  type Errors = map<string, seq<string>>

  /** What the 201 response shows: the serializer's readable fields (the two
      passwords are write-only). */
  datatype Created = Created(username: string, email: string, phone: Option<string>)

  datatype Outcome = Invalid(errors: Errors) | Registered(data: Created)

  datatype Result = Result(outcome: Outcome, registry: Registry)

  const EmailTaken: string := "Email is already taken."
  const PasswordMismatch: string := "Password fields didn't match."
  const BlankField: string := "This field may not be blank."
  const NullCharacters: string := "Null characters are not allowed."

  /** The character `ProhibitNullCharactersValidator` refuses. */
  const Nul: char := '\0'

  /** The value a `CharField` hands on: the submitted string, stripped. */
  function Cleaned(s: string): (c: string)
    ensures c == [] <==> IsBlank(Python, s)
    ensures |c| <= |s|
  {
    Strip(Python, s)
  }

  predicate EmailInUse(reg: Registry, email: string) {
    exists i :: 0 <= i < |reg.users| && reg.users[i].email == email
  }

  /** No two users share an email, and ids are unique and below the next id. */
  predicate Consistent(reg: Registry) {
    && (forall i, j :: 0 <= i < j < |reg.users| ==> reg.users[i].email != reg.users[j].email)
    && (forall i, j :: 0 <= i < j < |reg.users| ==> reg.users[i].id != reg.users[j].id)
    && (forall i :: 0 <= i < |reg.users| ==> reg.users[i].id < reg.nextId)
  }

  /** The messages of a `CharField` with the given validators: the blank
      message for a blank value; otherwise the validators' messages on the
      stripped value, followed by the null-character message. */
  function CharFieldErrors(value: string, validators: PasswordValidators): (msgs: seq<string>)
    ensures IsBlank(Python, value) ==> msgs == [BlankField]
    ensures !IsBlank(Python, value) ==>
              msgs == validators(Cleaned(value)) + (if Nul in value then [NullCharacters] else [])
    ensures msgs == [] <==> !IsBlank(Python, value) && validators(Cleaned(value)) == [] && Nul !in value
  {
    if IsBlank(Python, value) then [BlankField]
    else
      NulSurvivesStrip(value);
      validators(Cleaned(value)) + (if Nul in Cleaned(value) then [NullCharacters] else [])
  }

  /** Stripping never removes the null character, which is not whitespace. */
  lemma NulSurvivesStrip(value: string)
    ensures Nul in Cleaned(value) <==> Nul in value
  {
    if Nul in value {
      var k :| 0 <= k < |value| && value[k] == Nul;
      StripKeepsNonSpace(Python, value, k);
    } else {
      CleanedIsInfix(value);
    }
  }

  /** The stripped value is a run of the value's own characters. */
  lemma CleanedIsInfix(value: string)
    ensures forall c :: c in Cleaned(value) ==> c in value
  {
    var a := LeadingSpaces(Python, value);
    var rest := value[a..];
    assert Cleaned(value) == rest[..|rest| - TrailingSpaces(Python, rest)];
  }

  /** `password2` declares no validators of its own. */
  const NoValidators: PasswordValidators := (p: string) => []

  /** The messages of the `password2` field: blank, or a null character. */
  function Password2Errors(password2: string): (msgs: seq<string>)
    ensures msgs == [] <==> !IsBlank(Python, password2) && Nul !in password2
    ensures IsBlank(Python, password2) ==> msgs == [BlankField]
    ensures !IsBlank(Python, password2) && Nul in password2 ==> msgs == [NullCharacters]
  {
    CharFieldErrors(password2, NoValidators)
  }

  /** The field-level errors: the `password` field's messages, the
      `password2` field's messages, and the uniqueness message under `email`
      (checked on the stripped address). */
  function FieldErrors(reg: Registry, r: Registration, validators: PasswordValidators): (errors: Errors)
    ensures "password" in errors <==> CharFieldErrors(r.password, validators) != []
    ensures "password" in errors ==> errors["password"] == CharFieldErrors(r.password, validators)
    ensures "password2" in errors <==> Password2Errors(r.password2) != []
    ensures "password2" in errors ==> errors["password2"] == Password2Errors(r.password2)
    ensures "email" in errors <==> EmailInUse(reg, Cleaned(r.email))
    ensures "email" in errors ==> errors["email"] == [EmailTaken]
    ensures forall k :: k in errors ==> k == "password" || k == "password2" || k == "email"
  {
    var msgs := CharFieldErrors(r.password, validators);
    var e0: Errors := if EmailInUse(reg, Cleaned(r.email)) then map["email" := [EmailTaken]] else map[];
    var e1 := if msgs != [] then e0["password" := msgs] else e0;
    var msgs2 := Password2Errors(r.password2);
    if msgs2 != [] then e1["password2" := msgs2] else e1
  }

  /** Every field passes: both passwords are non-blank and free of null
      characters, the validators accept the stripped password and the
      stripped email is free. */
  predicate FieldsValid(reg: Registry, r: Registration, validators: PasswordValidators) {
    && !IsBlank(Python, r.password) && !IsBlank(Python, r.password2)
    && Nul !in r.password && Nul !in r.password2
    && validators(Cleaned(r.password)) == []
    && !EmailInUse(reg, Cleaned(r.email))
  }

  /** `serializer.is_valid()` followed by `serializer.save()`. */
  function Register(reg: Registry, r: Registration, validators: PasswordValidators, hash: Hasher): (res: Result)
    ensures res.outcome.Invalid? ==> res.registry == reg && res.outcome.errors != map[]
    ensures !FieldsValid(reg, r, validators) ==> res.outcome == Invalid(FieldErrors(reg, r, validators))
    ensures res.outcome.Registered? <==>
              FieldsValid(reg, r, validators) && Cleaned(r.password) == Cleaned(r.password2)
    ensures FieldsValid(reg, r, validators) && Cleaned(r.password) != Cleaned(r.password2) ==>
              res.outcome == Invalid(map["password" := [PasswordMismatch]])
    ensures res.outcome.Registered? ==>
              && res.registry.users == reg.users + [User(reg.nextId, Cleaned(r.username), Cleaned(r.email), r.phone, hash(Cleaned(r.password)))]
              && res.registry.nextId == reg.nextId + 1
              && res.outcome.data == Created(Cleaned(r.username), Cleaned(r.email), r.phone)
  {
    var errors := FieldErrors(reg, r, validators);
    if errors != map[] then Result(Invalid(errors), reg)
    else if Cleaned(r.password) != Cleaned(r.password2) then Result(Invalid(map["password" := [PasswordMismatch]]), reg)
    else
      var user := User(reg.nextId, Cleaned(r.username), Cleaned(r.email), r.phone, hash(Cleaned(r.password)));
      Result(Registered(Created(user.username, user.email, r.phone)), Registry(reg.users + [user], reg.nextId + 1))
  }

  /** A blank password is reported as blank; the validators never see it. */
  lemma BlankPasswordNotValidated(reg: Registry, r: Registration, validators: PasswordValidators, hash: Hasher)
    requires IsBlank(Python, r.password)
    ensures var res := Register(reg, r, validators, hash);
            && res.outcome.Invalid?
            && "password" in res.outcome.errors
            && res.outcome.errors["password"] == [BlankField]
  {
  }

  /** A null character in either password is refused under its field, even
      when the two passwords match and the validators accept. */
  lemma NullCharacterRefused(reg: Registry, r: Registration, validators: PasswordValidators, hash: Hasher)
    requires Nul in r.password || Nul in r.password2
    ensures var res := Register(reg, r, validators, hash);
            && res.outcome.Invalid? && res.registry == reg
            && (Nul in r.password ==> "password" in res.outcome.errors && NullCharacters in res.outcome.errors["password"])
            && (Nul in r.password2 ==> res.outcome.errors.Keys >= {"password2"} && res.outcome.errors["password2"] == [NullCharacters])
  {
    if Nul in r.password {
      var k :| 0 <= k < |r.password| && r.password[k] == Nul;
      assert !IsBlank(Python, r.password) by { assert !IsSpace(Python, r.password[k]); }
    }
    if Nul in r.password2 {
      var k :| 0 <= k < |r.password2| && r.password2[k] == Nul;
      assert !IsBlank(Python, r.password2) by { assert !IsSpace(Python, r.password2[k]); }
    }
  }

  /** Passwords are compared and hashed after stripping: surrounding
      whitespace on either is ignored. */
  lemma PasswordsComparedStripped(reg: Registry, r: Registration, validators: PasswordValidators, hash: Hasher)
    requires FieldsValid(reg, r, validators)
    requires r.password2 == [' '] + r.password + ['\n']
    ensures var res := Register(reg, r, validators, hash);
            && res.outcome.Registered?
            && res.registry.users[|reg.users|].passwordHash == hash(Cleaned(r.password))
  {
    StripSurrounded(Python, ' ', r.password, '\n');
  }

  /** Registration keeps emails unique, ids unique and below the next id. */
  lemma RegisterPreservesConsistent(reg: Registry, r: Registration, validators: PasswordValidators, hash: Hasher)
    requires Consistent(reg)
    ensures Consistent(Register(reg, r, validators, hash).registry)
  {
    var res := Register(reg, r, validators, hash);
    if res.outcome.Registered? {
      AddFreshUser(reg, res.registry.users[|reg.users|]);
    }
  }

  /** Appending a user with the next id and an unused email keeps the
      registry consistent. */
  lemma AddFreshUser(reg: Registry, u: User)
    requires Consistent(reg) && u.id == reg.nextId && !EmailInUse(reg, u.email)
    ensures Consistent(Registry(reg.users + [u], reg.nextId + 1))
  {
    var us := reg.users + [u];
    assert forall i :: 0 <= i < |reg.users| ==> us[i] == reg.users[i];
  }

  /** Registering the same email twice, up to surrounding whitespace: the
      second attempt is rejected with the uniqueness message and changes
      nothing. */
  lemma SecondRegistrationWithEmailFails(reg: Registry, r1: Registration, r2: Registration,
                                         validators: PasswordValidators, hash: Hasher)
    requires Register(reg, r1, validators, hash).outcome.Registered?
    requires Cleaned(r2.email) == Cleaned(r1.email)
    ensures var reg' := Register(reg, r1, validators, hash).registry;
            var res := Register(reg', r2, validators, hash);
            && res.outcome.Invalid?
            && "email" in res.outcome.errors && res.outcome.errors["email"] == [EmailTaken]
            && res.registry == reg'
  {
    var reg' := Register(reg, r1, validators, hash).registry;
    assert reg'.users[|reg.users|].email == Cleaned(r2.email);
    assert EmailInUse(reg', Cleaned(r2.email));
  }

  /** A registered user is the last row, with the submitted username, email
      and phone number (the strings stripped) and the hash of the stripped
      password; it is found by its email. */
  lemma RegisteredUserIsStored(reg: Registry, r: Registration, validators: PasswordValidators, hash: Hasher)
    requires Register(reg, r, validators, hash).outcome.Registered?
    ensures var users := Register(reg, r, validators, hash).registry.users;
            && users[|users| - 1].passwordHash == hash(Cleaned(r.password))
            && Serialize(users[|users| - 1]) == UserData(reg.nextId, Cleaned(r.username), Cleaned(r.email), r.phone)
            && EmailInUse(Register(reg, r, validators, hash).registry, Cleaned(r.email))
  {
    var users := Register(reg, r, validators, hash).registry.users;
    assert users[|users| - 1].email == Cleaned(r.email);
  }

  /** `UserSerializer`: id, username, email and phone number. */
  datatype UserData = UserData(id: nat, username: string, email: string, phone: Option<string>)

  function Serialize(u: User): (d: UserData)
    ensures d.id == u.id && d.username == u.username && d.email == u.email && d.phone == u.phone
  {
    UserData(u.id, u.username, u.email, u.phone)
  }

  /** The public view never depends on the password hash, and it identifies
      the user up to that hash. */
  lemma SerializeHidesPassword(u: User, v: User)
    ensures Serialize(u) == Serialize(v) <==> u.(passwordHash := v.passwordHash) == v
  {
  }
}

=== FILE: retrieval.dfy ===
/** `query_document` (documents/embeddings.py): embed the question, ask the
    document's collection for its nearest chunks, and reshape the column-wise
    answer into one record per chunk.

    The vector store is the ingestion module's index (collection name to the
    upserts it received) plus an opaque nearest-neighbour search over a
    collection's contents; the query-embedding service is a parameter. */
module Retrieval {
  import opened Common
  import opened Strings
  import opened Json
  import opened DocModels
  import opened Ingestion

  /** The column-wise answer of `collection.query(...)`: per requested field,
      one list per query embedding.  A field the answer lacks is `None`;
      a chunk stored without metadata has metadata `None`. */
  datatype QueryAnswer = QueryAnswer(
    documents: Option<seq<seq<string>>>,
    metadatas: Option<seq<seq<Option<ChunkMeta>>>>,
    distances: Option<seq<seq<real>>>)

  /** Nearest-neighbour search over a collection's contents; `None` when the
      call raises. */
  type Search = (seq<Upsert>, Vector, int) -> Option<QueryAnswer>

  /** `available` is false when the `chromadb` import failed. */
  datatype Store = Store(available: bool, index: Index, search: Search)

  /** The query-embedding service; `None` when the call raises. */
  type QueryEmbedder = JsonValue -> Option<Vector>

  /** One output record: `{text, metadata, distance, file_name}`. */
  datatype Match = Match(text: string, metadata: ChunkMeta, distance: real, fileName: string)

  /** The exceptions that escape `query_document` to its caller. */
  datatype Fault =
    | EmbedRaised        // the query embedding call raised
    | IndexOutOfRange    // `[0]` of an empty list, or `metas[i]` / `dists[i]` past the end
    | MetadataMissing    // `metas[i].get(...)` on `None`

  datatype Retrieved = Found(matches: seq<Match>) | Raised(fault: Fault)

  /** `f"document_{document_id}"` for any integer id. */
  function QueryCollection(docId: int): (name: string)
    ensures docId >= 0 ==> name == CollectionName(docId)
  {
    "document_" + IntToString(docId)
  }

  /** `results.get(field, [[]])[0]`; `None` for the `IndexError` of an empty outer list. */
  function FirstList<T>(field: Option<seq<seq<T>>>): (r: Option<seq<T>>)
    ensures field.None? ==> r == Some([])
    ensures field.Some? ==> (r.Some? <==> field.value != [])
    ensures r.Some? && field.Some? ==> r.value == field.value[0]
  {
    match field
    case None => Some([])
    case Some(lists) => if lists == [] then None else Some(lists[0])
  }

  /** Row `i` can be built: its metadata and distance exist and the metadata is not `None`. */
  predicate RowOk(metas: seq<Option<ChunkMeta>>, dists: seq<real>, i: nat) {
    i < |metas| && i < |dists| && metas[i].Some?
  }

  function Row(docs: seq<string>, metas: seq<Option<ChunkMeta>>, dists: seq<real>, i: nat): Match
    requires i < |docs| && RowOk(metas, dists, i)
  {
    Match(docs[i], metas[i].value, dists[i], metas[i].value.fileName)
  }

  /** The `for i in range(len(docs))` loop, from row `from` on. */
  function ShapeFrom(docs: seq<string>, metas: seq<Option<ChunkMeta>>, dists: seq<real>, from: nat): (r: Retrieved)
    requires from <= |docs|
    ensures r.Found? <==> forall i :: from <= i < |docs| ==> RowOk(metas, dists, i)
    ensures r.Found? ==> |r.matches| == |docs| - from
                         && forall k :: 0 <= k < |r.matches| ==> r.matches[k] == Row(docs, metas, dists, from + k)
    ensures r.Raised? ==> exists i :: from <= i < |docs| && !RowOk(metas, dists, i)
                                      && (forall j :: from <= j < i ==> RowOk(metas, dists, j))
                                      && r.fault == (if i < |metas| && i < |dists| then MetadataMissing else IndexOutOfRange)
    decreases |docs| - from
  {
    if from == |docs| then Found([])
    else if from >= |metas| || from >= |dists| then
      assert !RowOk(metas, dists, from);
      Raised(IndexOutOfRange)
    else if metas[from].None? then
      assert !RowOk(metas, dists, from);
      Raised(MetadataMissing)
    else
      match ShapeFrom(docs, metas, dists, from + 1)
      case Raised(f) => Raised(f)
      case Found(ms) => Found([Row(docs, metas, dists, from)] + ms)
  }

  /** Reshaping a successful answer: the three columns, then the rows. */
  function ShapeAnswer(answer: QueryAnswer): (r: Retrieved)
    ensures r.Found? && answer.documents.Some? ==>
      answer.documents.value != [] && |r.matches| == |answer.documents.value[0]|
    ensures r.Found? && r.matches != [] ==> answer.documents.Some? && answer.metadatas.Some? && answer.distances.Some?
    ensures r.Raised? ==> r.fault != EmbedRaised
  {
    match (FirstList(answer.documents), FirstList(answer.metadatas), FirstList(answer.distances))
    case (Some(docs), Some(metas), Some(dists)) => ShapeFrom(docs, metas, dists, 0)
    case _ => Raised(IndexOutOfRange)
  }

  /** `query_document(document_id, query, top_k)`. */
  function QueryDocument(store: Store, embed: QueryEmbedder, docId: int, query: JsonValue, topK: int): (r: Retrieved)
    ensures !store.available || QueryCollection(docId) !in store.index ==> r == Found([])
    ensures store.available && QueryCollection(docId) in store.index && embed(query).None? ==> r == Raised(EmbedRaised)
    ensures (&& store.available && QueryCollection(docId) in store.index && embed(query).Some?
             && store.search(store.index[QueryCollection(docId)], embed(query).value, topK).None?)
            ==> r == Found([])
    ensures r == Raised(EmbedRaised) ==> embed(query).None?
    ensures r.Found? && r.matches != [] ==>
      && store.available && QueryCollection(docId) in store.index && embed(query).Some?
      && var answer := store.search(store.index[QueryCollection(docId)], embed(query).value, topK);
         answer.Some? && answer.value.documents.Some? && answer.value.documents.value != []
         && |r.matches| == |answer.value.documents.value[0]|
  {
    var name := QueryCollection(docId);
    if !store.available || name !in store.index then Found([])
    else
      match embed(query)
      case None => Raised(EmbedRaised)
      case Some(v) =>
        match store.search(store.index[name], v, topK)
        case None => Found([])
        case Some(answer) => ShapeAnswer(answer)
  }

  /** The search honours `n_results`: it never returns more than `top_k` chunks. */
  ghost predicate HonoursTopK(store: Store) {
    forall ups, v, k ::
      var answer := store.search(ups, v, k);
      answer.Some? && answer.value.documents.Some? && answer.value.documents.value != [] ==>
        |answer.value.documents.value[0]| <= k
  }

  /** When the search honours `n_results`, so does `query_document`. */
  lemma AtMostTopK(store: Store, embed: QueryEmbedder, docId: int, query: JsonValue, topK: int)
    requires HonoursTopK(store)
    ensures var r := QueryDocument(store, embed, docId, query, topK);
            r.Found? ==> |r.matches| <= topK || r.matches == []
  {
    var r := QueryDocument(store, embed, docId, query, topK);
    if r.Found? && r.matches != [] {
      var name := QueryCollection(docId);
      var answer := store.search(store.index[name], embed(query).value, topK);
      assert answer.value.documents.value != [];
    }
  }

  /** A well-formed answer (one list per field, rows aligned, metadata
      present) is reshaped row by row, in the search's order, and each
      record's `file_name` is its metadata's file name. */
  lemma AlignedAnswerShapes(docs: seq<string>, metas: seq<ChunkMeta>, dists: seq<real>)
    requires |metas| >= |docs| && |dists| >= |docs|
    ensures var wrapped := seq(|metas|, i requires 0 <= i < |metas| => Some(metas[i]));
            var r := ShapeAnswer(QueryAnswer(Some([docs]), Some([wrapped]), Some([dists])));
            && r.Found? && |r.matches| == |docs|
            && forall i :: 0 <= i < |docs| ==>
                 r.matches[i] == Match(docs[i], metas[i], dists[i], metas[i].fileName)
  {
    var wrapped := seq(|metas|, i requires 0 <= i < |metas| => Some(metas[i]));
    assert forall i :: 0 <= i < |docs| ==> RowOk(wrapped, dists, i);
    var r := ShapeFrom(docs, wrapped, dists, 0);
    assert forall i :: 0 <= i < |docs| ==> r.matches[i] == Row(docs, wrapped, dists, i);
  }
}

=== FILE: strings.dfy ===
/** String helpers shared by the Python views and the JavaScript frontend:
    whitespace stripping (with each language's own whitespace set), splitting,
    joining, prefixes and decimal rendering of integers.  Strings are sequences
    of Unicode scalar values, as Python's `str` is. */
module Strings {

  /** Which runtime's notion of whitespace a strip or trim uses. */
  datatype Lang = Python | JavaScript

  /** Python's `str.isspace()` for one character (what `str.strip()` removes). */
  predicate IsPySpace(c: char) {
    || c == ' '
    || ('\t' <= c <= '\r')
    || ('\U{1C}' <= c <= '\U{1F}')
    || c == '\U{85}' || c == '\U{A0}' || c == '\U{1680}'
    || ('\U{2000}' <= c <= '\U{200A}')
    || c == '\U{2028}' || c == '\U{2029}' || c == '\U{202F}' || c == '\U{205F}' || c == '\U{3000}'
  }

  /** ECMAScript WhiteSpace and LineTerminator (what `String.prototype.trim` removes). */
  predicate IsJsSpace(c: char) {
    || c == ' '
    || ('\t' <= c <= '\r')
    || c == '\U{A0}' || c == '\U{1680}'
    || ('\U{2000}' <= c <= '\U{200A}')
    || c == '\U{2028}' || c == '\U{2029}' || c == '\U{202F}' || c == '\U{205F}' || c == '\U{3000}'
    || c == '\U{FEFF}'
  }

  predicate IsSpace(lang: Lang, c: char) {
    match lang
    case Python => IsPySpace(c)
    case JavaScript => IsJsSpace(c)
  }

  /** Every character of `s` is whitespace (vacuously true of ""). */
  predicate IsBlank(lang: Lang, s: string) {
    forall k :: 0 <= k < |s| ==> IsSpace(lang, s[k])
  }

  /** Length of the whitespace run at the front of `s`. */
  function LeadingSpaces(lang: Lang, s: string): (n: nat)
    ensures n <= |s|
    ensures forall k :: 0 <= k < n ==> IsSpace(lang, s[k])
    ensures n < |s| ==> !IsSpace(lang, s[n])
  {
    if |s| == 0 || !IsSpace(lang, s[0]) then 0 else 1 + LeadingSpaces(lang, s[1..])
  }

  /** Length of the whitespace run at the back of `s`. */
  function TrailingSpaces(lang: Lang, s: string): (n: nat)
    ensures n <= |s|
    ensures forall k :: |s| - n <= k < |s| ==> IsSpace(lang, s[k])
    ensures n < |s| ==> !IsSpace(lang, s[|s| - 1 - n])
  {
    if |s| == 0 || !IsSpace(lang, s[|s| - 1]) then 0 else 1 + TrailingSpaces(lang, s[..|s| - 1])
  }

  /** `s.strip()` in Python, `s.trim()` in JavaScript. */
  function Strip(lang: Lang, s: string): (r: string)
    ensures |r| <= |s|
    ensures r == [] <==> IsBlank(lang, s)
    ensures r != [] ==> !IsSpace(lang, r[0]) && !IsSpace(lang, r[|r| - 1])
    ensures !IsBlank(lang, s) ==> IsBlank(lang, s[..LeadingSpaces(lang, s)])
  {
    var a := LeadingSpaces(lang, s);
    var rest := s[a..];
    var b := TrailingSpaces(lang, rest);
    assert !IsBlank(lang, s) ==> b < |rest| by {
      if !IsBlank(lang, s) {
        var k :| 0 <= k < |s| && !IsSpace(lang, s[k]);
        assert !IsSpace(lang, rest[k - a]);
      }
    }
    rest[..|rest| - b]
  }

  /** What `strip()`/`trim()` computes: the text with its leading and its
      trailing whitespace runs cut off, and nothing else. */
  lemma StripRemovesOuterSpaces(lang: Lang, s: string)
    ensures exists a, b :: && 0 <= a <= b <= |s| && Strip(lang, s) == s[a..b]
                           && IsBlank(lang, s[..a]) && IsBlank(lang, s[b..])
  {
    var a := LeadingSpaces(lang, s);
    var e := |s| - TrailingSpaces(lang, s[a..]);
    StripIsSlice(lang, s, a, TrailingSpaces(lang, s[a..]));
    LeadingRunBlank(lang, s);
    TrailingRunBlank(lang, s, a);
    assert 0 <= a <= e <= |s| && Strip(lang, s) == s[a..e] && IsBlank(lang, s[..a]) && IsBlank(lang, s[e..]);
  }

  lemma StripIsSlice(lang: Lang, s: string, a: nat, b: nat)
    requires a == LeadingSpaces(lang, s) && b == TrailingSpaces(lang, s[a..])
    ensures a + b <= |s| && Strip(lang, s) == s[a..|s| - b]
  {
    var rest := s[a..];
    assert rest[..|rest| - b] == s[a..|s| - b];
  }

  lemma LeadingRunBlank(lang: Lang, s: string)
    ensures IsBlank(lang, s[..LeadingSpaces(lang, s)])
  {
  }

  lemma TrailingRunBlank(lang: Lang, s: string, a: nat)
    requires a <= |s|
    ensures IsBlank(lang, s[|s| - TrailingSpaces(lang, s[a..])..])
  {
    var t := TrailingSpaces(lang, s[a..]);
    var u := s[|s| - t..];
    forall k | 0 <= k < |u|
      ensures IsSpace(lang, u[k])
    {
      assert u[k] == s[a..][|s| - a - t + k];
    }
  }

  /** Stripping removes whitespace only: every other character of the text
      survives it. */
  lemma StripKeepsNonSpace(lang: Lang, s: string, k: nat)
    requires k < |s| && !IsSpace(lang, s[k])
    ensures s[k] in Strip(lang, s)
  {
    var a := LeadingSpaces(lang, s);
    var rest := s[a..];
    var b := TrailingSpaces(lang, rest);
    assert a <= k;
    assert rest[k - a] == s[k];
    assert Strip(lang, s) == rest[..|rest| - b];
    assert Strip(lang, s)[k - a] == s[k];
  }

  /** Two strings that agree once their leading whitespace is dropped strip
      to the same result. */
  lemma StripSameRest(lang: Lang, s: string, t: string)
    requires s[LeadingSpaces(lang, s)..] == t[LeadingSpaces(lang, t)..]
    ensures Strip(lang, s) == Strip(lang, t)
  {
  }

  lemma LeadingSpacesCons(lang: Lang, c: char, s: string)
    requires IsSpace(lang, c)
    ensures LeadingSpaces(lang, [c] + s) == 1 + LeadingSpaces(lang, s)
  {
    assert ([c] + s)[1..] == s;
  }

  /** Trimming ignores a leading whitespace character. */
  lemma LeadingSpaceStripped(lang: Lang, c: char, s: string)
    requires IsSpace(lang, c)
    ensures Strip(lang, [c] + s) == Strip(lang, s)
  {
    LeadingSpacesCons(lang, c, s);
    SliceOfCons(c, s, LeadingSpaces(lang, s));
    StripSameRest(lang, [c] + s, s);
  }

  lemma SliceOfCons(c: char, s: string, a: nat)
    requires a <= |s|
    ensures ([c] + s)[1 + a..] == s[a..]
  {
  }

  /** A string with a non-space character keeps its leading run whatever
      follows it. */
  lemma {:induction false} LeadingSpacesAppend(lang: Lang, s: string, t: string)
    requires !IsBlank(lang, s)
    ensures LeadingSpaces(lang, s + t) == LeadingSpaces(lang, s)
    decreases |s|
  {
    assert (s + t)[0] == s[0];
    if IsSpace(lang, s[0]) {
      assert (s + t)[1..] == s[1..] + t;
      assert !IsBlank(lang, s[1..]) by {
        var k :| 0 <= k < |s| && !IsSpace(lang, s[k]);
        assert s[1..][k - 1] == s[k];
      }
      LeadingSpacesAppend(lang, s[1..], t);
    }
  }

  lemma TrailingSpacesSnoc(lang: Lang, s: string, d: char)
    requires IsSpace(lang, d)
    ensures TrailingSpaces(lang, s + [d]) == 1 + TrailingSpaces(lang, s)
  {
    assert (s + [d])[..|s|] == s;
  }

  lemma BlankSnoc(lang: Lang, s: string, d: char)
    requires IsBlank(lang, s) && IsSpace(lang, d)
    ensures IsBlank(lang, s + [d])
  {
    var t := s + [d];
    forall k | 0 <= k < |t|
      ensures IsSpace(lang, t[k])
    {
      if k < |s| {
        assert t[k] == s[k];
      }
    }
  }

  lemma StripBlank(lang: Lang, s: string)
    requires IsBlank(lang, s)
    ensures Strip(lang, s) == []
  {
  }

  /** Two strings whose parts between the whitespace runs agree strip to
      the same result. */
  lemma StripSameCore(lang: Lang, s: string, t: string, a: nat, a': nat)
    requires a == LeadingSpaces(lang, s) && a' == LeadingSpaces(lang, t)
    requires s[a..][..|s| - a - TrailingSpaces(lang, s[a..])] == t[a'..][..|t| - a' - TrailingSpaces(lang, t[a'..])]
    ensures Strip(lang, s) == Strip(lang, t)
  {
  }

  lemma SnocPrefix(u: string, d: char, n: nat)
    requires n <= |u|
    ensures (u + [d])[..n] == u[..n]
  {
  }

  /** Trimming ignores a trailing whitespace character. */
  lemma TrailingSpaceStripped(lang: Lang, s: string, d: char)
    requires IsSpace(lang, d)
    ensures Strip(lang, s + [d]) == Strip(lang, s)
  {
    if IsBlank(lang, s) {
      BlankSnoc(lang, s, d);
      StripBlank(lang, s);
      StripBlank(lang, s + [d]);
    } else {
      var t := s + [d];
      LeadingSpacesAppend(lang, s, [d]);
      var a := LeadingSpaces(lang, s);
      var rest := s[a..];
      assert t[a..] == rest + [d];
      TrailingSpacesSnoc(lang, rest, d);
      SnocPrefix(rest, d, |rest| - TrailingSpaces(lang, rest));
      StripSameCore(lang, t, s, a, a);
    }
  }

  /** Trimming ignores one whitespace character on each side. */
  lemma StripSurrounded(lang: Lang, c: char, s: string, d: char)
    requires IsSpace(lang, c) && IsSpace(lang, d)
    ensures Strip(lang, [c] + s + [d]) == Strip(lang, s)
  {
    assert [c] + s + [d] == [c] + (s + [d]);
    LeadingSpaceStripped(lang, c, s + [d]);
    TrailingSpaceStripped(lang, s, d);
  }

  /** Stripping a string that has no outer whitespace leaves it unchanged. */
  lemma StripUnpadded(lang: Lang, s: string)
    requires s == [] || (!IsSpace(lang, s[0]) && !IsSpace(lang, s[|s| - 1]))
    ensures Strip(lang, s) == s
  {
    assert LeadingSpaces(lang, s) == 0;
    assert TrailingSpaces(lang, s) == 0;
  }

  /** Stripping is idempotent. */
  lemma StripIdempotent(lang: Lang, s: string)
    ensures Strip(lang, Strip(lang, s)) == Strip(lang, s)
  {
    StripUnpadded(lang, Strip(lang, s));
  }

  /** `s.startswith(prefix)` / `s.startsWith(prefix)`. */
  predicate StartsWith(s: string, prefix: string) {
    |prefix| <= |s| && s[..|prefix|] == prefix
  }

  /** Index of the first occurrence of `c` in `s`. */
  function IndexOf(s: string, c: char): (i: nat)
    requires c in s
    ensures i < |s| && s[i] == c
    ensures c !in s[..i]
  {
    if s[0] == c then 0 else 1 + IndexOf(s[1..], c)
  }

  /** Index of the last occurrence of `c` in `s`, or -1 (Python's `rfind`). */
  function LastIndexOf(s: string, c: char): (i: int)
    ensures -1 <= i < |s|
    ensures i >= 0 ==> s[i] == c
    ensures forall k :: i < k < |s| ==> s[k] != c
  {
    if |s| == 0 then -1
    else if s[|s| - 1] == c then |s| - 1
    else LastIndexOf(s[..|s| - 1], c)
  }

  /** `s.split(sep)` for a one-character separator (JavaScript and Python agree). */
  function Split(s: string, sep: char): (parts: seq<string>)
    ensures |parts| >= 1
    ensures forall i :: 0 <= i < |parts| ==> sep !in parts[i]
    decreases |s|
  {
    if sep !in s then [s]
    else
      var i := IndexOf(s, sep);
      [s[..i]] + Split(s[i + 1..], sep)
  }

  /** `sep.join(parts)`. */
  function Join(parts: seq<string>, sep: string): string {
    if |parts| == 0 then ""
    else if |parts| == 1 then parts[0]
    else parts[0] + sep + Join(parts[1..], sep)
  }

  /** Splitting and re-joining with the same separator gives back the input. */
  lemma {:induction false} JoinSplit(s: string, sep: char)
    ensures Join(Split(s, sep), [sep]) == s
    decreases |s|
  {
    if sep in s {
      var i := IndexOf(s, sep);
      var tail := s[i + 1..];
      JoinSplit(tail, sep);
      assert Split(s, sep) == [s[..i]] + Split(tail, sep);
      var parts := Split(s, sep);
      assert |parts| >= 2 && parts[0] == s[..i] && parts[1..] == Split(tail, sep);
      assert Join(parts, [sep]) == s[..i] + [sep] + tail;
      assert s == s[..i] + [sep] + tail;
    }
  }

  /** ASCII lower-casing, character by character. */
  function AsciiLower(s: string): (r: string)
    ensures |r| == |s|
    ensures forall k :: 0 <= k < |s| ==> (if 'A' <= s[k] <= 'Z' then r[k] == s[k] - 'A' + 'a' else r[k] == s[k])
  {
    seq(|s|, k requires 0 <= k < |s| => if 'A' <= s[k] <= 'Z' then s[k] - 'A' + 'a' else s[k])
  }

  /** Decimal digit character for 0..9. */
  function Digit(d: nat): (c: char)
    requires d < 10
    ensures '0' <= c <= '9'
  {
    ('0' as int + d) as char
  }

  predicate IsDigit(c: char) {
    '0' <= c <= '9'
  }

  predicate AllDigits(s: string) {
    forall k :: 0 <= k < |s| ==> IsDigit(s[k])
  }

  /** `str(n)` for a non-negative integer. */
  function NatToString(n: nat): (r: string)
    ensures |r| >= 1
    ensures AllDigits(r)
  {
    if n < 10 then [Digit(n)] else NatToString(n / 10) + [Digit(n % 10)]
  }

  /** Value of a string of decimal digits, as `int(s)` reads it. */
  function ParseDigits(s: string): nat
    requires AllDigits(s)
  {
    if |s| == 0 then 0
    else ParseDigits(s[..|s| - 1]) * 10 + (s[|s| - 1] as int - '0' as int)
  }

  /** `int(str(n)) == n`. */
  lemma {:induction false} ParseNatToString(n: nat)
    ensures ParseDigits(NatToString(n)) == n
  {
    if n < 10 {
      assert NatToString(n) == [Digit(n)];
      assert Digit(n) as int - '0' as int == n;
    } else {
      var s := NatToString(n);
      assert s == NatToString(n / 10) + [Digit(n % 10)];
      assert s[..|s| - 1] == NatToString(n / 10);
      ParseNatToString(n / 10);
      assert Digit(n % 10) as int - '0' as int == n % 10;
    }
  }

  /** Distinct numbers render as distinct strings. */
  lemma NatToStringInjective(a: nat, b: nat)
    requires NatToString(a) == NatToString(b)
    ensures a == b
  {
    ParseNatToString(a);
    ParseNatToString(b);
  }

  /** A run of digits followed by a non-digit separator can be split off
      unambiguously: `a + [sep] + x == b + [sep] + y` forces `a == b` and `x == y`. */
  lemma DigitsPrefixUnique(a: string, b: string, sep: char, x: string, y: string)
    requires AllDigits(a) && AllDigits(b) && !IsDigit(sep)
    requires a + [sep] + x == b + [sep] + y
    ensures a == b && x == y
  {
    var l := a + [sep] + x;
    assert !IsDigit(l[|a|]) && !IsDigit(l[|b|]);
    assert forall k :: 0 <= k < |a| ==> IsDigit(l[k]);
    assert forall k :: 0 <= k < |b| ==> IsDigit(l[k]);
    assert a == l[..|a|] == b;
    assert x == l[|a| + 1..] == y;
  }

  /** `str(i)` for any integer (a leading '-' for negatives). */
  function IntToString(i: int): (r: string)
    ensures i >= 0 ==> r == NatToString(i)
    ensures i < 0 ==> r == "-" + NatToString(-i)
  {
    if i < 0 then "-" + NatToString(-i) else NatToString(i)
  }
}
